=== FILE: README.md ===
# Nexa backend business rules in Dafny

A model of the rules inside the controllers of the Nexa e-commerce backend, an Express and Mongoose service that sells mattresses, pillows and accessories. The model covers:

- checkout, both cash on delivery and the Razorpay gateway;
- order cancellation with refund and stock restore;
- the admin order-status setter;
- coupons;
- the account sign-up, verification and password-reset cycle;
- product creation and editing;
- product listings and the sales overview;
- the admin user edit;
- a customer's addresses, cart and wishlist;
- contact inquiries;
- the URL-to-public-id helper of the image configuration.

The database is one immutable value, `Model.Store`. Its parts are laid out as follows:

- Products and orders live in maps keyed by id.
- Users, coupons and inquiries live in sequences, because the handlers look them up with `findOne`, which returns the first match.

Every handler is a pure function from the store and the request to either an error or the new store:

- An error carries the HTTP status and a `Reason` saying which check fired.
- An aborted transaction is an `Err` with no store. So "nothing is written on failure" holds by construction.
- Handlers that save and then send mail return an `Outcome`, which keeps the saved users together with the reply. A failed send happens after the save and does not undo it.

Some inputs are parameters rather than part of the model:

- **Outside services and libraries.** The payment provider's order creation and refund, HMAC-SHA256, SHA-256, the password check, `slugify`, `parseFloat`/`parseInt` and the image uploads.
- **The clock.** `now`, in milliseconds.
- **Randomness.** `Math.random()` is a real number in [0, 1).
- **Database-assigned ids.** The id the database gives a new document.

One module per concern:

- `Api`: results, reasons, JavaScript truthiness and the first-match lookup.
- `Text`: `trim`, ASCII case mapping, `split`, `join`, `indexOf`.
- `Model`: the documents and the store.
- `Ledger`: the stock `$inc` bulk writes.
- `Pricing`: subtotal, shipping, discount and total.
- `Coupons`: the coupon handlers and the two coupon lookups.
- `Checkout`: the cart gate, pricing and commit shared by both checkouts, plus `placeCodOrder`.
- `Payment`: the gateway order, the payment verification, the refund helper and `cancelOrder`.
- `Orders`: `updateOrderStatus`.
- `Profile`: addresses, cart and wishlist.
- `Auth`: sign-up, verification, login and reset.
- `Catalog`: `createProduct` and `updateProduct`.
- `Listing`: pagination.
- `Admin`: the sales overview and `updateUser`.
- `Contact`: inquiries.
- `Cloudinary`: `getPublicIdFromUrl`.

Behaviour of the code that the model makes explicit, each stated as a lemma:

- **Stock can go negative.** Checkout checks each line against the stock read at the start of the request. The decrement that follows is an unconditional `$inc`, and `stock` has no lower bound in the schema. A product on two cart lines passes both checks and can go negative (`Ledger.DuplicateLinesOversell`).
- **`addToCart` can overfill a cart.** It compares only the added quantity with the stock, so a cart can ask for more than there is (`Profile.CartCanExceedStock`).
- **The two coupon lookups can disagree.** Checkout looks coupons up by the exact upper-cased code and status "active". `getCouponByCode` matches the code ignoring case and only then checks the status. They agree when codes are stored upper-case (`Coupons.LowerCaseCodeNeverApplies`, `Coupons.InactiveVariantShadowsActive`, `Coupons.LookupsAgreeOnCanonicalCodes`).
- **A coupon percentage has no upper bound**, so a coupon above 100 % produces a negative total (`Pricing.OverHundredPercentGoesNegative`).
- **The admin status setter accepts any of five statuses from any status, but never "Completed".** The sales overview sums only "Completed" orders, so it stays at zero (`Orders.CompletedCannotBeSet`). A cancelled order can be moved back to "Processing" and cancelled again, which restores its stock twice (`Orders.ReopenedOrderRestoresTwice`).
- **Creating and editing a product differ on uploads.** Creation refuses a partly failed upload. An edit keeps whatever URLs came back (`Catalog.PartialUploadScenario`).
- **Jewellery and bag fields change only when the request names the type.** An edit changes them only when the request itself sends `type` (`Catalog.TypeFieldsNeedTypeInRequest`).
- **An edit never updates the slug** (`Catalog.UpdateTouchesOnlyGivenFields`).

## Model

| member | source | states |
|---|---|---|
| Api.FindFirst | controllers/contact.controller.js:104 | the position of the first element with the key, or that no element has it: the `findById`, `findOne` and `findIndex` lookups |
| Ledger.Inc | controllers/payment.controller.js:185-190 | one `$inc` changes only that product's stock, by exactly the delta and with no lower bound; a missing product leaves the catalogue unchanged |
| Ledger.Decrement | controllers/user.controller.js:409-414 | checkout's bulk write lowers every product's stock by the total quantity its lines ask for, and leaves every other field and product alone |
| Ledger.Restore | controllers/payment.controller.js:309-318 | cancellation's bulk write raises every product's stock by the total quantity the order's lines hold |
| Ledger.RestoreUndoesDecrement | controllers/payment.controller.js:309-318 | restoring an order's lines after decrementing them gives back exactly the original products |
| Ledger.DecrementKeepsStockNonNegative | controllers/user.controller.js:388-394 | when each product is on at most one line and every line fits the stock read at the start, no stock goes negative |
| Ledger.DuplicateLinesOversell | controllers/user.controller.js:389-412 | two lines of one product each pass the gate against stock 1, and the unconditional decrements leave stock -1 |
| Pricing.SubtotalNonNegative | controllers/payment.controller.js:167-178 | a subtotal of non-negative prices and quantities is never negative |
| Pricing.ShippingFor | controllers/payment.controller.js:214 | shipping is 0 exactly when the subtotal exceeds 2000, and 99 otherwise |
| Pricing.QuoteFor | controllers/payment.controller.js:193-215 | the discount is the coupon's percentage of the subtotal, or 0 without a coupon; the stored code is the coupon's own; total = items + shipping - discount |
| Pricing.TotalCoversShipping | controllers/payment.controller.js:205-215 | with a percentage within [0, 100] the total is at least the shipping charge, so it is never negative |
| Pricing.OverHundredPercentGoesNegative | controllers/payment.controller.js:205-215 | a 150 % coupon on a 3000 cart gives a total of -1500 |
| Pricing.ScenarioBelowThreshold | controllers/user.controller.js:440-441 | a 1500 cart without a coupon pays 99 shipping, for a total of 1599 |
| Pricing.ScenarioCouponAboveThreshold | controllers/user.controller.js:432-441 | a 2500 cart with a 10 % coupon ships free and pays 2250 |
| Pricing.Round | controllers/payment.controller.js:94 | `Math.round` gives the integer within half a unit of its argument, halves rounding up |
| Pricing.ToPaise | controllers/payment.controller.js:94 | the amount in paise is within half a paisa of 100 times the rupee amount |
| Pricing.Abs | controllers/payment.controller.js:89 | the absolute value is non-negative and is the value or its negation |
| Coupons.FindActive | controllers/payment.controller.js:73-76 | finds the first coupon whose code equals the given code and is active; no earlier coupon qualifies; none means no coupon qualifies |
| Coupons.CheckoutCoupon | controllers/payment.controller.js:198-201 | the coupon applied at checkout is a stored active coupon whose code equals the upper-cased request; none means no such coupon exists |
| Coupons.FindIgnoringCase | controllers/coupon.controller.js:145-147 | finds the first coupon whose whole code equals the request ignoring case |
| Coupons.GetCouponByCode | controllers/coupon.controller.js:133-158 | 400 without a code, 404 when no code matches ignoring case, 403 when the first match is inactive; success returns an active stored coupon matching ignoring case |
| Coupons.CreateCoupon | controllers/coupon.controller.js:11-35 | 400 for a falsy code or percentage (so 0 % is refused); 409 when the exact code exists; 500 for a status outside the enum; succeeds exactly otherwise, appending the coupon with status defaulting to active |
| Coupons.UpdateCoupon | controllers/coupon.controller.js:73-101 | 400 for a malformed id or no truthy field, then 500 for a status outside the enum, then 404 for an unknown id; success exactly otherwise, changing only that coupon: truthy fields take their values, including the status a truthy `status` names, and the rest are kept |
| Coupons.UpdateCouponIdempotent | controllers/coupon.controller.js:83-97 | sending the same update again leaves the coupons as the first update left them |
| Coupons.UpdatedCouponAtCheckout | controllers/coupon.controller.js:83-97 | a coupon updated to an upper-case code and "active" is applied at checkout for that code; it is the one applied exactly when no earlier active coupon holds the same code, since the update never checks for clashes |
| Coupons.ListCoupons | controllers/coupon.controller.js:47-59 | "active" and "inactive" list each coupon with that status as often as it is stored and no other; any other value lists every coupon |
| Coupons.OfStatus | controllers/coupon.controller.js:54-59 | keeps each coupon with the status, with its multiplicity, and drops the rest |
| Coupons.OfStatusAppend | controllers/coupon.controller.js:54-59 | filtering two pieces of the list and joining them is filtering the whole, so the stored order survives |
| Coupons.LowerCaseCodeNeverApplies | controllers/coupon.controller.js:145-147 | a coupon stored as "save10" is returned by the code lookup but never applied at checkout |
| Coupons.InactiveVariantShadowsActive | controllers/coupon.controller.js:145-158 | an inactive "Save10" listed before an active "SAVE10" makes the lookup answer 403 while checkout applies "SAVE10" |
| Coupons.LookupsAgreeOnCanonicalCodes | controllers/coupon.controller.js:145-158 | with upper-case codes that are distinct ignoring case, the lookup succeeds exactly when checkout applies a coupon, and both pick the same coupon |
| Coupons.CreatedCouponAtCheckout | controllers/coupon.controller.js:27-31 | a newly created active coupon is applied at checkout for its own code exactly when that code is already upper case |
| Checkout.ResolveCart | controllers/payment.controller.js:171-191 | the lines resolve exactly when every line's product exists and covers the quantity; the order lines are the cart's lines with name and price frozen; on failure the first failing line decides the error |
| Checkout.SnapshotQuantities | controllers/user.controller.js:400-414 | the order lines ask for each product exactly what the cart asked for |
| Checkout.PriceCart | controllers/user.controller.js:422-437 | no truthy code gives no discount; a truthy code must name an active coupon by its upper-cased form, else 404 |
| Checkout.Prepare | controllers/payment.controller.js:157-215 | 400 for an empty cart, 404 for an unknown address, the error of the first cart line that fails the stock gate, 404 for an unknown or inactive coupon; success exactly when the cart, address, stock and coupon checks all pass, with lines and prices as promised |
| Checkout.Commit | controllers/payment.controller.js:218-246 | the commit writes the order, lowers each product's stock by the order's quantities, empties the buyer's cart and changes nothing else |
| Checkout.CommitTakesCart | controllers/user.controller.js:409-466 | committing a cart's snapshot takes from each product exactly the quantity the cart asked for |
| Checkout.PlaceCodOrder | controllers/user.controller.js:344-485 | 400 without an address id or user; every later guard failure (empty cart 400, unknown address 404, deleted product 404, short stock 400, unknown or inactive coupon 404) is passed on as the checkout core raises it; success exactly when every guard passes; then a COD order with status "Processing", tax 0 and the promised prices is written, stock drops by the cart and the cart empties |
| Payment.CreateRazorpayOrder | controllers/payment.controller.js:42-108 | 400 without an address id or amount; re-prices the cart as checkout does; 400 when the client total is more than 1 off; 500 when the provider returns nothing; otherwise the provider order for the total in paise |
| Payment.ProviderAmountMatchesTotal | controllers/payment.controller.js:89-94 | a successful gateway order's amount is within half a paisa of the server total, which is within 1 of the client's |
| Payment.SignedText | controllers/payment.controller.js:133 | the signed text is the order id, a bar and the payment id, each recoverable from it |
| Payment.VerifyPaymentAndPlaceOrder | controllers/payment.controller.js:111-269 | 400 for a missing field or a signature that is not the HMAC of the signed text, 404 for no user; every cart, address, stock (400) and coupon (404) failure is passed on as the checkout core raises it; success exactly when authentic and the cart gate passes; then a Razorpay order records both ids, stock drops and the cart empties |
| Payment.InitiateRefund | controllers/payment.controller.js:21-37 | a refund's receipt passes through; a rejection that says the payment was already fully refunded becomes a processed refund of the requested amount; any other rejection is a 500 |
| Payment.RepeatedRefundIsProcessed | controllers/payment.controller.js:29-35 | for every provider description containing "already been fully refunded", cancelling the paid order still succeeds, returns its stock and records a processed refund of its whole total |
| Payment.CancelOrder | controllers/payment.controller.js:278-329 | 400 for a malformed id, 404 unknown, 403 for neither owner nor admin, 400 for a shipped, delivered or cancelled order; success restores every line's stock, refunds paid orders in full, records who cancelled and why |
| Payment.SecondCancelFails | controllers/payment.controller.js:294-296 | once cancelled, any further cancel by anyone fails with 400 or 403, so the refund and the restore happen once |
| Payment.CodOrderCancellable | controllers/user.controller.js:444-458 | a fresh COD order can be cancelled by its owner, has no payment to refund, and its lines were taken from stock |
| Payment.CancelUnpaidRestores | controllers/payment.controller.js:299-318 | cancelling an unpaid cancellable order always succeeds and puts its lines back into stock |
| Payment.CancelAfterCodCheckoutRestoresStock | controllers/payment.controller.js:309-318 | placing a COD order and having its owner cancel it returns every product to the stock it had |
| Orders.UpdateOrderStatus | controllers/admin.controller.js:634-656 | 400 for a malformed id or a status not among the five, 404 for an unknown order; success exactly for a known order; only that order's status changes, and no stock moves |
| Orders.CompletedCannotBeSet | controllers/admin.controller.js:640-648 | "Completed", the status the sales overview counts, is always refused |
| Orders.ReopenedOrderRestoresTwice | controllers/admin.controller.js:649-653 | cancel, reopen as "Processing", cancel again: every product gains twice the order's quantities |
| Listing.CeilDiv | controllers/admin.controller.js:423 | the page count is the least number of pages of the given size that hold every match |
| Listing.Skip | controllers/admin.controller.js:402 | the offset is (page - 1) x limit and is never negative |
| Listing.PageSlice | controllers/admin.controller.js:405-408 | the page holds the matches from the offset on, at most `limit` of them, in order |
| Listing.GetAllProducts | controllers/admin.controller.js:400-428 | 404 exactly when something matches but the page is empty; otherwise the page, its number, the match count and the page count |
| Listing.PagesWithinCountAreServed | controllers/admin.controller.js:412-414 | every page up to the page count is non-empty; every later page is a 404 when anything matches |
| Listing.FirstPagesArePrefix | controllers/admin.controller.js:402-408 | the first k pages read in order are the first k x limit matches |
| Listing.PagesCoverAllMatches | controllers/admin.controller.js:402-423 | reading all the pages in order yields every match exactly once, in order |
| Listing.InCategory | controllers/user.controller.js:627-634 | the category query keeps exactly the products of that category |
| Listing.InCategoryMultiset | controllers/user.controller.js:627-634 | each product of the category is kept as often as it is stored, and no other |
| Listing.InCategoryAppend | controllers/user.controller.js:627-634 | filtering two pieces and joining them is filtering the whole, so the stored order survives |
| Listing.GetProductsByCategory | controllers/user.controller.js:608-649 | 400 exactly for a category outside the four; otherwise a page of that category's products with the category's count and page count |
| Admin.Aggregate | controllers/admin.controller.js:34-48 | one group per month with a counted order, in ascending month order, each carrying that month's sum |
| Admin.ZeroMonths | controllers/admin.controller.js:52-55 | twelve entries Jan to Dec, all at zero |
| Admin.FillMonths | controllers/admin.controller.js:56-58 | the fill keeps twelve entries with the month names in place |
| Admin.FillMonthsIsLastSales | controllers/admin.controller.js:56-58 | each month's slot holds the sum of the last group for that month, or 0 |
| Admin.AggregateLastSales | controllers/admin.controller.js:34-48 | the groups carry, for every month, exactly that month's total of completed recent orders |
| Admin.SalesOverview | controllers/admin.controller.js:31-62 | always twelve entries named Jan to Dec |
| Admin.SalesOverviewPerMonth | controllers/admin.controller.js:49-58 | month m's entry, at index m - 1, is the sum of that month's counted orders |
| Admin.SalesOverviewConservesTotal | controllers/admin.controller.js:34-58 | the twelve entries add up to the total of every counted order: none lost, none counted twice |
| Admin.UpdateUser | controllers/admin.controller.js:493-556 | every failure is a 500; success exactly for a valid known id with some accepted change and an unused new e-mail; whitelisted fields outside their lists are dropped, and only that user changes |
| Admin.UpdatedRoleIsWhitelisted | controllers/admin.controller.js:515-517 | after an update the role is the old one or "user" or "admin" |
| Admin.UpdateUserKeepsEmailsUnique | controllers/admin.controller.js:526-532 | an update never gives two accounts the same e-mail |
| Profile.MarkDefault | controllers/user.controller.js:49-51 | each address is marked default exactly when its id is the chosen one, and nothing else changes |
| Profile.SetDefaultAddress | controllers/user.controller.js:36-55 | 400 for a malformed id, 404 for no user, 404 when the address is not in the profile; success exactly otherwise; only that user's addresses change |
| Profile.MarkDefaultCount | controllers/user.controller.js:49-51 | with unique ids, marking leaves one default when the id is present and none otherwise |
| Profile.ExactlyOneDefault | controllers/user.controller.js:44-51 | after success exactly one address is default, and it is the chosen one |
| Profile.AddAddress | controllers/user.controller.js:129-154 | 400 for a missing required field, 500 when the user is missing (a null dereference); the address is appended with type defaulting to "Home" and country to "India", and it is the default exactly when it is the first |
| Profile.AddAddressKeepsOneDefault | controllers/user.controller.js:147-149 | adding never creates a second default, and a first address becomes the default |
| Profile.AddLineQuantities | controllers/user.controller.js:259-265 | merge-or-append raises the cart's quantity of that product by the amount and leaves every other product's quantity alone |
| Profile.AddLineKeepsDistinct | controllers/user.controller.js:259-265 | merge-or-append keeps one line per product |
| Profile.AddToCart | controllers/user.controller.js:250-269 | 400 without a product id, 500 for a malformed product id (a cast error), 404 for an unknown product, 400 when stock is below the added quantity (default 1), 500 when the user is missing; otherwise only the user's cart changes, by merge-or-append |
| Profile.CartCanExceedStock | controllers/user.controller.js:256-262 | two single adds of a product with stock 1 both succeed and the cart asks for 2 |
| Profile.UpdateCartQuantity | controllers/user.controller.js:282-293 | 400 for a missing quantity or one below 1, 500 for a malformed product id or a missing user; otherwise only the first line of that product takes the quantity, and a product not in the cart changes nothing |
| Profile.UpdateCartQuantitySetsQuantity | controllers/user.controller.js:282-290 | with one line per product, the cart asks for exactly the new quantity of a product it holds and for none of one it does not hold, no other product's quantity changes, and lines stay one per product |
| Profile.PullLine | controllers/user.controller.js:276 | every line with the id goes; every other line stays as often as it was stored |
| Profile.PullLineAppend | controllers/user.controller.js:276 | pulling from two pieces of a cart and joining them is pulling from the whole, so the surviving lines keep their order |
| Profile.RemoveFromCart | controllers/user.controller.js:272-279 | 400 for a malformed line id, 500 when the user is missing; otherwise only that user's cart loses the line |
| Profile.PullUndoesAddLine | controllers/user.controller.js:259-276 | pulling the line just appended for a product the cart did not hold gives the cart back |
| Profile.RemoveUndoesAddToCart | controllers/user.controller.js:250-279 | removing the line `addToCart` just appended gives every user back the cart they had |
| Profile.AddToSet | controllers/user.controller.js:227 | adding a product already present changes nothing; otherwise it is appended |
| Profile.Pull | controllers/user.controller.js:235 | every copy of the product goes; every other entry stays as often as it was stored |
| Profile.PullAppend | controllers/user.controller.js:235 | pulling from two pieces of a list and joining them is pulling from the whole, so the remaining entries keep their order |
| Profile.AddToWishlist | controllers/user.controller.js:223-230 | 400 without a product id, 500 for a malformed product id or a missing user; otherwise only that user's wishlist changes, with set semantics |
| Profile.RemoveFromWishlist | controllers/user.controller.js:233-238 | 500 for a malformed product id or a missing user; otherwise only that user's wishlist changes, losing the product |
| Profile.WishlistIsASet | controllers/user.controller.js:227 | adding the same product twice equals adding it once, and the wishlist never holds a duplicate |
| Profile.RemoveUndoesAdd | controllers/user.controller.js:235 | removing an added product takes it out entirely and keeps everything else the user had |
| Auth.GenerateOtp | controllers/auth.controller.js:8-9 | the code is a six-digit string reading between 100000 and 999999 |
| Auth.RoleFor | controllers/auth.controller.js:56 | the role is "admin" exactly when the requested role lower-cases to "admin", else "user" |
| Auth.Register | controllers/auth.controller.js:11-69 | 400 for a blank field; 409 for a verified account; an unverified account has name, password, code and expiry overwritten; otherwise one unverified account is appended; the reply fails with 500 when the mail is not sent, after the save |
| Auth.RegisterKeepsEmailsUnique | controllers/auth.controller.js:35-60 | registration never makes two accounts share an e-mail, adds at most one account, and a new one is unverified, holds the code for ten minutes and has the requested role only if it is admin |
| Auth.VerifyOtp | controllers/auth.controller.js:73-91 | 400 for a missing field; success exactly when some account's e-mail and code match before the expiry; then it is verified and its code cleared |
| Auth.OtpSingleUse | controllers/auth.controller.js:79-91 | replaying a code that verified an account fails at any later time |
| Auth.VerifiedCannotRegisterAgain | controllers/auth.controller.js:35-38 | once verified, registering the same e-mail again is a 409 |
| Auth.Login | controllers/auth.controller.js:111-122 | 400 for a missing field, 404 for an unknown e-mail, 403 unverified, 401 wrong password; success exactly for a verified account with a matching password, returning its id |
| Auth.NewAccountIsFound | controllers/auth.controller.js:52-60 | a new e-mail appends one account, which both the e-mail lookup and the code lookup then find |
| Auth.SignUpThenLogIn | controllers/auth.controller.js:11-122 | register, then login is 403; the code verifies within ten minutes; then the same password logs in as the new account |
| Auth.ForgotPassword | controllers/auth.controller.js:148-192 | 400 without an e-mail; an unknown e-mail gets success and no change; a known one stores the token's digest and expiry, or clears them and answers 500 when the mail fails |
| Auth.ResetPassword | controllers/auth.controller.js:195-208 | 400 without a password; success exactly when some account holds the token's digest unexpired; that account takes the password and loses the token |
| Auth.ResetTokenSingleUse | controllers/auth.controller.js:200-207 | a reset token that worked fails the second time |
| Auth.ForgotThenReset | controllers/auth.controller.js:162-207 | after a successful request, the mailed raw token resets that account's password before expiry |
| Catalog.EffectivePrice | controllers/admin.controller.js:110 | `price ?? salePrice`: a present price wins, even an empty one |
| Catalog.Urls | controllers/admin.controller.js:121 | the URLs kept are non-empty, come from the uploads, and are at most as many |
| Catalog.UrlsComplete | controllers/admin.controller.js:121-124 | no URL is lost exactly when every upload returned one, and then they are the uploads in order |
| Catalog.CommaList | controllers/admin.controller.js:139-140 | a falsy value gives []; otherwise the comma-split trimmed items, at least one |
| Catalog.FloatIfTruthy | controllers/admin.controller.js:142-146 | a number is stored exactly when the value is truthy, and it is the parsed value |
| Catalog.ListOnCreate | controllers/admin.controller.js:152-154 | an array is kept, a non-empty string is comma-split, anything else takes the default [] |
| Catalog.CreateProduct | controllers/admin.controller.js:109-175 | 400 when a required field is falsy, 400 without image files, 500 when any upload gives no URL, 500 when the schema rejects the document; success exactly otherwise, adding the document built from the form, uploads and parsers under its fresh id and changing no other |
| Catalog.CreatedProduct | controllers/admin.controller.js:127-168 | a created product holds every uploaded image in order, its name, description and type, the parsed price (`price ?? salePrice`), original price and stock, the slug of its name, the comma-split lists, jewellery fields only on jewellery, a size only on bags, and values the schema accepts |
| Catalog.CreatedTagsJoinBack | controllers/admin.controller.js:139 | tags that need no trimming join back with commas to the request's text |
| Catalog.Override | controllers/admin.controller.js:230-231 | a present value replaces the stored one; an absent one keeps it |
| Catalog.ListOnUpdate | controllers/admin.controller.js:248-250 | absent keeps the stored list, an array replaces it, a string is comma-split |
| Catalog.FloatOr | controllers/admin.controller.js:233-234 | a present value is parsed and replaces the stored number; an absent one keeps it |
| Catalog.MergePackaging | controllers/admin.controller.js:254-260 | each supplied dimension is parsed and replaces the stored one; each missing one keeps the stored value |
| Catalog.SplitOr | controllers/admin.controller.js:239-240 | a present value is comma-split and trimmed; an absent one keeps the stored list |
| Catalog.UpdateProduct | controllers/admin.controller.js:184-292 | 400 for a malformed id, 404 unknown, 500 when a set path fails its validator (an empty name, description or type, a category outside the enum, a rating outside 0..5, negative reviews); success exactly otherwise, writing the merged product and changing no other |
| Catalog.UpdateTouchesOnlyGivenFields | controllers/admin.controller.js:227-260 | for every field outside the type-specific ones and the images, a field the request omits keeps its value and one it names takes the parsed value; the slug never changes |
| Catalog.TypeFieldsNeedTypeInRequest | controllers/admin.controller.js:262-270 | jewellery fields change only when the request's type is jewellery, size only when it is bag |
| Catalog.UpdateImages | controllers/admin.controller.js:272-285 | images are replaced only when at least one upload returned a URL, and then by exactly those URLs |
| Catalog.PartialUploadScenario | controllers/admin.controller.js:120-124 | one good and one failed upload: creation is a 500, an edit stores the single URL |
| Catalog.EmptyUpdateChangesNothing | controllers/admin.controller.js:227-292 | an edit with no fields and no files leaves the catalogue as it was |
| Catalog.UpdateIdempotent | controllers/admin.controller.js:288-292 | sending the same edit twice has the effect of sending it once |
| Contact.FullNameOf | controllers/contact.controller.js:20 | `fullName || name` |
| Contact.PhoneOf | controllers/contact.controller.js:21 | the first truthy of phoneNumber, phone, mobile, else mobile; truthy exactly when one alias is |
| Contact.Trimmed | models/contact.model.js:17-32 | the trim setter keeps presence and trims the value |
| Contact.ReferenceImage | controllers/contact.controller.js:40 | "" without an upload or without a URL; otherwise the uploaded URL |
| Contact.SubmitInquiry | controllers/contact.controller.js:16-49 | 400 exactly when name, e-mail or message is missing or blank; otherwise one "New" inquiry is appended with aliases resolved, setters applied, subject and size trimmed, and the uploaded URL or "" as reference image |
| Contact.WithStatus | controllers/contact.controller.js:61-66 | keeps exactly the inquiries with the status |
| Contact.WithStatusMultiset | controllers/contact.controller.js:61-66 | each inquiry with the status is kept as often as it is stored, and no other |
| Contact.WithStatusAppend | controllers/contact.controller.js:61-66 | filtering two pieces and joining them is filtering the whole, so the stored order survives |
| Contact.GetAllInquiries | controllers/contact.controller.js:54-66 | a status filter applies only for one of the four statuses; anything else lists every inquiry |
| Contact.StatusFiltersPartition | controllers/contact.controller.js:61-63 | the four filtered lists together are exactly as long as the whole list |
| Contact.TruthyOr | controllers/contact.controller.js:110-113 | a truthy value replaces the stored one through the setter; a falsy one keeps it |
| Contact.TruthyOrOptional | controllers/contact.controller.js:112-115 | a truthy value replaces the stored one, trimmed; a falsy one keeps it |
| Contact.Merged | controllers/contact.controller.js:97-136 | each field the request sends truthy (after the name and phone aliases) replaces the stored value through its setter, each falsy one keeps it; the status changes only to one of the four; the image changes exactly with a new upload; the id is kept |
| Contact.UpdateInquiry | controllers/contact.controller.js:92-138 | 400 malformed id, 404 unknown, 500 when the upload returns nothing; otherwise success exactly when the merged inquiry passes validation, 500 when it does not, and success writes only that inquiry |
| Contact.FieldsCannotBeCleared | controllers/contact.controller.js:110-115 | an edit never empties a field that was set |
| Contact.UpdateKeepsStatusesValid | controllers/contact.controller.js:117-119 | only the four statuses are ever stored |
| Contact.SubmittedIsValid | models/contact.model.js:5-40 | a submitted inquiry satisfies every validator the save runs |
| Contact.EmptyEditKeepsSubmitted | controllers/contact.controller.js:104-138 | an edit with an empty form accepts a submitted inquiry and leaves it unchanged |
| Contact.EmailSetterKeepsContent | models/contact.model.js:11-16 | lower-casing and trimming a non-blank address leaves a non-empty one |
| Cloudinary.DropExtension | config/cloudinary.js:104 | without a dot the result is ""; with one, it is everything before the last dot |
| Cloudinary.PublicIdFromUrl | config/cloudinary.js:96-109 | "" for a falsy URL; otherwise the kept path without its extension, which is a prefix of the kept path |
| Cloudinary.WithoutProductsSegment | config/cloudinary.js:103 | without a "products" segment only the last segment is kept |
| Cloudinary.KeptPathOfSegments | config/cloudinary.js:101-103 | the kept path is the segments from the first "products" on, joined by "/" |
| Cloudinary.DropExtensionOfSuffix | config/cloudinary.js:104 | a dot-free extension after the last dot is dropped exactly |
| Cloudinary.PublicIdRoundTrip | config/cloudinary.js:96-109 | a delivery URL built from a public id under "products" and an extension reads back as that public id |

## Left out

- HTTP transport, routing, middleware, cookies and JWT issuing are left out. A handler's answer is its `Result`.
- Error middleware is not part of this model. Errors that are not an `ApiError`, such as a cast error, a null dereference or a validation error, are modelled as status 500.
- MongoDB transactions and concurrent requests are out of scope. Requests are sequential, so no claim is made about overselling under concurrency.
- Binary floating point is left out: money is an exact `real`. `parseFloat`, `parseInt` and NaN are a parameter, and `Math.round` is floor(x + 0.5).
- Text is ASCII-only: `trim`, `toUpperCase` and `toLowerCase` act on ASCII letters and ASCII whitespace.
- `getCouponByCode` builds its regular expression from unescaped input. The model treats it as whole-string equality ignoring case, without regular-expression metacharacters.
- Mail sending after a commit (order confirmations) cannot affect results, so it is left out. In sign-up and reset, only whether the send succeeded matters.
- models/user.model.js is not part of this model, for three reasons:
  - the defaults of `gender` and `status` on a new account are unknown, so it leaves them unset;
  - password hashing on save is unknown, so the stored password is whatever the handler assigns;
  - the internals of `getForgotPasswordToken` are unknown, so the raw token, its digest and the expiry are parameters.
- The `sizes` and `specifications` fields of a product are left out. They are nested documents no rule reads.
- List filters and search regexes, the `createdAt` sort orders and the twelve-month window are the query's business. The listing starts from the matches in query order, and the sales overview receives each order's month and whether it falls in the window.
- The dashboard totals, the recent-orders list, and the read and delete endpoints have no rules beyond a lookup, so they are left out.
- The legacy `placeOrder` handler is not mounted on any route, so it is left out.
- The blog, notification, bulk-order and order-lead controllers are plain CRUD, so they are left out.
- Deleting images on S3 during an edit is I/O and is left out. Only the stored URLs are modelled.
- Listing.GetAllProducts: requires page and limit of at least 1. The query-string defaults and a page of 0 or a negative page are not modelled.
- Listing.GetProductsByCategory: requires page and limit of at least 1, like `GetAllProducts`.
- Auth.GenerateOtp: rounding of `Math.random() * 900000` in binary floating point is not modelled. The code is the floor of the exact product.
- Auth.Register: the save-time validation of the user schema is not modelled, because that schema is not part of this model.
- Auth.ResetPassword: the new password is written with a validating `save()` (controllers/auth.controller.js:207); the save-time validation of the user schema is not modelled, because that schema is not part of this model.
- Catalog.CreateProduct: converting form strings to numbers is the `Parsers` parameter. A value that parses to NaN is not modelled.
- Cloudinary.PublicIdFromUrl: the `try`/`catch` around the split only catches non-string input, which the typed model cannot receive.
- Ids are compared as strings and assumed canonical: lower-case 24-digit hex, as MongoDB prints an ObjectId. Casting a request id to an ObjectId is not modelled, so two spellings of one ObjectId that differ in letter case are two ids here, and `Profile.AddToSet` and `Profile.WishlistIsASet` treat them as different entries.
- Catalog.UpdateProduct: `required` on the numeric paths (`price`, `originalPrice`, `stock`) cannot fail once a value is parsed, since NaN is not modelled.
- Profile.AddToCart: the quantity is an integer. A string quantity, which JavaScript would concatenate, is not modelled.

=== FILE: admin.dfy ===
/** The admin dashboard's sales overview and the admin user update of
    admin.controller.js.
 */
module Admin {
  import opened Api
  import opened Model

  // ---------------------------------------------------------------- getSalesOverview

  const MonthNames: seq<string> := ["Jan", "Feb", "Mar", "Apr", "May", "Jun", "Jul", "Aug", "Sep", "Oct", "Nov", "Dec"]

  datatype MonthSales = MonthSales(name: string, sales: real)

  /** An order as the aggregation reads it: the calendar month of its
      creation (1 to 12, as `$month` yields), its status, its total, and
      whether it was created within the last twelve months (the clock's
      part). */
  datatype OrderSummary = OrderSummary(month: int, status: string, totalPrice: real, recent: bool)

  /** The `$match` stage. */
  predicate Counted(o: OrderSummary) {
    o.recent && o.status == "Completed"
  }

  predicate MonthsInRange(orders: seq<OrderSummary>) {
    forall k :: 0 <= k < |orders| ==> 1 <= orders[k].month <= 12
  }

  /** What `$sum: "$totalPrice"` yields for month `m`. */
  function MonthTotal(orders: seq<OrderSummary>, m: int): real {
    if |orders| == 0 then 0.0
    else (if Counted(orders[0]) && orders[0].month == m then orders[0].totalPrice else 0.0) + MonthTotal(orders[1..], m)
  }

  /** Some counted order falls in month `m`. */
  predicate HasMonth(orders: seq<OrderSummary>, m: int) {
    |orders| > 0 && ((Counted(orders[0]) && orders[0].month == m) || HasMonth(orders[1..], m))
  }

  /** Everything the `$match` stage lets through, summed. */
  function CountedTotal(orders: seq<OrderSummary>): real {
    if |orders| == 0 then 0.0
    else (if Counted(orders[0]) then orders[0].totalPrice else 0.0) + CountedTotal(orders[1..])
  }

  /** One `$group` output document. */
  datatype Group = Group(month: int, sales: real)

  /** The `$group` and `$sort` stages: one group per month that has a
      counted order, in ascending month order, from month `m` on. */
  function Aggregate(orders: seq<OrderSummary>, m: int): (groups: seq<Group>)
    requires 1 <= m <= 13
    ensures forall k :: 0 <= k < |groups| ==> m <= groups[k].month <= 12
    ensures forall k :: 0 <= k < |groups| ==>
      HasMonth(orders, groups[k].month) && groups[k].sales == MonthTotal(orders, groups[k].month)
    ensures forall j, k :: 0 <= j < k < |groups| ==> groups[j].month < groups[k].month
    decreases 13 - m
  {
    if m == 13 then []
    else if HasMonth(orders, m) then [Group(m, MonthTotal(orders, m))] + Aggregate(orders, m + 1)
    else Aggregate(orders, m + 1)
  }

  function ZeroMonths(): (r: seq<MonthSales>)
    ensures |r| == 12 && forall i :: 0 <= i < 12 ==> r[i] == MonthSales(MonthNames[i], 0.0)
  {
    seq(12, i requires 0 <= i < 12 => MonthSales(MonthNames[i], 0.0))
  }

  /** The `forEach` that writes each group's sum into the slot of its
      month; a later group for the same month overwrites an earlier one. */
  function FillMonths(groups: seq<Group>): (r: seq<MonthSales>)
    requires forall k :: 0 <= k < |groups| ==> 1 <= groups[k].month <= 12
    ensures |r| == 12
    ensures forall i :: 0 <= i < 12 ==> r[i].name == MonthNames[i]
  {
    if |groups| == 0 then ZeroMonths()
    else
      var g := groups[|groups| - 1];
      var prev := FillMonths(groups[..|groups| - 1]);
      prev[g.month - 1 := prev[g.month - 1].(sales := g.sales)]
  }

  /** The sum the last group for month `n` carries, or 0 when none does:
      what the slot of month `n` should hold after the `forEach`. */
  function LastSales(groups: seq<Group>, n: int): real {
    if |groups| == 0 then 0.0
    else if groups[|groups| - 1].month == n then groups[|groups| - 1].sales
    else LastSales(groups[..|groups| - 1], n)
  }

  lemma {:induction false} FillMonthsIsLastSales(groups: seq<Group>, i: int)
    requires forall k :: 0 <= k < |groups| ==> 1 <= groups[k].month <= 12
    requires 0 <= i < 12
    ensures FillMonths(groups)[i].sales == LastSales(groups, i + 1)
  {
    if |groups| > 0 {
      FillMonthsIsLastSales(groups[..|groups| - 1], i);
    }
  }

  /** A group for another month in front does not change the last sum. */
  lemma {:induction false} LastSalesSkipsOther(g: Group, rest: seq<Group>, n: int)
    requires g.month != n
    ensures LastSales([g] + rest, n) == LastSales(rest, n)
    decreases |rest|
  {
    if |rest| > 0 {
      assert ([g] + rest)[..|rest|] == [g] + rest[..|rest| - 1];
      LastSalesSkipsOther(g, rest[..|rest| - 1], n);
    }
  }

  /** The group in front decides when nothing after it is for its month. */
  lemma {:induction false} LastSalesFront(g: Group, rest: seq<Group>)
    requires forall k :: 0 <= k < |rest| ==> rest[k].month > g.month
    ensures LastSales([g] + rest, g.month) == g.sales
    decreases |rest|
  {
    if |rest| > 0 {
      assert ([g] + rest)[..|rest|] == [g] + rest[..|rest| - 1];
      LastSalesFront(g, rest[..|rest| - 1]);
    }
  }

  lemma {:induction false} LastSalesAbsent(groups: seq<Group>, n: int)
    requires forall k :: 0 <= k < |groups| ==> groups[k].month != n
    ensures LastSales(groups, n) == 0.0
  {
    if |groups| > 0 {
      LastSalesAbsent(groups[..|groups| - 1], n);
    }
  }

  /** A month without a counted order sums to zero. */
  lemma {:induction false} NoOrdersNoSales(orders: seq<OrderSummary>, m: int)
    requires !HasMonth(orders, m)
    ensures MonthTotal(orders, m) == 0.0
  {
    if |orders| > 0 {
      NoOrdersNoSales(orders[1..], m);
    }
  }

  /** The aggregation's groups carry, for every month from `m` on, exactly
      that month's total. */
  lemma {:induction false} AggregateLastSales(orders: seq<OrderSummary>, m: int, n: int)
    requires 1 <= m <= 13 && m <= n <= 12
    ensures LastSales(Aggregate(orders, m), n) == MonthTotal(orders, n)
    decreases 13 - m
  {
    var rest := Aggregate(orders, m + 1);
    if n == m {
      if HasMonth(orders, m) {
        LastSalesFront(Group(m, MonthTotal(orders, m)), rest);
      } else {
        LastSalesAbsent(rest, n);
        NoOrdersNoSales(orders, n);
      }
    } else {
      AggregateLastSales(orders, m + 1, n);
      if HasMonth(orders, m) {
        LastSalesSkipsOther(Group(m, MonthTotal(orders, m)), rest, n);
      }
    }
  }

  /** `getSalesOverview`: twelve entries named Jan to Dec. */
  function SalesOverview(orders: seq<OrderSummary>): (r: seq<MonthSales>)
    ensures |r| == 12
    ensures forall i :: 0 <= i < 12 ==> r[i].name == MonthNames[i]
  {
    FillMonths(Aggregate(orders, 1))
  }

  /** Month `m`'s entry holds exactly the sum of that month's counted orders. */
  lemma SalesOverviewPerMonth(orders: seq<OrderSummary>, m: int)
    requires 1 <= m <= 12
    ensures SalesOverview(orders)[m - 1].sales == MonthTotal(orders, m)
  {
    FillMonthsIsLastSales(Aggregate(orders, 1), m - 1);
    AggregateLastSales(orders, 1, m);
  }

  /** The totals of months `m` to 12. */
  function MonthsFrom(orders: seq<OrderSummary>, m: int): real
    requires 1 <= m <= 13
    decreases 13 - m
  {
    if m == 13 then 0.0 else MonthTotal(orders, m) + MonthsFrom(orders, m + 1)
  }

  /** Splitting off the first order distributes over the months. */
  lemma {:induction false} MonthsFromCons(orders: seq<OrderSummary>, m: int)
    requires |orders| > 0 && 1 <= m <= 13
    ensures MonthsFrom(orders, m)
      == (if Counted(orders[0]) && m <= orders[0].month <= 12 then orders[0].totalPrice else 0.0) + MonthsFrom(orders[1..], m)
    decreases 13 - m
  {
    if m < 13 {
      MonthsFromCons(orders, m + 1);
    }
  }

  lemma {:induction false} MonthsFromAll(orders: seq<OrderSummary>)
    requires MonthsInRange(orders)
    ensures MonthsFrom(orders, 1) == CountedTotal(orders)
  {
    if |orders| > 0 {
      MonthsFromCons(orders, 1);
      assert MonthsInRange(orders[1..]) by {
        forall k | 0 <= k < |orders[1..]| ensures 1 <= orders[1..][k].month <= 12 {
          assert orders[1..][k] == orders[k + 1];
        }
      }
      MonthsFromAll(orders[1..]);
    }
  }

  function SumSales(r: seq<MonthSales>): real {
    if |r| == 0 then 0.0 else r[0].sales + SumSales(r[1..])
  }

  /** No counted order is lost or counted twice: the twelve entries add up
      to the total of all counted orders. */
  lemma SalesOverviewConservesTotal(orders: seq<OrderSummary>)
    requires MonthsInRange(orders)
    ensures SumSales(SalesOverview(orders)) == CountedTotal(orders)
  {
    var r := SalesOverview(orders);
    SuffixSums(orders, r, 1);
    MonthsFromAll(orders);
  }

  lemma {:induction false} SuffixSums(orders: seq<OrderSummary>, r: seq<MonthSales>, m: int)
    requires r == SalesOverview(orders)
    requires 1 <= m <= 13
    ensures SumSales(r[m - 1..]) == MonthsFrom(orders, m)
    decreases 13 - m
  {
    if m < 13 {
      SuffixSums(orders, r, m + 1);
      SalesOverviewPerMonth(orders, m);
      assert r[m - 1..][1..] == r[m..];
    }
  }

  // ---------------------------------------------------------------- updateUser

  datatype UserPatch = UserPatch(
    fullName: Option<string>, email: Option<string>, role: Option<string>,
    gender: Option<string>, status: Option<string>)

  const Roles: seq<string> := ["user", "admin"]
  const Genders: seq<string> := ["Male", "Female", "Other"]
  const AccountStatuses: seq<string> := ["Active", "Blocked"]

  /** A whitelisted field is taken only when truthy and listed. */
  predicate Accepted(v: Option<string>, allowed: seq<string>) {
    Truthy(v) && v.value in allowed
  }

  predicate ChangesEmail(user: User, patch: UserPatch) {
    Truthy(patch.email) && patch.email.value != user.email
  }

  predicate HasUpdate(user: User, patch: UserPatch) {
    Truthy(patch.fullName) || Accepted(patch.role, Roles) || Accepted(patch.gender, Genders)
    || Accepted(patch.status, AccountStatuses) || ChangesEmail(user, patch)
  }

  /** `updateUser`. Every failure inside the handler, including the 400s and
      404 it raises itself, is re-thrown as a 500. */
  function UpdateUser(users: seq<User>, userId: string, patch: UserPatch): (r: Result<seq<User>>)
    ensures r.Err? ==> r.error == ApiError(500, UpdateFailed)
    ensures r.Ok? <==>
      && ValidObjectId(userId)
      && FindUser(users, userId).Some?
      && var u := users[FindUser(users, userId).value];
      && HasUpdate(u, patch)
      && (ChangesEmail(u, patch) ==> FindByEmail(users, patch.email.value).None?)
    ensures r.Ok? ==> |r.value| == |users|
    ensures r.Ok? ==>
      var k := FindUser(users, userId).value;
      forall j :: 0 <= j < |users| && j != k ==> r.value[j] == users[j]
    ensures r.Ok? ==>
      var k := FindUser(users, userId).value;
      var u := users[k];
      var v := r.value[k];
      && v.fullName == (if Truthy(patch.fullName) then patch.fullName.value else u.fullName)
      && v.email == (if ChangesEmail(u, patch) then patch.email.value else u.email)
      && v.role == (if Accepted(patch.role, Roles) then patch.role.value else u.role)
      && v.gender == (if Accepted(patch.gender, Genders) then patch.gender else u.gender)
      && v.status == (if Accepted(patch.status, AccountStatuses) then patch.status else u.status)
      && v == u.(fullName := v.fullName, email := v.email, role := v.role, gender := v.gender, status := v.status)
  {
    if !ValidObjectId(userId) then Fail(500, UpdateFailed)
    else match FindUser(users, userId)
      case None => Fail(500, UpdateFailed)
      case Some(k) =>
        var u := users[k];
        if ChangesEmail(u, patch) && FindByEmail(users, patch.email.value).Some? then Fail(500, UpdateFailed)
        else if !HasUpdate(u, patch) then Fail(500, UpdateFailed)
        else
          var v := u.(fullName := if Truthy(patch.fullName) then patch.fullName.value else u.fullName,
                      email := if ChangesEmail(u, patch) then patch.email.value else u.email,
                      role := if Accepted(patch.role, Roles) then patch.role.value else u.role,
                      gender := if Accepted(patch.gender, Genders) then patch.gender else u.gender,
                      status := if Accepted(patch.status, AccountStatuses) then patch.status else u.status);
          Ok(users[k := v])
  }

  /** The role after an update is the old one or one of the two listed. */
  lemma UpdatedRoleIsWhitelisted(users: seq<User>, userId: string, patch: UserPatch)
    requires UpdateUser(users, userId, patch).Ok?
    ensures var k := FindUser(users, userId).value;
      var role := UpdateUser(users, userId, patch).value[k].role;
      role == users[k].role || role in Roles
  {
  }

  /** The e-mail check keeps e-mail addresses unique. */
  lemma UpdateUserKeepsEmailsUnique(users: seq<User>, userId: string, patch: UserPatch)
    requires EmailsUnique(users)
    requires UpdateUser(users, userId, patch).Ok?
    ensures EmailsUnique(UpdateUser(users, userId, patch).value)
  {
  }
}

=== FILE: api.dfy ===
/** Outcomes of the HTTP handlers, stripped of the transport.

    A handler either commits and returns a value, or throws an `ApiError`
    carrying the HTTP status it would be answered with. The `Reason` names
    the message the handler attaches, so that properties can say which of
    several checks fired, not only which status code it produced.
 */
module Api {

  datatype Option<+T> = None | Some(value: T) {
    function GetOr(default: T): T {
      match this
      case Some(v) => v
      case None => default
    }
  }

  datatype Reason =
    // request shape
    | MissingFields | InvalidId | InvalidStatus | InvalidCategory | NothingToUpdate
    // checkout
    | EmptyCart | AddressNotFound | ProductUnavailable | OutOfStock | InvalidCoupon
    | PriceMismatch | InvalidSignature | ProviderFailed | UserNotFound
    // order lifecycle
    | OrderNotFound | NotAuthorized | NotCancellable | RefundFailed
    // accounts
    | AlreadyRegistered | InvalidOtp | AccountNotFound | NotVerified | BadCredentials
    | MailFailed | InvalidResetToken | UpdateFailed
    // catalogue, coupons, inquiries
    | ProductNotFound | MissingImages | UploadFailed | ValidationFailed | PageEmpty
    | CouponExists | CouponNotFound | CouponInactive | InquiryNotFound

  /** An error thrown by a handler: the HTTP status and what went wrong. */
  datatype ApiError = ApiError(status: int, reason: Reason)

  datatype Result<+T> = Ok(value: T) | Err(error: ApiError) {
    predicate IsFailure() { Err? }

    function PropagateFailure<U>(): Result<U>
      requires Err?
    {
      Err(error)
    }

    function Extract(): T
      requires Ok?
    {
      value
    }
  }

  /** JavaScript truthiness of an optional string field: `undefined`,
      `null` and the empty string are falsy, every other string is truthy. */
  predicate Truthy(s: Option<string>) {
    s.Some? && s.value != ""
  }

  /** JavaScript truthiness of an optional number: absent and zero are falsy. */
  predicate TruthyNumber(x: Option<real>) {
    x.Some? && x.value != 0.0
  }

  /** `a || b` on optional strings: the first operand when it is truthy. */
  function Or(a: Option<string>, b: Option<string>): (r: Option<string>)
    ensures Truthy(a) ==> r == a
    ensures !Truthy(a) ==> r == b
  {
    if Truthy(a) then a else b
  }

  /** Position of the first element whose `key` is `k`: what `findOne`,
      `findById` and `findIndex` answer for a single-path equality query. */
  function FindFirst<T>(xs: seq<T>, key: T -> string, k: string): (i: Option<nat>)
    ensures i.Some? ==> i.value < |xs| && key(xs[i.value]) == k
    ensures i.Some? ==> forall j :: 0 <= j < i.value ==> key(xs[j]) != k
    ensures i.None? ==> forall j :: 0 <= j < |xs| ==> key(xs[j]) != k
  {
    if |xs| == 0 then None
    else if key(xs[0]) == k then Some(0)
    else match FindFirst(xs[1..], key, k)
      case None => None
      case Some(i) => Some(i + 1)
  }

  function Fail<T>(status: int, reason: Reason): Result<T> {
    Err(ApiError(status, reason))
  }
}

=== FILE: auth.dfy ===
/** Account verification and password reset (auth.controller.js).

    An account is created unverified with a one-time code; `verifyOtp`
    consumes the code and verifies it; `loginUser` lets in only verified
    accounts; `forgotPassword` issues a reset token and `resetPassword`
    consumes it. Clocks (`now`, in milliseconds), random values, password
    checks, hashing and the mailer are parameters.
 */
module Auth {
  import opened Api
  import opened Text
  import opened Model

  /** An OTP is valid for ten minutes. */
  const OtpLifetime := 10 * 60 * 1000

  // ---------------------------------------------------------------- generateOtp

  function Digit(d: nat): char
    requires d < 10
  {
    ('0' as int + d) as char
  }

  predicate IsDigits(s: string) {
    forall i :: 0 <= i < |s| ==> '0' <= s[i] <= '9'
  }

  /** `n.toString()` for a natural number. */
  function DecimalString(n: nat): (s: string)
    ensures |s| >= 1 && IsDigits(s)
  {
    if n < 10 then [Digit(n)] else DecimalString(n / 10) + [Digit(n % 10)]
  }

  /** Reads a string of decimal digits back as a number. */
  function ParseDecimal(s: string): nat
    requires IsDigits(s)
  {
    if |s| == 0 then 0 else 10 * ParseDecimal(s[..|s| - 1]) + (s[|s| - 1] as int - '0' as int)
  }

  lemma {:induction false} ParseDecimalString(n: nat)
    ensures ParseDecimal(DecimalString(n)) == n
  {
    if n >= 10 {
      var s := DecimalString(n);
      assert s[..|s| - 1] == DecimalString(n / 10);
      ParseDecimalString(n / 10);
    }
  }

  function Pow10(k: nat): (p: nat)
    ensures p >= 1
  {
    if k == 0 then 1 else 10 * Pow10(k - 1)
  }

  lemma {:induction false} DecimalLength(n: nat, k: nat)
    requires Pow10(k) <= n < Pow10(k + 1)
    ensures |DecimalString(n)| == k + 1
  {
    if k > 0 {
      DecimalLength(n / 10, k - 1);
    }
  }

  /** `Math.floor(100000 + Math.random() * 900000).toString()` for a random
      value in [0, 1): always six digits, reading between 100000 and 999999. */
  function GenerateOtp(random: real): (otp: string)
    requires 0.0 <= random < 1.0
    ensures |otp| == 6 && IsDigits(otp)
    ensures 100000 <= ParseDecimal(otp) <= 999999
  {
    var n := (100000.0 + random * 900000.0).Floor;
    assert Pow10(5) == 100000 && Pow10(6) == 1000000;
    DecimalLength(n, 5);
    ParseDecimalString(n);
    DecimalString(n)
  }

  // ---------------------------------------------------------------- shared

  /** A handler's effect on the user collection together with its reply:
      a save that happens before a failing mail send is kept. */
  datatype Outcome<T> = Outcome(users: seq<User>, reply: Result<T>)

  /** `findOne` with a compound filter: the first user `p` accepts. */
  function FirstMatch(users: seq<User>, p: User -> bool): (k: Option<nat>)
    ensures k.Some? ==> k.value < |users| && p(users[k.value])
    ensures k.Some? ==> forall j :: 0 <= j < k.value ==> !p(users[j])
    ensures k.None? ==> forall j :: 0 <= j < |users| ==> !p(users[j])
  {
    if |users| == 0 then None
    else if p(users[0]) then Some(0)
    else match FirstMatch(users[1..], p)
      case None => None
      case Some(k) => Some(k + 1)
  }

  // ---------------------------------------------------------------- registerUser

  datatype RegisterRequest = RegisterRequest(name: Option<string>, email: Option<string>,
                                             password: Option<string>, role: Option<string>)

  datatype Registration = Created | OtpResent

  /** `role && role.toLowerCase() === "admin" ? "admin" : "user"`. */
  function RoleFor(role: Option<string>): (r: string)
    ensures r == "admin" <==> Truthy(role) && Lower(role.value) == "admin"
    ensures r == "admin" || r == "user"
  {
    if Truthy(role) && Lower(role.value) == "admin" then "admin" else "user"
  }

  /** Gender and status are left unset: their schema defaults are not part
      of this model. */
  function NewAccount(id: Id, req: RegisterRequest, otp: string, expiry: int): User
    requires Truthy(req.name) && Truthy(req.email) && Truthy(req.password)
  {
    User(id, req.name.value, req.email.value, req.password.value, RoleFor(req.role), None, None,
         false, Some(otp), Some(expiry), None, None, [], [], [])
  }

  predicate RegisterComplete(req: RegisterRequest) {
    !Missing(req.name) && !Missing(req.email) && !Missing(req.password)
  }

  function MailReply<T>(mailSent: bool, value: T): (r: Result<T>)
    ensures r.Ok? <==> mailSent
    ensures r.Ok? ==> r.value == value
    ensures r.Err? ==> r.error == ApiError(500, MailFailed)
  {
    if mailSent then Ok(value) else Fail(500, MailFailed)
  }

  /** `registerUser`. `otp` is the freshly generated code, `newId` the id a
      new account gets and `mailSent` whether the mailer succeeded; the
      account is saved before the mail goes out. */
  function Register(users: seq<User>, req: RegisterRequest, otp: string, now: int, newId: Id, mailSent: bool)
    : (o: Outcome<Registration>)
    ensures !RegisterComplete(req) ==> o == Outcome(users, Fail(400, MissingFields))
    ensures RegisterComplete(req) ==> match FindByEmail(users, req.email.value)
      case Some(k) =>
        if users[k].isVerified then o == Outcome(users, Fail(409, AlreadyRegistered))
        else
          && o.reply == MailReply(mailSent, OtpResent)
          && o.users == users[k := users[k].(fullName := req.name.value, password := req.password.value,
                                                 otp := Some(otp), otpExpiry := Some(now + OtpLifetime))]
      case None =>
        && o.reply == MailReply(mailSent, Created)
        && o.users == users + [NewAccount(newId, req, otp, now + OtpLifetime)]
  {
    if !RegisterComplete(req) then Outcome(users, Fail(400, MissingFields))
    else
      var expiry := now + OtpLifetime;
      match FindByEmail(users, req.email.value)
      case Some(k) =>
        if users[k].isVerified then Outcome(users, Fail(409, AlreadyRegistered))
        else
          var u := users[k].(fullName := req.name.value, password := req.password.value,
                             otp := Some(otp), otpExpiry := Some(expiry));
          Outcome(users[k := u], MailReply(mailSent, OtpResent))
      case None => Outcome(users + [NewAccount(newId, req, otp, expiry)], MailReply(mailSent, Created))
  }

  /** Registration never creates a second account for an e-mail it knows,
      and a new account is unverified, holds the code for ten minutes and
      is an admin exactly when the requested role says so. */
  lemma RegisterKeepsEmailsUnique(users: seq<User>, req: RegisterRequest, otp: string, now: int, newId: Id, mailSent: bool)
    requires EmailsUnique(users)
    ensures var o := Register(users, req, otp, now, newId, mailSent);
      && EmailsUnique(o.users)
      && |users| <= |o.users| <= |users| + 1
      && (|o.users| == |users| + 1 ==>
           var u := o.users[|users|];
           && !u.isVerified && u.otp == Some(otp) && u.otpExpiry == Some(now + OtpLifetime)
           && (u.role == "admin" <==> Truthy(req.role) && Lower(req.role.value) == "admin"))
  {
  }

  // ---------------------------------------------------------------- verifyOtp

  predicate OtpMatch(u: User, email: string, otp: string, now: int) {
    u.email == email && u.otp == Some(otp) && u.otpExpiry.Some? && u.otpExpiry.value > now
  }

  /** `verifyOtp`: the first account whose e-mail and code match and whose
      code has not expired becomes verified, and its code is cleared. The
      result is the account list after that write; the handler's reply
      body, which echoes the account's id, is not modelled. */
  function VerifyOtp(users: seq<User>, email: Option<string>, otp: Option<string>, now: int): (r: Result<seq<User>>)
    ensures !(Truthy(email) && Truthy(otp)) ==> r == Fail(400, MissingFields)
    ensures r.Ok? <==> (Truthy(email) && Truthy(otp)
      && exists k :: 0 <= k < |users| && OtpMatch(users[k], email.value, otp.value, now))
    ensures r.Err? && Truthy(email) && Truthy(otp) ==> r.error == ApiError(400, InvalidOtp)
    ensures r.Ok? ==>
      var k := FirstMatch(users, u => OtpMatch(u, email.value, otp.value, now)).value;
      r.value == users[k := users[k].(isVerified := true, otp := None, otpExpiry := None)]
  {
    if !(Truthy(email) && Truthy(otp)) then Fail(400, MissingFields)
    else match FirstMatch(users, u => OtpMatch(u, email.value, otp.value, now))
      case None => Fail(400, InvalidOtp)
      case Some(k) => Ok(users[k := users[k].(isVerified := true, otp := None, otpExpiry := None)])
  }

  /** A code works once: replaying it, at any time, is refused. */
  lemma OtpSingleUse(users: seq<User>, email: string, otp: string, now: int, later: int)
    requires EmailsUnique(users) && email != [] && otp != []
    requires VerifyOtp(users, Some(email), Some(otp), now).Ok?
    ensures VerifyOtp(VerifyOtp(users, Some(email), Some(otp), now).value, Some(email), Some(otp), later)
         == Fail(400, InvalidOtp)
  {
    var k := FirstMatch(users, u => OtpMatch(u, email, otp, now)).value;
    var after := VerifyOtp(users, Some(email), Some(otp), now).value;
    forall j | 0 <= j < |after| ensures !OtpMatch(after[j], email, otp, later) {
      if j != k {
        assert users[j].email != users[k].email by {
          if j < k { assert users[j].email != users[k].email; } else { assert users[k].email != users[j].email; }
        }
      }
    }
  }

  /** Once an account is verified, registering its e-mail again is a 409. */
  lemma VerifiedCannotRegisterAgain(users: seq<User>, email: string, otp: string, now: int,
                                    req: RegisterRequest, otp2: string, now2: int, newId: Id, mailSent: bool)
    requires EmailsUnique(users) && email != [] && otp != []
    requires VerifyOtp(users, Some(email), Some(otp), now).Ok?
    requires RegisterComplete(req) && req.email == Some(email)
    ensures var after := VerifyOtp(users, Some(email), Some(otp), now).value;
      Register(after, req, otp2, now2, newId, mailSent).reply == Fail(409, AlreadyRegistered)
  {
    var k := FirstMatch(users, u => OtpMatch(u, email, otp, now)).value;
    var after := VerifyOtp(users, Some(email), Some(otp), now).value;
    assert after[k].email == email;
    assert FindByEmail(after, email) == Some(k) by {
      forall j | 0 <= j < k ensures after[j].email != email {
        assert users[j].email != users[k].email;
      }
    }
  }

  // ---------------------------------------------------------------- loginUser

  /** `loginUser`. `passwordMatches(stored, given)` stands for the account's
      password check. The reply is the id of the account let in. */
  function Login(users: seq<User>, email: Option<string>, password: Option<string>,
                 passwordMatches: (string, string) -> bool): (r: Result<Id>)
    ensures !(Truthy(email) && Truthy(password)) ==> r == Fail(400, MissingFields)
    ensures Truthy(email) && Truthy(password) ==> match FindByEmail(users, email.value)
      case None => r == Fail(404, AccountNotFound)
      case Some(k) =>
        && (!users[k].isVerified ==> r == Fail(403, NotVerified))
        && (users[k].isVerified && !passwordMatches(users[k].password, password.value) ==> r == Fail(401, BadCredentials))
        && (r.Ok? <==> users[k].isVerified && passwordMatches(users[k].password, password.value))
        && (r.Ok? ==> r.value == users[k].id)
  {
    if !(Truthy(email) && Truthy(password)) then Fail(400, MissingFields)
    else match FindByEmail(users, email.value)
      case None => Fail(404, AccountNotFound)
      case Some(k) =>
        if !users[k].isVerified then Fail(403, NotVerified)
        else if !passwordMatches(users[k].password, password.value) then Fail(401, BadCredentials)
        else Ok(users[k].id)
  }

  lemma FirstMatchAppend(users: seq<User>, u: User, p: User -> bool)
    requires forall j :: 0 <= j < |users| ==> !p(users[j])
    requires p(u)
    ensures FirstMatch(users + [u], p) == Some(|users|)
  {
    var all := users + [u];
    assert all[|users|] == u;
    assert forall j :: 0 <= j < |users| ==> all[j] == users[j];
  }

  lemma FindByEmailAppend(users: seq<User>, u: User)
    requires FindByEmail(users, u.email).None?
    ensures FindByEmail(users + [u], u.email) == Some(|users|)
  {
    var all := users + [u];
    assert all[|users|] == u;
    assert forall j :: 0 <= j < |users| ==> all[j] == users[j];
  }

  /** Replacing an account by one with the same e-mail keeps it the one found. */
  lemma FindByEmailUpdate(users: seq<User>, k: nat, u: User)
    requires k < |users| && FindByEmail(users, u.email) == Some(k)
    ensures FindByEmail(users[k := u], u.email) == Some(k)
  {
    var all := users[k := u];
    assert forall j :: 0 <= j < k ==> all[j] == users[j];
    assert all[k].email == u.email;
    match FindByEmail(all, u.email)
    case None =>
      assert false;
    case Some(i) =>
  }

  /** Registering an e-mail no account has appends one account, which is
      the one found by that e-mail and the one its code matches. */
  lemma {:induction false} NewAccountIsFound(users: seq<User>, req: RegisterRequest, otp: string, now: int, newId: Id, later: int)
    requires RegisterComplete(req) && FindByEmail(users, req.email.value).None? && later < now + OtpLifetime
    ensures var registered := Register(users, req, otp, now, newId, true).users;
      && registered == users + [NewAccount(newId, req, otp, now + OtpLifetime)]
      && FindByEmail(registered, req.email.value) == Some(|users|)
      && FirstMatch(registered, u => OtpMatch(u, req.email.value, otp, later)) == Some(|users|)
  {
    var email := req.email.value;
    var acct := NewAccount(newId, req, otp, now + OtpLifetime);
    FindByEmailAppend(users, acct);
    FirstMatchAppend(users, acct, u => OtpMatch(u, email, otp, later));
  }

  /** The whole sign-up path: a new e-mail registers, its code verifies it
      within ten minutes, and the password it registered with then logs in;
      before verification the same login is a 403. */
  lemma {:induction false} SignUpThenLogIn(users: seq<User>, req: RegisterRequest, otp: string, now: int, newId: Id,
                        later: int, passwordMatches: (string, string) -> bool)
    requires RegisterComplete(req) && FindByEmail(users, req.email.value).None? && otp != []
    requires later < now + OtpLifetime
    requires passwordMatches(req.password.value, req.password.value)
    ensures var registered := Register(users, req, otp, now, newId, true).users;
      && Login(registered, req.email, req.password, passwordMatches) == Fail(403, NotVerified)
      && VerifyOtp(registered, req.email, Some(otp), later).Ok?
      && Login(VerifyOtp(registered, req.email, Some(otp), later).value, req.email, req.password, passwordMatches)
         == Ok(newId)
  {
    var email := req.email.value;
    var n := |users|;
    NewAccountIsFound(users, req, otp, now, newId, later);
    var registered := Register(users, req, otp, now, newId, true).users;
    var verified := VerifyOtp(registered, req.email, Some(otp), later).value;
    FindByEmailUpdate(registered, n, registered[n].(isVerified := true, otp := None, otpExpiry := None));
  }

  // ---------------------------------------------------------------- forgotPassword

  /** `forgotPassword`. The account method that issues the token is not
      part of this model: `rawToken` is the token mailed out, `hash` the
      digest stored in its place and `expiry` the time it lapses. An
      unknown e-mail gets the same success reply and changes nothing; when
      the mail cannot be sent the token is cleared again. */
  function ForgotPassword(users: seq<User>, email: Option<string>, rawToken: string, hash: string -> string,
                          expiry: int, mailSent: bool): (o: Outcome<()>)
    ensures !Truthy(email) ==> o == Outcome(users, Fail(400, MissingFields))
    ensures Truthy(email) && FindByEmail(users, email.value).None? ==> o == Outcome(users, Ok(()))
    ensures Truthy(email) && FindByEmail(users, email.value).Some? ==>
      var k := FindByEmail(users, email.value).value;
      && o.reply == MailReply(mailSent, ())
      && (mailSent ==> o.users == users[k := users[k].(resetToken := Some(hash(rawToken)), resetExpiry := Some(expiry))])
      && (!mailSent ==> o.users == users[k := users[k].(resetToken := None, resetExpiry := None)])
  {
    if !Truthy(email) then Outcome(users, Fail(400, MissingFields))
    else match FindByEmail(users, email.value)
      case None => Outcome(users, Ok(()))
      case Some(k) =>
        var issued := users[k := users[k].(resetToken := Some(hash(rawToken)), resetExpiry := Some(expiry))];
        if mailSent then Outcome(issued, Ok(()))
        else Outcome(issued[k := issued[k].(resetToken := None, resetExpiry := None)], Fail(500, MailFailed))
  }

  // ---------------------------------------------------------------- resetPassword

  predicate ResetMatch(u: User, digest: string, now: int) {
    u.resetToken == Some(digest) && u.resetExpiry.Some? && u.resetExpiry.value > now
  }

  /** `resetPassword`: the first account holding the token's digest with an
      unexpired token takes the new password, and the token is cleared. */
  function ResetPassword(users: seq<User>, token: string, password: Option<string>, hash: string -> string, now: int)
    : (r: Result<seq<User>>)
    ensures !Truthy(password) ==> r == Fail(400, MissingFields)
    ensures r.Ok? <==> Truthy(password) && exists k :: 0 <= k < |users| && ResetMatch(users[k], hash(token), now)
    ensures r.Err? && Truthy(password) ==> r.error == ApiError(400, InvalidResetToken)
    ensures r.Ok? ==>
      var k := FirstMatch(users, u => ResetMatch(u, hash(token), now)).value;
      r.value == users[k := users[k].(password := password.value, resetToken := None, resetExpiry := None)]
  {
    if !Truthy(password) then Fail(400, MissingFields)
    else match FirstMatch(users, u => ResetMatch(u, hash(token), now))
      case None => Fail(400, InvalidResetToken)
      case Some(k) => Ok(users[k := users[k].(password := password.value, resetToken := None, resetExpiry := None)])
  }

  /** No digest is held by two accounts. */
  predicate TokensUnique(users: seq<User>) {
    forall i, j :: 0 <= i < j < |users| && users[i].resetToken.Some? ==> users[i].resetToken != users[j].resetToken
  }

  /** A reset token works once. */
  lemma ResetTokenSingleUse(users: seq<User>, token: string, password: string, hash: string -> string,
                            now: int, password2: string, later: int)
    requires TokensUnique(users) && password != [] && password2 != []
    requires ResetPassword(users, token, Some(password), hash, now).Ok?
    ensures ResetPassword(ResetPassword(users, token, Some(password), hash, now).value, token, Some(password2), hash, later)
         == Fail(400, InvalidResetToken)
  {
    var k := FirstMatch(users, u => ResetMatch(u, hash(token), now)).value;
    var after := ResetPassword(users, token, Some(password), hash, now).value;
    forall j | 0 <= j < |after| ensures !ResetMatch(after[j], hash(token), later) {
      if j != k {
        assert users[j].resetToken != users[k].resetToken by {
          if j < k { assert users[j].resetToken != users[k].resetToken; }
          else { assert users[k].resetToken != users[j].resetToken; }
        }
      }
    }
  }

  /** The mailed link works: after a successful `forgotPassword`, the raw
      token resets the password of that account until it expires, provided
      no other account already held its digest. */
  lemma ForgotThenReset(users: seq<User>, email: string, rawToken: string, hash: string -> string,
                        expiry: int, now: int, password: string)
    requires email != [] && password != [] && FindByEmail(users, email).Some?
    requires forall j :: 0 <= j < |users| ==> users[j].resetToken != Some(hash(rawToken))
    requires now < expiry
    ensures var issued := ForgotPassword(users, Some(email), rawToken, hash, expiry, true).users;
      var k := FindByEmail(users, email).value;
      && ResetPassword(issued, rawToken, Some(password), hash, now).Ok?
      && ResetPassword(issued, rawToken, Some(password), hash, now).value[k].password == password
  {
    var k := FindByEmail(users, email).value;
    var issued := ForgotPassword(users, Some(email), rawToken, hash, expiry, true).users;
    assert ResetMatch(issued[k], hash(rawToken), now);
    assert FirstMatch(issued, u => ResetMatch(u, hash(rawToken), now)) == Some(k) by {
      forall j | 0 <= j < k ensures !ResetMatch(issued[j], hash(rawToken), now) {
        assert issued[j] == users[j];
      }
    }
  }
}

=== FILE: catalog.dfy ===
/** Creating and editing catalogue products: `createProduct` and
    `updateProduct` (admin.controller.js).

    Request values arrive as form strings. `parseFloat`, `parseInt` and
    `slugify` are parameters (`Parsers`), and each image upload is a
    parameter too: one entry per uploaded file, holding the URL the upload
    returned, if any.
 */
module Catalog {
  import opened Api
  import opened Text
  import opened Model

  /** A request value that may be sent as one comma-separated string or as
      an array (`features`, `firmness`). */
  datatype ListField = Absent | Comma(text: string) | Items(items: seq<string>)

  datatype PackagingForm = PackagingForm(length: Option<string>, breadth: Option<string>, height: Option<string>)

  /** The request body. `packaging` is `adminPackagingDimension` sent as a
      nested object, which is what `createProduct` reads; `flatPackaging`
      is the three keys `adminPackagingDimension[length]`, `[breadth]` and
      `[height]`, which is what `updateProduct` reads. */
  datatype ProductForm = ProductForm(
    name: Option<string>, description: Option<string>,
    price: Option<string>, salePrice: Option<string>, originalPrice: Option<string>, stock: Option<string>,
    kind: Option<string>, category: Option<string>, gender: Option<string>,
    tags: Option<string>, color: Option<string>, material: Option<string>,
    packagingWeight: Option<string>, packaging: PackagingForm, flatPackaging: PackagingForm,
    dimensions: Option<string>, stones: Option<string>, jewelleryCategory: Option<string>,
    materialType: Option<string>, size: Option<string>,
    rating: Option<string>, reviews: Option<string>, badge: Option<string>,
    features: ListField, firmness: ListField)

  datatype Parsers = Parsers(float: string -> real, integer: string -> int, slug: string -> string)

  /** `price ?? salePrice`: a price that is present, even empty, wins. */
  function EffectivePrice(form: ProductForm): (r: Option<string>)
    ensures form.price.Some? ==> r == form.price
    ensures form.price.None? ==> r == form.salePrice
  {
    if form.price.Some? then form.price else form.salePrice
  }

  /** `uploads.map(r => r?.url).filter(Boolean)`. */
  function Urls(uploads: seq<Option<string>>): (r: seq<string>)
    ensures |r| <= |uploads|
    ensures forall u :: u in r ==> u != [] && Some(u) in uploads
  {
    if |uploads| == 0 then []
    else (if Truthy(uploads[0]) then [uploads[0].value] else []) + Urls(uploads[1..])
  }

  predicate AllUploaded(uploads: seq<Option<string>>) {
    forall i :: 0 <= i < |uploads| ==> Truthy(uploads[i])
  }

  /** Every file produced a URL exactly when nothing was filtered out, and
      then the URLs are the uploads in order. */
  lemma {:induction false} UrlsComplete(uploads: seq<Option<string>>)
    ensures |Urls(uploads)| == |uploads| <==> AllUploaded(uploads)
    ensures AllUploaded(uploads) ==> forall i :: 0 <= i < |uploads| ==> Some(Urls(uploads)[i]) == uploads[i]
  {
    if |uploads| > 0 {
      UrlsComplete(uploads[1..]);
      var rest := uploads[1..];
      if AllUploaded(uploads) {
        assert AllUploaded(rest) by {
          forall i | 0 <= i < |rest| ensures Truthy(rest[i]) {
            assert rest[i] == uploads[i + 1];
          }
        }
      }
      if !Truthy(uploads[0]) {
        assert |Urls(uploads)| == |Urls(rest)| <= |rest|;
      } else if !AllUploaded(rest) {
        var i :| 0 <= i < |rest| && !Truthy(rest[i]);
        assert !Truthy(uploads[i + 1]);
      }
    }
  }

  /** `x ? String(x).split(',').map(t => t.trim()) : []`. */
  function CommaList(x: Option<string>): (r: seq<string>)
    ensures !Truthy(x) ==> r == []
    ensures Truthy(x) ==> r == SplitTrim(x.value) && |r| >= 1
  {
    if Truthy(x) then SplitTrim(x.value) else []
  }

  /** `x ? parseFloat(x) : undefined`. */
  function FloatIfTruthy(x: Option<string>, float: string -> real): (r: Option<real>)
    ensures r.Some? <==> Truthy(x)
    ensures r.Some? ==> r.value == float(x.value)
  {
    if Truthy(x) then Some(float(x.value)) else None
  }

  // ---------------------------------------------------------------- createProduct

  predicate CreateComplete(form: ProductForm) {
    && Truthy(form.name) && Truthy(form.description) && Truthy(EffectivePrice(form))
    && Truthy(form.originalPrice) && Truthy(form.stock) && Truthy(form.kind)
  }

  /** `features` and `firmness` on create: an array is kept, a non-empty
      string is comma-split, and anything else takes the default `[]`. */
  function ListOnCreate(f: ListField): (r: seq<string>)
    ensures f.Items? ==> r == f.items
    ensures f.Comma? && f.text != [] ==> r == SplitTrim(f.text)
    ensures f.Absent? || f == Comma([]) ==> r == []
  {
    match f
    case Items(xs) => xs
    case Comma(t) => if t != [] then SplitTrim(t) else []
    case Absent => []
  }

  /** The document `createProduct` builds, after the schema's defaults. */
  function NewProduct(form: ProductForm, urls: seq<string>, parsers: Parsers): (p: Product)
    requires CreateComplete(form)
  {
    var jewellery := form.kind.value == "jewellery";
    Product(
      name := form.name.value,
      slug := parsers.slug(form.name.value),
      description := form.description.value,
      images := urls,
      stock := parsers.integer(form.stock.value),
      originalPrice := parsers.float(form.originalPrice.value),
      price := parsers.float(EffectivePrice(form).value),
      kind := form.kind.value,
      category := if Truthy(form.category) then form.category else None,
      gender := form.gender,
      tags := CommaList(form.tags),
      color := CommaList(form.color),
      material := form.material,
      packagingWeight := FloatIfTruthy(form.packagingWeight, parsers.float),
      packaging := Dimension(FloatIfTruthy(form.packaging.length, parsers.float),
                             FloatIfTruthy(form.packaging.breadth, parsers.float),
                             FloatIfTruthy(form.packaging.height, parsers.float)),
      dimensions := if jewellery then form.dimensions else None,
      stones := if jewellery then CommaList(form.stones) else [],
      jewelleryCategory := if jewellery then form.jewelleryCategory else None,
      materialType := if jewellery then form.materialType else None,
      size := if form.kind.value == "bag" then Some(CommaList(form.size)) else None,
      rating := if form.rating.Some? then parsers.float(form.rating.value) else 0.0,
      reviews := if form.reviews.Some? then parsers.integer(form.reviews.value) else 0,
      badge := if form.badge.Some? then Some(Trim(form.badge.value)) else None,
      features := ListOnCreate(form.features),
      firmness := ListOnCreate(form.firmness))
  }

  /** What `Product.create` validates: the schema's validators and a
      non-empty slug (`slug` is required, and `slugify` can empty a name). */
  predicate CreateValid(p: Product) {
    ProductSchemaValid(p) && p.slug != []
  }

  /** `createProduct`. `uploads` has one entry per image file; `newId` is the
      fresh id MongoDB gives the new document. */
  function CreateProduct(products: map<Id, Product>, form: ProductForm, uploads: seq<Option<string>>,
                         parsers: Parsers, newId: Id): (r: Result<map<Id, Product>>)
    requires newId !in products
    ensures !CreateComplete(form) ==> r == Fail(400, MissingFields)
    ensures CreateComplete(form) && |uploads| == 0 ==> r == Fail(400, MissingImages)
    ensures CreateComplete(form) && |uploads| > 0 && !AllUploaded(uploads) ==> r == Fail(500, UploadFailed)
    ensures r.Ok? <==> && CreateComplete(form) && |uploads| > 0 && AllUploaded(uploads)
                       && CreateValid(NewProduct(form, Urls(uploads), parsers))
    ensures r.Err? && CreateComplete(form) && |uploads| > 0 && AllUploaded(uploads) ==> r.error == ApiError(500, ValidationFailed)
    ensures r.Ok? ==> r.value.Keys == products.Keys + {newId} && |r.value| == |products| + 1
    ensures r.Ok? ==> CreateComplete(form) && r.value[newId] == NewProduct(form, Urls(uploads), parsers)
    ensures r.Ok? ==> forall id :: id in products ==> r.value[id] == products[id]
  {
    if !CreateComplete(form) then Fail(400, MissingFields)
    else if |uploads| == 0 then Fail(400, MissingImages)
    else
      var urls := Urls(uploads);
      UrlsComplete(uploads);
      if |urls| != |uploads| then Fail(500, UploadFailed)
      else
        var p := NewProduct(form, urls, parsers);
        if !CreateValid(p) then Fail(500, ValidationFailed)
        else Ok(products[newId := p])
  }

  /** What a created product holds: every uploaded image in upload order
      (the first one is the one the handler calls the main image), the
      listed fields comma-split, the jewellery fields only on jewellery and
      `size` only on bags, and values the schema accepts. */
  lemma CreatedProduct(products: map<Id, Product>, form: ProductForm, uploads: seq<Option<string>>,
                       parsers: Parsers, newId: Id)
    requires newId !in products
    requires CreateProduct(products, form, uploads, parsers, newId).Ok?
    ensures var p := CreateProduct(products, form, uploads, parsers, newId).value[newId];
      && |p.images| == |uploads| >= 1
      && (forall i :: 0 <= i < |uploads| ==> Some(p.images[i]) == uploads[i])
      && Some(p.name) == form.name && p.slug == parsers.slug(p.name) && p.slug != []
      && Some(p.kind) == form.kind && Some(p.description) == form.description
      && p.price == parsers.float(EffectivePrice(form).value)
      && p.originalPrice == parsers.float(form.originalPrice.value)
      && p.stock == parsers.integer(form.stock.value)
      && p.tags == CommaList(form.tags) && p.color == CommaList(form.color)
      && (p.kind != "jewellery" ==> p.stones == [] && p.dimensions.None? && p.jewelleryCategory.None? && p.materialType.None?)
      && (p.kind == "jewellery" ==> p.stones == CommaList(form.stones) && p.dimensions == form.dimensions)
      && (p.size.Some? <==> p.kind == "bag")
      && (p.category.Some? ==> p.category == form.category && p.category.value in Categories)
      && ProductSchemaValid(p)
  {
    UrlsComplete(uploads);
  }

  /** Tags that need no trimming come back unchanged when the stored list
      is joined with commas again. */
  lemma CreatedTagsJoinBack(products: map<Id, Product>, form: ProductForm, uploads: seq<Option<string>>,
                            parsers: Parsers, newId: Id)
    requires newId !in products
    requires CreateProduct(products, form, uploads, parsers, newId).Ok?
    requires Truthy(form.tags)
    requires forall i :: 0 <= i < |Split(form.tags.value, ',')| ==> Trim(Split(form.tags.value, ',')[i]) == Split(form.tags.value, ',')[i]
    ensures Join(CreateProduct(products, form, uploads, parsers, newId).value[newId].tags, ',') == form.tags.value
  {
    var t := form.tags.value;
    assert SplitTrim(t) == Split(t, ',');
    JoinSplit(t, ',');
  }

  // ---------------------------------------------------------------- updateProduct

  /** A present request value replaces the stored one. */
  function Override<T>(x: Option<T>, stored: T): (r: T)
    ensures x.None? ==> r == stored
    ensures x.Some? ==> r == x.value
  {
    if x.Some? then x.value else stored
  }

  /** `features` and `firmness` on update: an array is kept and anything
      else present is comma-split, even an empty string. */
  function ListOnUpdate(f: ListField, stored: seq<string>): (r: seq<string>)
    ensures f.Absent? ==> r == stored
    ensures f.Items? ==> r == f.items
    ensures f.Comma? ==> r == SplitTrim(f.text) && |r| >= 1
  {
    match f
    case Items(xs) => xs
    case Comma(t) => SplitTrim(t)
    case Absent => stored
  }

  function FloatOr(x: Option<string>, float: string -> real, stored: real): (r: real)
    ensures x.None? ==> r == stored
    ensures x.Some? ==> r == float(x.value)
  {
    if x.Some? then float(x.value) else stored
  }

  /** Component by component: a supplied component is parsed, a missing one
      keeps what is stored. */
  function MergePackaging(stored: Dimension, given: PackagingForm, float: string -> real): (d: Dimension)
    ensures given.length.None? ==> d.length == stored.length
    ensures given.length.Some? ==> d.length == Some(float(given.length.value))
    ensures given.breadth.None? ==> d.breadth == stored.breadth
    ensures given.breadth.Some? ==> d.breadth == Some(float(given.breadth.value))
    ensures given.height.None? ==> d.height == stored.height
    ensures given.height.Some? ==> d.height == Some(float(given.height.value))
  {
    if given.length.None? && given.breadth.None? && given.height.None? then stored
    else Dimension(if given.length.Some? then Some(float(given.length.value)) else stored.length,
                   if given.breadth.Some? then Some(float(given.breadth.value)) else stored.breadth,
                   if given.height.Some? then Some(float(given.height.value)) else stored.height)
  }

  /** `String(x).split(',').map(t => t.trim())` when present. */
  function SplitOr(x: Option<string>, stored: seq<string>): (r: seq<string>)
    ensures x.None? ==> r == stored
    ensures x.Some? ==> r == SplitTrim(x.value)
  {
    if x.Some? then SplitTrim(x.value) else stored
  }

  /** The stored product with the request's `$set` applied. The type-specific
      fields follow the type named in the request, not the stored one. */
  function Updated(p: Product, form: ProductForm, uploads: seq<Option<string>>, parsers: Parsers): (r: Product)
  {
    var jewellery := form.kind == Some("jewellery");
    var bag := form.kind == Some("bag");
    var urls := Urls(uploads);
    p.(
      name := Override(form.name, p.name),
      description := Override(form.description, p.description),
      price := FloatOr(EffectivePrice(form), parsers.float, p.price),
      originalPrice := FloatOr(form.originalPrice, parsers.float, p.originalPrice),
      stock := if form.stock.Some? then parsers.integer(form.stock.value) else p.stock,
      kind := Override(form.kind, p.kind),
      category := if form.category.Some? then form.category else p.category,
      gender := if form.gender.Some? then form.gender else p.gender,
      tags := SplitOr(form.tags, p.tags),
      color := SplitOr(form.color, p.color),
      material := if form.material.Some? then form.material else p.material,
      packagingWeight := if form.packagingWeight.Some? then Some(parsers.float(form.packagingWeight.value)) else p.packagingWeight,
      rating := FloatOr(form.rating, parsers.float, p.rating),
      reviews := if form.reviews.Some? then parsers.integer(form.reviews.value) else p.reviews,
      badge := if form.badge.Some? then Some(Trim(form.badge.value)) else p.badge,
      features := ListOnUpdate(form.features, p.features),
      firmness := ListOnUpdate(form.firmness, p.firmness),
      packaging := MergePackaging(p.packaging, form.flatPackaging, parsers.float),
      dimensions := if jewellery && form.dimensions.Some? then form.dimensions else p.dimensions,
      stones := if jewellery then SplitOr(form.stones, p.stones) else p.stones,
      jewelleryCategory := if jewellery && form.jewelleryCategory.Some? then form.jewelleryCategory else p.jewelleryCategory,
      materialType := if jewellery && form.materialType.Some? then form.materialType else p.materialType,
      size := if bag && form.size.Some? then Some(SplitTrim(form.size.value)) else p.size,
      images := if |uploads| > 0 && |urls| > 0 then urls else p.images)
  }

  /** `runValidators` checks only the paths being set: `required` on
      `name`, `description` and `type` refuses an empty string, and the
      range and enum validators apply to what is set. */
  predicate UpdateValid(form: ProductForm, r: Product) {
    && (form.name.Some? ==> r.name != [])
    && (form.description.Some? ==> r.description != [])
    && (form.kind.Some? ==> r.kind != [])
    && (form.category.Some? ==> r.category.Some? && r.category.value in Categories)
    && (form.rating.Some? ==> 0.0 <= r.rating <= 5.0)
    && (form.reviews.Some? ==> r.reviews >= 0)
  }

  /** `updateProduct`. */
  function UpdateProduct(products: map<Id, Product>, productId: string, form: ProductForm,
                         uploads: seq<Option<string>>, parsers: Parsers): (r: Result<map<Id, Product>>)
    ensures !ValidObjectId(productId) ==> r == Fail(400, InvalidId)
    ensures ValidObjectId(productId) && productId !in products ==> r == Fail(404, ProductNotFound)
    ensures r.Ok? <==> && ValidObjectId(productId) && productId in products
                       && UpdateValid(form, Updated(products[productId], form, uploads, parsers))
    ensures r.Err? && ValidObjectId(productId) && productId in products ==> r.error == ApiError(500, ValidationFailed)
    ensures r.Ok? ==> (r.value.Keys == products.Keys
      && forall id :: id in products && id != productId ==> r.value[id] == products[id])
    ensures r.Ok? ==> r.value[productId] == Updated(products[productId], form, uploads, parsers)
  {
    if !ValidObjectId(productId) then Fail(400, InvalidId)
    else if productId !in products then Fail(404, ProductNotFound)
    else
      var p := Updated(products[productId], form, uploads, parsers);
      if !UpdateValid(form, p) then Fail(500, ValidationFailed)
      else Ok(products[productId := p])
  }

  /** Every field `updateProduct` writes outside the type-specific ones
      and the images: a field the request leaves out keeps its value, a
      field it names takes the (parsed) value, and the slug never follows a
      new name. */
  lemma UpdateTouchesOnlyGivenFields(p: Product, form: ProductForm, uploads: seq<Option<string>>, parsers: Parsers)
    ensures var r := Updated(p, form, uploads, parsers);
      && r.slug == p.slug
      && (form.name.None? ==> r.name == p.name) && (form.name.Some? ==> r.name == form.name.value)
      && (form.description.None? ==> r.description == p.description)
      && (form.description.Some? ==> r.description == form.description.value)
      && (form.price.None? && form.salePrice.None? ==> r.price == p.price)
      && (form.price.Some? ==> r.price == parsers.float(form.price.value))
      && (form.price.None? && form.salePrice.Some? ==> r.price == parsers.float(form.salePrice.value))
      && (form.originalPrice.None? ==> r.originalPrice == p.originalPrice)
      && (form.originalPrice.Some? ==> r.originalPrice == parsers.float(form.originalPrice.value))
      && (form.stock.None? ==> r.stock == p.stock) && (form.stock.Some? ==> r.stock == parsers.integer(form.stock.value))
      && (form.kind.None? ==> r.kind == p.kind) && (form.kind.Some? ==> r.kind == form.kind.value)
      && (form.category.None? ==> r.category == p.category) && (form.category.Some? ==> r.category == form.category)
      && (form.gender.None? ==> r.gender == p.gender) && (form.gender.Some? ==> r.gender == form.gender)
      && (form.tags.None? ==> r.tags == p.tags) && (form.tags.Some? ==> r.tags == SplitTrim(form.tags.value))
      && (form.color.None? ==> r.color == p.color) && (form.color.Some? ==> r.color == SplitTrim(form.color.value))
      && (form.material.None? ==> r.material == p.material) && (form.material.Some? ==> r.material == form.material)
      && (form.packagingWeight.None? ==> r.packagingWeight == p.packagingWeight)
      && (form.packagingWeight.Some? ==> r.packagingWeight == Some(parsers.float(form.packagingWeight.value)))
      && (form.rating.None? ==> r.rating == p.rating) && (form.rating.Some? ==> r.rating == parsers.float(form.rating.value))
      && (form.reviews.None? ==> r.reviews == p.reviews)
      && (form.reviews.Some? ==> r.reviews == parsers.integer(form.reviews.value))
      && (form.badge.None? ==> r.badge == p.badge) && (form.badge.Some? ==> r.badge == Some(Trim(form.badge.value)))
      && (form.features.Absent? ==> r.features == p.features) && (form.features.Items? ==> r.features == form.features.items)
      && (form.features.Comma? ==> r.features == SplitTrim(form.features.text))
      && (form.firmness.Absent? ==> r.firmness == p.firmness) && (form.firmness.Items? ==> r.firmness == form.firmness.items)
      && (form.firmness.Comma? ==> r.firmness == SplitTrim(form.firmness.text))
      && (form.flatPackaging.length.None? ==> r.packaging.length == p.packaging.length)
      && (form.flatPackaging.length.Some? ==> r.packaging.length == Some(parsers.float(form.flatPackaging.length.value)))
      && (form.flatPackaging.breadth.None? ==> r.packaging.breadth == p.packaging.breadth)
      && (form.flatPackaging.breadth.Some? ==> r.packaging.breadth == Some(parsers.float(form.flatPackaging.breadth.value)))
      && (form.flatPackaging.height.None? ==> r.packaging.height == p.packaging.height)
      && (form.flatPackaging.height.Some? ==> r.packaging.height == Some(parsers.float(form.flatPackaging.height.value)))
  {
  }

  /** The type-specific fields move only when the request itself names
      the type: a stored jewellery product's stones cannot be edited
      without sending `type` again. */
  lemma TypeFieldsNeedTypeInRequest(p: Product, form: ProductForm, uploads: seq<Option<string>>, parsers: Parsers)
    ensures var r := Updated(p, form, uploads, parsers);
      && (form.kind != Some("jewellery") ==>
            r.stones == p.stones && r.dimensions == p.dimensions
            && r.jewelleryCategory == p.jewelleryCategory && r.materialType == p.materialType)
      && (form.kind != Some("bag") ==> r.size == p.size)
      && (form.kind == Some("jewellery") && form.stones.Some? ==> r.stones == SplitTrim(form.stones.value))
      && (form.kind == Some("bag") && form.size.Some? ==> r.size == Some(SplitTrim(form.size.value)))
  {
  }

  /** New images replace the stored ones only if at least one upload gave a
      URL; unlike creation, a partly failed upload is accepted and stores
      just the URLs that came back. */
  lemma {:induction false} UpdateImages(p: Product, form: ProductForm, uploads: seq<Option<string>>, parsers: Parsers)
    ensures var r := Updated(p, form, uploads, parsers);
      && (|Urls(uploads)| == 0 ==> r.images == p.images)
      && (|Urls(uploads)| > 0 ==> r.images == Urls(uploads) && |r.images| <= |uploads|)
      && (AllUploaded(uploads) && |uploads| > 0 ==> (|r.images| == |uploads|
           && forall i :: 0 <= i < |uploads| ==> Some(r.images[i]) == uploads[i]))
  {
    UrlsComplete(uploads);
  }

  /** The same upload with one failed file: creation refuses it, an update
      keeps the one image that arrived. */
  lemma PartialUploadScenario(products: map<Id, Product>, form: ProductForm, parsers: Parsers, newId: Id, url: string)
    requires CreateComplete(form) && url != [] && newId !in products
    ensures CreateProduct(products, form, [Some(url), None], parsers, newId) == Fail(500, UploadFailed)
    ensures forall p :: Updated(p, form, [Some(url), None], parsers).images == [url]
  {
    var uploads: seq<Option<string>> := [Some(url), None];
    var last: seq<Option<string>> := [None];
    assert Urls(uploads) == [url] by {
      assert uploads[1..] == last;
      assert Urls(last) == [] by {
        assert last[1..] == [];
      }
    }
    assert !AllUploaded(uploads) by {
      assert !Truthy(uploads[1]);
    }
  }

  /** The request with nothing in it. */
  const NoChange := ProductForm(None, None, None, None, None, None, None, None, None, None, None, None, None,
                                PackagingForm(None, None, None), PackagingForm(None, None, None),
                                None, None, None, None, None, None, None, None, Absent, Absent)

  /** An update with no fields and no files leaves the catalogue as it was. */
  lemma EmptyUpdateChangesNothing(products: map<Id, Product>, productId: string, parsers: Parsers)
    requires ValidObjectId(productId) && productId in products
    ensures UpdateProduct(products, productId, NoChange, [], parsers) == Ok(products)
  {
    assert Updated(products[productId], NoChange, [], parsers) == products[productId];
    assert products[productId := products[productId]] == products;
  }

  /** Sending the same update twice has the effect of sending it once. */
  lemma UpdateIdempotent(products: map<Id, Product>, productId: string, form: ProductForm,
                         uploads: seq<Option<string>>, parsers: Parsers)
    requires UpdateProduct(products, productId, form, uploads, parsers).Ok?
    ensures var once := UpdateProduct(products, productId, form, uploads, parsers).value;
      UpdateProduct(once, productId, form, uploads, parsers) == Ok(once)
  {
    var p := products[productId];
    var p1 := Updated(p, form, uploads, parsers);
    var once := products[productId := p1];
    assert Updated(p1, form, uploads, parsers) == p1;
    assert once[productId := p1] == once;
  }
}

=== FILE: checkout.dfy ===
/** The checkout core shared by `placeCodOrder` (user.controller.js) and the
    two gateway handlers (payment.controller.js): reading the cart against
    the products, pricing it, and the all-or-nothing commit.

    A handler that fails returns `Err` and no store, which is how the model
    states that an aborted transaction leaves cart, stock and orders as they
    were.
 */
module Checkout {
  import opened Api
  import opened Text
  import opened Model
  import opened Ledger
  import opened Pricing
  import opened Coupons

  /** The two checkout paths differ in the error for a deleted product and
      in whether the order line keeps an image. */
  datatype Flow = CashOnDelivery | Gateway

  /** The per-line gate: the product still exists and its stock, as read at
      the start of the request, covers the line. */
  predicate InStock(line: CartLine, products: map<Id, Product>) {
    line.product in products && products[line.product].stock >= line.quantity
  }

  function FirstImage(images: seq<string>): Option<string> {
    if |images| > 0 then Some(images[0]) else None
  }

  /** The order line written for a cart line: name and price frozen now. */
  function Snapshot(flow: Flow, line: CartLine, p: Product): OrderItem {
    OrderItem(line.product, p.name, line.quantity, p.price,
              if flow == CashOnDelivery then FirstImage(p.images) else None)
  }

  /** The error a failing line raises: the cash-on-delivery path answers 404
      for a deleted product, the gateway paths answer 400 for both cases. */
  function LineFailure(flow: Flow, line: CartLine, products: map<Id, Product>): ApiError {
    if line.product !in products && flow == CashOnDelivery then ApiError(404, ProductUnavailable)
    else ApiError(400, OutOfStock)
  }

  /** The order lines are the cart's lines, snapshotted in order. */
  predicate Snapshots(flow: Flow, items: seq<OrderItem>, cart: seq<CartLine>, products: map<Id, Product>) {
    && |items| == |cart|
    && forall i :: 0 <= i < |cart| ==>
         cart[i].product in products && items[i] == Snapshot(flow, cart[i], products[cart[i].product])
  }

  /** The loop over the cart: every line must pass the gate, and the first
      line that does not decides the error. */
  function ResolveCart(flow: Flow, cart: seq<CartLine>, products: map<Id, Product>): (r: Result<seq<OrderItem>>)
    ensures r.Ok? <==> forall i :: 0 <= i < |cart| ==> InStock(cart[i], products)
    ensures r.Ok? ==> Snapshots(flow, r.value, cart, products)
    ensures r.Err? ==> exists i :: (0 <= i < |cart| && !InStock(cart[i], products)
      && (forall j :: 0 <= j < i ==> InStock(cart[j], products))
      && r.error == LineFailure(flow, cart[i], products))
  {
    if |cart| == 0 then Ok([])
    else if !InStock(cart[0], products) then Err(LineFailure(flow, cart[0], products))
    else match ResolveCart(flow, cart[1..], products)
      case Err(e) =>
        ghost var i' :| 0 <= i' < |cart[1..]| && !InStock(cart[1..][i'], products)
          && (forall j :: 0 <= j < i' ==> InStock(cart[1..][j], products))
          && e == LineFailure(flow, cart[1..][i'], products);
        assert !InStock(cart[i' + 1], products);
        Err(e)
      case Ok(rest) =>
        var items := [Snapshot(flow, cart[0], products[cart[0].product])] + rest;
        assert forall i :: 1 <= i < |cart| ==> items[i] == rest[i - 1] && cart[i] == cart[1..][i - 1];
        Ok(items)
  }

  /** The order lines ask for exactly what the cart asked for. */
  lemma {:induction false} SnapshotQuantities(flow: Flow, items: seq<OrderItem>, cart: seq<CartLine>, products: map<Id, Product>, id: Id)
    requires Snapshots(flow, items, cart, products)
    ensures QtyOf(items, id) == CartQty(cart, id)
  {
    if |cart| > 0 {
      assert Snapshots(flow, items[1..], cart[1..], products) by {
        forall i | 0 <= i < |cart[1..]|
          ensures cart[1..][i].product in products
          ensures items[1..][i] == Snapshot(flow, cart[1..][i], products[cart[1..][i].product])
        {
          assert cart[1..][i] == cart[i + 1];
        }
      }
      SnapshotQuantities(flow, items[1..], cart[1..], products, id);
    }
  }

  /** The coupon step: no truthy code means no discount; a truthy code must
      name an active coupon by its upper-cased form, otherwise 404. */
  function PriceCart(subtotal: real, coupons: seq<Coupon>, couponCode: Option<string>): (r: Result<Quote>)
    ensures !Truthy(couponCode) ==> r == Ok(QuoteFor(subtotal, None))
    ensures Truthy(couponCode) ==>
      match CheckoutCoupon(coupons, couponCode.value)
      case None => r == Fail(404, InvalidCoupon)
      case Some(c) => r == Ok(QuoteFor(subtotal, Some(c)))
  {
    if !Truthy(couponCode) then Ok(QuoteFor(subtotal, None))
    else match CheckoutCoupon(coupons, couponCode.value)
      case None => Fail(404, InvalidCoupon)
      case Some(c) => Ok(QuoteFor(subtotal, Some(c)))
  }

  /** What the handlers promise about the prices of an order they write:
      items at the snapshot prices, shipping free exactly above 2000, the
      coupon's percentage off the items, and the total tying them together. */
  predicate PricedBy(q: Quote, items: seq<OrderItem>, coupons: seq<Coupon>, couponCode: Option<string>) {
    && q.itemsPrice == Subtotal(items)
    && (q.shippingPrice == 0.0 || q.shippingPrice == FlatShipping)
    && (q.shippingPrice == 0.0 <==> q.itemsPrice > FreeShippingAbove)
    && (!Truthy(couponCode) ==> q.discountAmount == 0.0 && q.couponCode.None?)
    && (Truthy(couponCode) ==>
          && CheckoutCoupon(coupons, couponCode.value).Some?
          && var c := CheckoutCoupon(coupons, couponCode.value).value;
          && q.discountAmount * 100.0 == q.itemsPrice * c.discountPercentage
          && q.couponCode == Some(c.code))
    && q.totalPrice == q.itemsPrice + q.shippingPrice - q.discountAmount
  }

  /** Everything a checkout reads, once the user is known. */
  datatype Prepared = Prepared(address: Address, items: seq<OrderItem>, quote: Quote)

  /** The checks both paths run after finding the user, in the source's
      order: empty cart (400), unknown address (404), the per-line gate,
      then the coupon (404). */
  predicate CartAccepted(flow: Flow, s: Store, u: nat, addressId: Id, couponCode: Option<string>)
    requires u < |s.users|
  {
    var cart := s.users[u].cart;
    && |cart| > 0
    && FindAddress(s.users[u].addresses, addressId).Some?
    && (forall i :: 0 <= i < |cart| ==> InStock(cart[i], s.products))
    && (Truthy(couponCode) ==> CheckoutCoupon(s.coupons, couponCode.value).Some?)
  }

  function Prepare(flow: Flow, s: Store, u: nat, addressId: Id, couponCode: Option<string>): (r: Result<Prepared>)
    requires u < |s.users|
    ensures |s.users[u].cart| == 0 ==> r == Fail(400, EmptyCart)
    ensures |s.users[u].cart| > 0 && FindAddress(s.users[u].addresses, addressId).None? ==> r == Fail(404, AddressNotFound)
    ensures (|s.users[u].cart| > 0 && FindAddress(s.users[u].addresses, addressId).Some?
      && !(forall i :: 0 <= i < |s.users[u].cart| ==> InStock(s.users[u].cart[i], s.products)))
      ==> r == Err(ResolveCart(flow, s.users[u].cart, s.products).error)
    ensures (|s.users[u].cart| > 0 && FindAddress(s.users[u].addresses, addressId).Some?
      && (forall i :: 0 <= i < |s.users[u].cart| ==> InStock(s.users[u].cart[i], s.products))
      && Truthy(couponCode) && CheckoutCoupon(s.coupons, couponCode.value).None?)
      ==> r == Fail(404, InvalidCoupon)
    ensures r.Ok? <==> CartAccepted(flow, s, u, addressId, couponCode)
    ensures r.Ok? ==>
      && Some(r.value.address) == FindAddress(s.users[u].addresses, addressId)
      && Snapshots(flow, r.value.items, s.users[u].cart, s.products)
      && PricedBy(r.value.quote, r.value.items, s.coupons, couponCode)
  {
    var user := s.users[u];
    if |user.cart| == 0 then Fail(400, EmptyCart)
    else match FindAddress(user.addresses, addressId)
      case None => Fail(404, AddressNotFound)
      case Some(address) =>
        var items :- ResolveCart(flow, user.cart, s.products);
        var quote :- PriceCart(Subtotal(items), s.coupons, couponCode);
        Ok(Prepared(address, items, quote))
  }

  /** The transaction's writes: create the order, decrement every line's
      product, empty the user's cart. */
  function Commit(s: Store, u: nat, orderId: Id, order: Order): (s': Store)
    requires u < |s.users|
    ensures s'.orders == s.orders[orderId := order]
    ensures s'.coupons == s.coupons
    ensures s'.users == s.users[u := s.users[u].(cart := [])]
    ensures s'.products.Keys == s.products.Keys
    ensures forall id :: id in s.products ==>
      s'.products[id] == s.products[id].(stock := s.products[id].stock - QtyOf(order.items, id))
  {
    Store(Decrement(s.products, order.items), s.users[u := s.users[u].(cart := [])], s.coupons,
          s.orders[orderId := order])
  }

  /** The order both paths build from what was prepared. */
  function BuildOrder(userId: Id, p: Prepared, keepAddressId: bool, paidBy: PaymentMethod,
                      paymentId: Option<string>, providerOrderId: Option<string>): Order
  {
    Order(userId, p.items,
          ShippingAddress(if keepAddressId then Some(p.address.id) else None, p.address.details, p.address.isDefault),
          p.quote.itemsPrice, p.quote.shippingPrice, 0.0, p.quote.discountAmount, p.quote.couponCode,
          p.quote.totalPrice, paidBy, paymentId, providerOrderId, "Processing", None, None)
  }

  /** An order's stored prices, read back as a quote. */
  function QuoteOf(o: Order): Quote {
    Quote(o.itemsPrice, o.shippingPrice, o.discountAmount, o.couponCode, o.totalPrice)
  }

  /** The state after a committed checkout of user `u`'s cart as `order`. */
  predicate Committed(s: Store, s': Store, u: nat, orderId: Id, order: Order)
    requires u < |s.users|
  {
    && s'.orders == s.orders[orderId := order]
    && s'.coupons == s.coupons
    && s'.users == s.users[u := s.users[u].(cart := [])]
    && s'.products == Decrement(s.products, order.items)
    && s'.products.Keys == s.products.Keys
    && forall id :: id in s.products ==>
         s'.products[id] == s.products[id].(stock := s.products[id].stock - CartQty(s.users[u].cart, id))
  }

  /** Committing a cart's snapshots takes from each product exactly what
      the cart asked for. */
  lemma CommitTakesCart(flow: Flow, s: Store, u: nat, orderId: Id, order: Order)
    requires u < |s.users|
    requires Snapshots(flow, order.items, s.users[u].cart, s.products)
    ensures Committed(s, Commit(s, u, orderId, order), u, orderId, order)
  {
    forall id | id in s.products
      ensures QtyOf(order.items, id) == CartQty(s.users[u].cart, id)
    {
      SnapshotQuantities(flow, order.items, s.users[u].cart, s.products, id);
    }
  }

  // ---------------------------------------------------------------- placeCodOrder

  datatype CodRequest = CodRequest(addressId: Option<string>, couponCode: Option<string>)

  /** `placeCodOrder`. Guards, each before any write: no address id (400),
      no user or an empty cart (400), an address not in the profile (404),
      a deleted product (404), short stock (400), an unknown or inactive
      coupon (404). On success the order is written with method COD, status
      "Processing" and tax 0, every product loses its line quantities and
      the cart is emptied. `orderId` is the id the database assigns. */
  function PlaceCodOrder(s: Store, userId: Id, req: CodRequest, orderId: Id): (r: Result<(Store, Order)>)
    requires orderId !in s.orders
    ensures !Truthy(req.addressId) ==> r == Fail(400, MissingFields)
    ensures Truthy(req.addressId) && FindUser(s.users, userId).None? ==> r == Fail(400, EmptyCart)
    ensures (Truthy(req.addressId) && FindUser(s.users, userId).Some?
      && Prepare(CashOnDelivery, s, FindUser(s.users, userId).value, req.addressId.value, req.couponCode).Err?)
      ==> r == Err(Prepare(CashOnDelivery, s, FindUser(s.users, userId).value, req.addressId.value, req.couponCode).error)
    ensures r.Ok? <==>
      && Truthy(req.addressId)
      && FindUser(s.users, userId).Some?
      && CartAccepted(CashOnDelivery, s, FindUser(s.users, userId).value, req.addressId.value, req.couponCode)
    ensures r.Ok? ==>
      var u := FindUser(s.users, userId).value;
      var s', order := r.value.0, r.value.1;
      && Committed(s, s', u, orderId, order)
      && Snapshots(CashOnDelivery, order.items, s.users[u].cart, s.products)
      && PricedBy(QuoteOf(order), order.items, s.coupons, req.couponCode)
      && order.user == userId
      && order.shippingAddress.id == req.addressId
      && order.paymentMethod == COD && order.paymentId.None? && order.status == "Processing"
      && order.taxPrice == 0.0 && order.cancellation.None? && order.refund.None?
  {
    if !Truthy(req.addressId) then Fail(400, MissingFields)
    else match FindUser(s.users, userId)
      case None => Fail(400, EmptyCart)
      case Some(u) =>
        var p :- Prepare(CashOnDelivery, s, u, req.addressId.value, req.couponCode);
        var order := BuildOrder(userId, p, true, COD, None, None);
        CommitTakesCart(CashOnDelivery, s, u, orderId, order);
        Ok((Commit(s, u, orderId, order), order))
  }
}

=== FILE: cloudinary.dfy ===
/** `getPublicIdFromUrl` (config/cloudinary.js): the public id of an asset
    is recovered from its delivery URL by keeping the path from the first
    `products` segment on and dropping the file extension.
 */
module Cloudinary {
  import opened Api
  import opened Text

  /** `parts.slice(parts.indexOf('products')).join('/')`. When there is no
      `products` segment, `indexOf` gives -1 and `slice(-1)` keeps only the
      last segment. */
  function KeptPath(url: string): (kept: string)
  {
    var parts := Split(url, '/');
    var k := IndexOf(parts, "products");
    Join(if k >= 0 then parts[k..] else parts[|parts| - 1..], '/')
  }

  /** `s.substring(0, s.lastIndexOf('.'))`: a negative end counts as 0, so
      a string without a dot gives "". */
  function DropExtension(s: string): (r: string)
    ensures '.' !in s ==> r == ""
    ensures '.' in s ==> |r| < |s| && s == r + s[|r|..] && s[|r|] == '.' && '.' !in s[|r| + 1..]
  {
    var d := LastIndexOfChar(s, '.');
    if d < 0 then "" else s[..d]
  }

  function PublicIdFromUrl(url: Option<string>): (r: string)
    ensures !Truthy(url) ==> r == ""
    ensures Truthy(url) ==> r == DropExtension(KeptPath(url.value))
    ensures Truthy(url) ==> KeptPath(url.value)[..|r|] == r
  {
    if !Truthy(url) then "" else DropExtension(KeptPath(url.value))
  }

  /** Without a `products` segment only the last segment is kept. */
  lemma WithoutProductsSegment(url: string)
    requires "products" !in Split(url, '/')
    ensures KeptPath(url) == Split(url, '/')[|Split(url, '/')| - 1]
  {
  }

  // ---------------------------------------------------------------- round trip

  lemma {:induction false} JoinAppendLast(xs: seq<string>, s: string, c: char)
    requires |xs| >= 1
    ensures Join(xs, c) + s == Join(xs[..|xs| - 1] + [xs[|xs| - 1] + s], c)
  {
    var n := |xs|;
    var ys := xs[..n - 1] + [xs[n - 1] + s];
    if n == 1 {
      assert ys == [xs[0] + s];
    } else {
      var tail := xs[1..];
      JoinAppendLast(tail, s, c);
      assert ys[1..] == tail[..|tail| - 1] + [tail[|tail| - 1] + s];
      calc {
        Join(ys, c);
        ys[0] + [c] + Join(ys[1..], c);
        xs[0] + [c] + (Join(tail, c) + s);
        (xs[0] + [c] + Join(tail, c)) + s;
        Join(xs, c) + s;
      }
    }
  }

  lemma {:induction false} LastIndexOfSuffix(a: string, b: string, c: char)
    requires c !in b
    ensures LastIndexOfChar(a + [c] + b, c) == |a|
    decreases |b|
  {
    var s := a + [c] + b;
    if |b| > 0 {
      assert s[..|s| - 1] == a + [c] + b[..|b| - 1];
      assert s[|s| - 1] == b[|b| - 1];
      LastIndexOfSuffix(a, b[..|b| - 1], c);
    } else {
      assert s[|s| - 1] == c;
    }
  }

  /** The segments of a URL for the public id `products/folder...` with
      extension `ext`: the extension rides on the last segment. */
  function IdSegments(folder: seq<string>, ext: string): (parts: seq<string>)
    requires |folder| >= 1
    ensures |parts| == |folder| + 1 && parts[0] == "products"
  {
    (["products"] + folder)[..|folder|] + [folder[|folder| - 1] + "." + ext]
  }

  predicate NoSlash(parts: seq<string>) {
    forall i :: 0 <= i < |parts| ==> '/' !in parts[i]
  }

  lemma {:induction false} AppendToLastSegment(xs: seq<string>, ys: seq<string>, suffix: string)
    requires |ys| == |xs| >= 1
    requires ys[..|ys| - 1] == xs[..|xs| - 1] && ys[|ys| - 1] == xs[|xs| - 1] + suffix
    ensures Join(ys, '/') == Join(xs, '/') + suffix
  {
    JoinAppendLast(xs, suffix, '/');
    assert xs[..|xs| - 1] + [xs[|xs| - 1] + suffix] == ys;
  }

  lemma {:induction false} IdSegmentsJoin(host: seq<string>, folder: seq<string>, ext: string)
    requires |folder| >= 1
    ensures Join(host + IdSegments(folder, ext), '/') == Join(host + ["products"] + folder, '/') + "." + ext
    ensures Join(IdSegments(folder, ext), '/') == Join(["products"] + folder, '/') + "." + ext
  {
    var id := IdSegments(folder, ext);
    var xs := ["products"] + folder;
    var n := |folder|;
    assert id[..n] == xs[..n] && id[n] == xs[n] + "." + ext;
    AppendToLastSegment(xs, id, "." + ext);
    var all := host + xs;
    var allId := host + id;
    assert allId[..|allId| - 1] == all[..|all| - 1] by {
      assert allId[..|allId| - 1] == host + id[..n];
      assert all[..|all| - 1] == host + xs[..n];
    }
    assert allId[|allId| - 1] == id[n];
    assert all == host + ["products"] + folder;
    AppendToLastSegment(all, allId, "." + ext);
  }

  lemma IdSegmentsNoSlash(host: seq<string>, folder: seq<string>, ext: string)
    requires |folder| >= 1 && NoSlash(host) && NoSlash(folder) && '/' !in ext
    ensures NoSlash(host + IdSegments(folder, ext))
  {
    var id := IdSegments(folder, ext);
    var parts := host + id;
    forall i | 0 <= i < |parts| ensures '/' !in parts[i] {
      if i >= |host| {
        var j := i - |host|;
        assert parts[i] == id[j];
        if 0 < j < |folder| {
          assert id[j] == folder[j - 1];
        }
      }
    }
  }

  /** The kept path of a URL whose segments contain no slash is the joined
      segments from the first `products` on. */
  lemma KeptPathOfSegments(parts: seq<string>, k: nat)
    requires |parts| >= 1 && NoSlash(parts)
    requires k < |parts| && parts[k] == "products" && "products" !in parts[..k]
    ensures KeptPath(Join(parts, '/')) == Join(parts[k..], '/')
  {
    SplitJoin(parts, '/');
  }

  lemma DropExtensionOfSuffix(base: string, ext: string)
    requires '.' !in ext
    ensures DropExtension(base + "." + ext) == base
  {
    assert base + "." + ext == base + ['.'] + ext;
    LastIndexOfSuffix(base, ext, '.');
    assert (base + "." + ext)[..|base|] == base;
  }

  /** Building a delivery URL from a public id under `products` and an
      extension, and reading the public id back, gives the id again. */
  lemma {:induction false} PublicIdRoundTrip(host: seq<string>, folder: seq<string>, ext: string)
    requires |folder| >= 1 && NoSlash(host) && NoSlash(folder)
    requires "products" !in host
    requires '/' !in ext && '.' !in ext
    ensures PublicIdFromUrl(Some(Join(host + ["products"] + folder, '/') + "." + ext))
         == Join(["products"] + folder, '/')
  {
    var id := IdSegments(folder, ext);
    var parts := host + id;
    IdSegmentsJoin(host, folder, ext);
    IdSegmentsNoSlash(host, folder, ext);
    assert parts[..|host|] == host && parts[|host|..] == id;
    KeptPathOfSegments(parts, |host|);
    DropExtensionOfSuffix(Join(["products"] + folder, '/'), ext);
    var url := Join(parts, '/');
    assert url != [] by {
      assert url == Join(host + ["products"] + folder, '/') + "." + ext;
    }
  }
}

=== FILE: contact.dfy ===
/** Contact inquiries (contact.controller.js): the public form, the admin's
    filtered list and the admin's edit.

    The inquiry schema trims `fullName`, `email`, `phoneNumber`, `subject`
    and `size` and lower-cases `email` whenever they are assigned; the
    model applies those setters where the handlers assign. The image
    upload is a parameter: `None` when no file came with the request,
    otherwise what the upload returned.
 */
module Contact {
  import opened Api
  import opened Text
  import opened Model

  /** The `status` enum; "New" is its default. */
  const InquiryStatuses: seq<string> := ["New", "Contacted", "Completed", "Rejected"]

  datatype Inquiry = Inquiry(
    id: Id, fullName: string, email: string, phoneNumber: Option<string>, message: string,
    subject: Option<string>, size: Option<string>, referenceImage: string, status: string)

  /** The body fields both handlers read, under every alias they accept. */
  datatype InquiryForm = InquiryForm(
    fullName: Option<string>, name: Option<string>, email: Option<string>,
    phoneNumber: Option<string>, phone: Option<string>, mobile: Option<string>,
    message: Option<string>, subject: Option<string>, size: Option<string>, status: Option<string>)

  /** `fullName || name`. */
  function FullNameOf(form: InquiryForm): (r: Option<string>)
    ensures Truthy(form.fullName) ==> r == form.fullName
    ensures !Truthy(form.fullName) ==> r == form.name
  {
    Or(form.fullName, form.name)
  }

  /** `phoneNumber || phone || mobile`: the first truthy alias, else the last. */
  function PhoneOf(form: InquiryForm): (r: Option<string>)
    ensures Truthy(r) <==> Truthy(form.phoneNumber) || Truthy(form.phone) || Truthy(form.mobile)
    ensures Truthy(form.phoneNumber) ==> r == form.phoneNumber
    ensures !Truthy(form.phoneNumber) && Truthy(form.phone) ==> r == form.phone
    ensures !Truthy(form.phoneNumber) && !Truthy(form.phone) ==> r == form.mobile
  {
    Or(Or(form.phoneNumber, form.phone), form.mobile)
  }

  /** A string path with the `trim` setter. */
  function Trimmed(x: Option<string>): (r: Option<string>)
    ensures r.Some? <==> x.Some?
    ensures r.Some? ==> r.value == Trim(x.value)
  {
    if x.Some? then Some(Trim(x.value)) else None
  }

  /** The `email` path: lower-cased and trimmed. */
  function EmailSetter(s: string): string {
    Trim(Lower(s))
  }

  predicate SubmitComplete(form: InquiryForm) {
    !Missing(FullNameOf(form)) && !Missing(form.email) && !Missing(form.message)
  }

  /** `imageUploadResult?.url || ""`. */
  function ReferenceImage(upload: Option<Option<string>>): (r: string)
    ensures upload.None? ==> r == ""
    ensures upload.Some? && Truthy(upload.value) ==> r == upload.value.value
    ensures upload.Some? && !Truthy(upload.value) ==> r == ""
  {
    if upload.Some? && Truthy(upload.value) then upload.value.value else ""
  }

  /** `submitInquiry`. `newId` is the id the new document gets. */
  function SubmitInquiry(inquiries: seq<Inquiry>, form: InquiryForm, upload: Option<Option<string>>, newId: Id)
    : (r: Result<seq<Inquiry>>)
    ensures r.Err? <==> !SubmitComplete(form)
    ensures r.Err? ==> r.error == ApiError(400, MissingFields)
    ensures r.Ok? ==>
      && |r.value| == |inquiries| + 1 && r.value[..|inquiries|] == inquiries
      && var q := r.value[|inquiries|];
      && q.id == newId && q.status == "New"
      && q.fullName == Trim(FullNameOf(form).value) && q.fullName != []
      && q.email == EmailSetter(form.email.value)
      && q.phoneNumber == Trimmed(PhoneOf(form))
      && Some(q.message) == form.message
      && q.subject == Trimmed(form.subject) && q.size == Trimmed(form.size)
      && q.referenceImage == ReferenceImage(upload)
  {
    if !SubmitComplete(form) then Fail(400, MissingFields)
    else
      var q := Inquiry(newId, Trim(FullNameOf(form).value), EmailSetter(form.email.value), Trimmed(PhoneOf(form)),
                       form.message.value, Trimmed(form.subject), Trimmed(form.size), ReferenceImage(upload), "New");
      Ok(inquiries + [q])
  }

  // ---------------------------------------------------------------- getAllInquiries

  /** The inquiries with the given status, each as often as it is stored. */
  function WithStatus(inquiries: seq<Inquiry>, status: string): (r: seq<Inquiry>)
    ensures forall q :: q in r <==> q in inquiries && q.status == status
    ensures |r| <= |inquiries|
  {
    if |inquiries| == 0 then []
    else (if inquiries[0].status == status then [inquiries[0]] else []) + WithStatus(inquiries[1..], status)
  }

  /** The filter keeps each inquiry with the status as often as it is
      stored, and no other. */
  lemma {:induction false} WithStatusMultiset(inquiries: seq<Inquiry>, status: string)
    ensures forall q :: multiset(WithStatus(inquiries, status))[q] == if q.status == status then multiset(inquiries)[q] else 0
  {
    if |inquiries| > 0 {
      WithStatusMultiset(inquiries[1..], status);
      assert inquiries == [inquiries[0]] + inquiries[1..];
    }
  }

  /** Filtering two pieces and joining them is filtering the whole, so the
      filtered list keeps the stored order. */
  lemma {:induction false} WithStatusAppend(a: seq<Inquiry>, b: seq<Inquiry>, status: string)
    ensures WithStatus(a + b, status) == WithStatus(a, status) + WithStatus(b, status)
  {
    if |a| == 0 {
      assert a + b == b;
    } else {
      assert (a + b)[1..] == a[1..] + b;
      WithStatusAppend(a[1..], b, status);
    }
  }

  /** `getAllInquiries`, before sorting: the status filter applies only to
      one of the four statuses; anything else lists every inquiry. */
  function GetAllInquiries(inquiries: seq<Inquiry>, status: Option<string>): (r: seq<Inquiry>)
    ensures Truthy(status) && status.value in InquiryStatuses ==>
      forall q :: q in r <==> q in inquiries && q.status == status.value
    ensures !(Truthy(status) && status.value in InquiryStatuses) ==> r == inquiries
  {
    if Truthy(status) && status.value in InquiryStatuses then WithStatus(inquiries, status.value) else inquiries
  }

  predicate StatusesValid(inquiries: seq<Inquiry>) {
    forall i :: 0 <= i < |inquiries| ==> inquiries[i].status in InquiryStatuses
  }

  /** The four filtered lists split the whole list: every inquiry appears
      under exactly one status. */
  lemma {:induction false} StatusFiltersPartition(inquiries: seq<Inquiry>)
    requires StatusesValid(inquiries)
    ensures |GetAllInquiries(inquiries, Some("New"))| + |GetAllInquiries(inquiries, Some("Contacted"))|
          + |GetAllInquiries(inquiries, Some("Completed"))| + |GetAllInquiries(inquiries, Some("Rejected"))|
         == |GetAllInquiries(inquiries, None)|
  {
    FilterByListedStatus(inquiries, 0);
    FilterByListedStatus(inquiries, 1);
    FilterByListedStatus(inquiries, 2);
    FilterByListedStatus(inquiries, 3);
    PartitionCount(inquiries);
  }

  /** A listed status filters by that status. */
  lemma FilterByListedStatus(inquiries: seq<Inquiry>, k: nat)
    requires k < |InquiryStatuses|
    ensures GetAllInquiries(inquiries, Some(InquiryStatuses[k])) == WithStatus(inquiries, InquiryStatuses[k])
  {
    assert InquiryStatuses[k] != [];
  }

  lemma {:induction false} PartitionCount(inquiries: seq<Inquiry>)
    requires StatusesValid(inquiries)
    ensures |WithStatus(inquiries, "New")| + |WithStatus(inquiries, "Contacted")|
          + |WithStatus(inquiries, "Completed")| + |WithStatus(inquiries, "Rejected")| == |inquiries|
  {
    if |inquiries| > 0 {
      var rest := inquiries[1..];
      assert StatusesValid(rest) by {
        forall i | 0 <= i < |rest| ensures rest[i].status in InquiryStatuses {
          assert rest[i] == inquiries[i + 1];
        }
      }
      PartitionCount(rest);
      assert inquiries[0].status in InquiryStatuses;
    }
  }

  // ---------------------------------------------------------------- updateInquiry

  /** `value || stored`, through the path's setter when the new value is used. */
  function TruthyOr(x: Option<string>, stored: string, setter: string -> string): (r: string)
    ensures Truthy(x) ==> r == setter(x.value)
    ensures !Truthy(x) ==> r == stored
  {
    if Truthy(x) then setter(x.value) else stored
  }

  function TruthyOrOptional(x: Option<string>, stored: Option<string>): (r: Option<string>)
    ensures Truthy(x) ==> r == Some(Trim(x.value))
    ensures !Truthy(x) ==> r == stored
  {
    if Truthy(x) then Some(Trim(x.value)) else stored
  }

  /** The document after the handler's assignments: each truthy field
      (after the aliases) replaces the stored value through its path's
      setter, each falsy one leaves it, and the id never changes. */
  function Merged(q: Inquiry, form: InquiryForm, newImage: Option<string>): (r: Inquiry)
    ensures r.id == q.id
    ensures Truthy(FullNameOf(form)) ==> r.fullName == Trim(FullNameOf(form).value)
    ensures !Truthy(FullNameOf(form)) ==> r.fullName == q.fullName
    ensures Truthy(form.email) ==> r.email == EmailSetter(form.email.value)
    ensures !Truthy(form.email) ==> r.email == q.email
    ensures Truthy(PhoneOf(form)) ==> r.phoneNumber == Some(Trim(PhoneOf(form).value))
    ensures !Truthy(PhoneOf(form)) ==> r.phoneNumber == q.phoneNumber
    ensures Truthy(form.message) ==> r.message == form.message.value
    ensures !Truthy(form.message) ==> r.message == q.message
    ensures Truthy(form.subject) ==> r.subject == Some(Trim(form.subject.value))
    ensures !Truthy(form.subject) ==> r.subject == q.subject
    ensures Truthy(form.size) ==> r.size == Some(Trim(form.size.value))
    ensures !Truthy(form.size) ==> r.size == q.size
    ensures !Truthy(form.status) || form.status.value !in InquiryStatuses ==> r.status == q.status
    ensures Truthy(form.status) && form.status.value in InquiryStatuses ==> r.status == form.status.value
    ensures newImage.Some? ==> r.referenceImage == newImage.value
    ensures newImage.None? ==> r.referenceImage == q.referenceImage
  {
    q.(fullName := TruthyOr(FullNameOf(form), q.fullName, Trim),
       email := TruthyOr(form.email, q.email, EmailSetter),
       phoneNumber := TruthyOrOptional(PhoneOf(form), q.phoneNumber),
       message := TruthyOr(form.message, q.message, s => s),
       subject := TruthyOrOptional(form.subject, q.subject),
       size := TruthyOrOptional(form.size, q.size),
       status := if Truthy(form.status) && form.status.value in InquiryStatuses then form.status.value else q.status,
       referenceImage := if newImage.Some? then newImage.value else q.referenceImage)
  }

  /** What `save()` validates: the three required paths are non-empty and
      the status is one of the enum's. */
  predicate InquiryValid(q: Inquiry) {
    q.fullName != [] && q.email != [] && q.message != [] && q.status in InquiryStatuses
  }

  function InquiryId(q: Inquiry): string { q.id }

  /** Position of the inquiry with a given id (`findById`). */
  function FindInquiry(inquiries: seq<Inquiry>, id: Id): Option<nat> {
    FindFirst(inquiries, InquiryId, id)
  }

  /** `updateInquiry`. A file whose upload returns nothing is a 500. */
  function UpdateInquiry(inquiries: seq<Inquiry>, inquiryId: string, form: InquiryForm, upload: Option<Option<string>>)
    : (r: Result<seq<Inquiry>>)
    ensures !ValidObjectId(inquiryId) ==> r == Fail(400, InvalidId)
    ensures ValidObjectId(inquiryId) && FindInquiry(inquiries, inquiryId).None? ==> r == Fail(404, InquiryNotFound)
    ensures ValidObjectId(inquiryId) && FindInquiry(inquiries, inquiryId).Some? && upload == Some(None)
      ==> r == Fail(500, UploadFailed)
    ensures (ValidObjectId(inquiryId) && FindInquiry(inquiries, inquiryId).Some? && upload != Some(None)) ==>
      var k := FindInquiry(inquiries, inquiryId).value;
      var q := Merged(inquiries[k], form, if upload.Some? then upload.value else None);
      && (r.Ok? <==> InquiryValid(q))
      && (!InquiryValid(q) ==> r == Fail(500, ValidationFailed))
    ensures r.Ok? ==>
      var k := FindInquiry(inquiries, inquiryId).value;
      && upload != Some(None)
      && r.value == inquiries[k := Merged(inquiries[k], form, if upload.Some? then upload.value else None)]
      && InquiryValid(r.value[k])
  {
    if !ValidObjectId(inquiryId) then Fail(400, InvalidId)
    else match FindInquiry(inquiries, inquiryId)
      case None => Fail(404, InquiryNotFound)
      case Some(k) =>
        if upload == Some(None) then Fail(500, UploadFailed)
        else
          var q := Merged(inquiries[k], form, if upload.Some? then upload.value else None);
          if !InquiryValid(q) then Fail(500, ValidationFailed)
          else Ok(inquiries[k := q])
  }

  /** An edit can change a field but never empty it: a falsy value keeps
      what is stored, so every optional field that was set stays set. */
  lemma FieldsCannotBeCleared(q: Inquiry, form: InquiryForm, newImage: Option<string>)
    ensures var r := Merged(q, form, newImage);
      && (q.phoneNumber.Some? ==> r.phoneNumber.Some?)
      && (q.subject.Some? ==> r.subject.Some?)
      && (q.size.Some? ==> r.size.Some?)
      && (!Truthy(form.message) ==> r.message == q.message)
      && (!Truthy(form.fullName) && !Truthy(form.name) ==> r.fullName == q.fullName)
  {
  }

  /** Only the four enum statuses ever get stored, whatever the request says. */
  lemma UpdateKeepsStatusesValid(inquiries: seq<Inquiry>, inquiryId: string, form: InquiryForm, upload: Option<Option<string>>)
    requires StatusesValid(inquiries)
    requires UpdateInquiry(inquiries, inquiryId, form, upload).Ok?
    ensures StatusesValid(UpdateInquiry(inquiries, inquiryId, form, upload).value)
  {
  }

  /** A submitted inquiry already satisfies every validator `save()` runs. */
  lemma {:induction false} SubmittedIsValid(inquiries: seq<Inquiry>, form: InquiryForm, newId: Id, upload: Option<Option<string>>)
    requires SubmitInquiry(inquiries, form, upload, newId).Ok?
    ensures InquiryValid(SubmitInquiry(inquiries, form, upload, newId).value[|inquiries|])
  {
    EmailSetterKeepsContent(form.email.value);
    assert InquiryStatuses[0] == "New";
  }

  lemma FindInquiryAppend(inquiries: seq<Inquiry>, q: Inquiry)
    requires forall j :: 0 <= j < |inquiries| ==> inquiries[j].id != q.id
    ensures FindInquiry(inquiries + [q], q.id) == Some(|inquiries|)
  {
    var all := inquiries + [q];
    assert all[|inquiries|] == q;
    assert forall j :: 0 <= j < |inquiries| ==> all[j] == inquiries[j];
  }

  /** The form with nothing in it. */
  const EmptyForm := InquiryForm(None, None, None, None, None, None, None, None, None, None)

  /** A submitted inquiry is one a later edit with an empty form accepts
      and leaves as it is. */
  lemma {:induction false} EmptyEditKeepsSubmitted(inquiries: seq<Inquiry>, form: InquiryForm, newId: Id, upload: Option<Option<string>>)
    requires SubmitInquiry(inquiries, form, upload, newId).Ok?
    requires ValidObjectId(newId) && forall j :: 0 <= j < |inquiries| ==> inquiries[j].id != newId
    ensures var after := SubmitInquiry(inquiries, form, upload, newId).value;
      UpdateInquiry(after, newId, EmptyForm, None) == Ok(after)
  {
    var after := SubmitInquiry(inquiries, form, upload, newId).value;
    var n := |inquiries|;
    var q := after[n];
    assert after == inquiries + [q];
    FindInquiryAppend(inquiries, q);
    SubmittedIsValid(inquiries, form, newId, upload);
    assert Merged(q, EmptyForm, None) == q;
    assert after[n := q] == after;
  }

  /** Lower-casing and trimming a non-blank address leaves something. */
  lemma EmailSetterKeepsContent(s: string)
    requires !IsBlank(s)
    ensures EmailSetter(s) != []
  {
    var i :| 0 <= i < |s| && !IsSpace(s[i]);
    assert Lower(s)[i] == LowerChar(s[i]);
    assert !IsSpace(LowerChar(s[i]));
  }
}

=== FILE: coupons.dfy ===
/** coupon.controller.js, and the coupon query both checkouts issue.

    Two lookups coexist. Checkout asks for `{ code: code.toUpperCase(),
    status: "active" }`, an exact match on the upper-cased code, while
    `getCouponByCode` matches the whole code ignoring case and only then
    looks at the status. Codes are stored as given, so the two can disagree.
 */
module Coupons {
  import opened Api
  import opened Text
  import opened Model

  // ---------------------------------------------------------------- lookups

  /** The checkout query: the first active coupon whose code is exactly `code`. */
  function FindActive(coupons: seq<Coupon>, code: string): (k: Option<nat>)
    ensures k.Some? ==> k.value < |coupons| && coupons[k.value].code == code && coupons[k.value].status == Active
    ensures k.Some? ==> forall j :: 0 <= j < k.value ==> !(coupons[j].code == code && coupons[j].status == Active)
    ensures k.None? ==> forall j :: 0 <= j < |coupons| ==> !(coupons[j].code == code && coupons[j].status == Active)
  {
    if |coupons| == 0 then None
    else if coupons[0].code == code && coupons[0].status == Active then Some(0)
    else match FindActive(coupons[1..], code)
      case None => None
      case Some(k) => Some(k + 1)
  }

  /** The coupon checkout applies for a requested code, if any. */
  function CheckoutCoupon(coupons: seq<Coupon>, requested: string): (c: Option<Coupon>)
    ensures c.Some? ==> c.value in coupons && c.value.code == Upper(requested) && c.value.status == Active
    ensures c.None? ==> forall j :: 0 <= j < |coupons| ==> !(coupons[j].code == Upper(requested) && coupons[j].status == Active)
  {
    match FindActive(coupons, Upper(requested))
    case None => None
    case Some(k) => Some(coupons[k])
  }

  /** The two paths coupons are looked up by. */
  function CouponCode(c: Coupon): string { c.code }
  function CouponId(c: Coupon): string { c.id }

  /** `findOne({ code })`: the first coupon with exactly this code. */
  function FindExact(coupons: seq<Coupon>, code: string): Option<nat> {
    FindFirst(coupons, CouponCode, code)
  }

  /** `findOne({ code: /^code$/i })`: the first coupon whose code matches ignoring case. */
  function FindIgnoringCase(coupons: seq<Coupon>, code: string): (k: Option<nat>)
    ensures k.Some? ==> k.value < |coupons| && EqualsIgnoreCase(coupons[k.value].code, code)
    ensures k.Some? ==> forall j :: 0 <= j < k.value ==> !EqualsIgnoreCase(coupons[j].code, code)
    ensures k.None? ==> forall j :: 0 <= j < |coupons| ==> !EqualsIgnoreCase(coupons[j].code, code)
  {
    if |coupons| == 0 then None
    else if EqualsIgnoreCase(coupons[0].code, code) then Some(0)
    else match FindIgnoringCase(coupons[1..], code)
      case None => None
      case Some(k) => Some(k + 1)
  }

  // ---------------------------------------------------------------- handlers

  /** `getCouponByCode`: 400 without a code, 404 when nothing matches
      ignoring case, 403 when the first match is inactive. */
  function GetCouponByCode(coupons: seq<Coupon>, code: Option<string>): (r: Result<Coupon>)
    ensures !Truthy(code) ==> r == Fail(400, MissingFields)
    ensures Truthy(code) ==>
      match FindIgnoringCase(coupons, code.value)
      case None => r == Fail(404, CouponNotFound)
      case Some(k) =>
        if coupons[k].status == Active then r == Ok(coupons[k]) else r == Fail(403, CouponInactive)
    ensures r.Ok? ==> r.value in coupons && r.value.status == Active && EqualsIgnoreCase(r.value.code, code.value)
  {
    if !Truthy(code) then Fail(400, MissingFields)
    else match FindIgnoringCase(coupons, code.value)
      case None => Fail(404, CouponNotFound)
      case Some(k) =>
        if coupons[k].status == Active then Ok(coupons[k]) else Fail(403, CouponInactive)
  }

  /** The status a stored coupon gets from a request's `status`: the schema
      default when absent, otherwise one of the enum's two values. */
  function ParseStatus(status: Option<string>): Option<CouponStatus> {
    if status.None? then Some(Active)
    else if status.value == "active" then Some(Active)
    else if status.value == "inactive" then Some(Inactive)
    else None
  }

  datatype CouponRequest = CouponRequest(code: Option<string>, discountPercentage: Option<real>, status: Option<string>)

  /** `createCoupon`: 400 when the code or percentage is falsy (so 0 % is
      refused), 409 when a coupon has exactly this code, 500 when the status
      is outside the enum; otherwise the coupon is appended. */
  function CreateCoupon(coupons: seq<Coupon>, req: CouponRequest, newId: Id): (r: Result<seq<Coupon>>)
    ensures (!Truthy(req.code) || !TruthyNumber(req.discountPercentage)) ==> r == Fail(400, MissingFields)
    ensures Truthy(req.code) && TruthyNumber(req.discountPercentage) && FindExact(coupons, req.code.value).Some?
      ==> r == Fail(409, CouponExists)
    ensures (Truthy(req.code) && TruthyNumber(req.discountPercentage)
      && FindExact(coupons, req.code.value).None? && ParseStatus(req.status).None?)
      ==> r == Fail(500, ValidationFailed)
    ensures r.Ok? <==>
      Truthy(req.code) && TruthyNumber(req.discountPercentage)
      && FindExact(coupons, req.code.value).None? && ParseStatus(req.status).Some?
    ensures r.Ok? ==>
      r.value == coupons + [Coupon(newId, req.code.value, req.discountPercentage.value, ParseStatus(req.status).value)]
  {
    if !Truthy(req.code) || !TruthyNumber(req.discountPercentage) then Fail(400, MissingFields)
    else if FindExact(coupons, req.code.value).Some? then Fail(409, CouponExists)
    else match ParseStatus(req.status)
      case None => Fail(500, ValidationFailed)
      case Some(st) => Ok(coupons + [Coupon(newId, req.code.value, req.discountPercentage.value, st)])
  }

  /** Position of the coupon with a given id (`findById`). */
  function FindCoupon(coupons: seq<Coupon>, id: Id): Option<nat> {
    FindFirst(coupons, CouponId, id)
  }

  /** `updateCoupon` sets only the truthy fields; with none there is nothing to do. */
  predicate SomethingToUpdate(req: CouponRequest) {
    Truthy(req.code) || TruthyNumber(req.discountPercentage) || Truthy(req.status)
  }

  /** `runValidators`: a status that is set must be one of the enum's. */
  predicate StatusAccepted(req: CouponRequest) {
    Truthy(req.status) ==> ParseStatus(req.status).Some?
  }

  /** `updateCoupon`: 400 for a malformed id or when no field is truthy,
      500 when the status fails the enum (the validators run before the
      document is looked up), 404 when the id is unknown. Only truthy
      fields are set; the code is not re-checked for clashes. */
  function UpdateCoupon(coupons: seq<Coupon>, couponId: Id, req: CouponRequest): (r: Result<seq<Coupon>>)
    ensures !ValidObjectId(couponId) ==> r == Fail(400, InvalidId)
    ensures ValidObjectId(couponId) && !SomethingToUpdate(req) ==> r == Fail(400, NothingToUpdate)
    ensures ValidObjectId(couponId) && SomethingToUpdate(req) && !StatusAccepted(req) ==> r == Fail(500, ValidationFailed)
    ensures (ValidObjectId(couponId) && SomethingToUpdate(req) && StatusAccepted(req)
      && FindCoupon(coupons, couponId).None?) ==> r == Fail(404, CouponNotFound)
    ensures r.Ok? <==>
      ValidObjectId(couponId) && SomethingToUpdate(req) && StatusAccepted(req) && FindCoupon(coupons, couponId).Some?
    ensures r.Ok? ==>
      var k := FindCoupon(coupons, couponId).value;
      && |r.value| == |coupons|
      && (forall j :: 0 <= j < |coupons| && j != k ==> r.value[j] == coupons[j])
      && r.value[k].id == couponId
      && r.value[k].code == (if Truthy(req.code) then req.code.value else coupons[k].code)
      && r.value[k].discountPercentage ==
           (if TruthyNumber(req.discountPercentage) then req.discountPercentage.value else coupons[k].discountPercentage)
      && (Truthy(req.status) && req.status.value == "active" ==> r.value[k].status == Active)
      && (Truthy(req.status) && req.status.value == "inactive" ==> r.value[k].status == Inactive)
      && (!Truthy(req.status) ==> r.value[k].status == coupons[k].status)
  {
    if !ValidObjectId(couponId) then Fail(400, InvalidId)
    else if !SomethingToUpdate(req) then Fail(400, NothingToUpdate)
    else if !StatusAccepted(req) then Fail(500, ValidationFailed)
    else match FindCoupon(coupons, couponId)
      case None => Fail(404, CouponNotFound)
      case Some(k) =>
        var c := coupons[k];
        var updated := Coupon(
          c.id,
          if Truthy(req.code) then req.code.value else c.code,
          if TruthyNumber(req.discountPercentage) then req.discountPercentage.value else c.discountPercentage,
          if Truthy(req.status) then ParseStatus(req.status).value else c.status);
        Ok(coupons[k := updated])
  }

  /** Sending the same update again changes nothing more. */
  lemma UpdateCouponIdempotent(coupons: seq<Coupon>, couponId: Id, req: CouponRequest)
    requires UpdateCoupon(coupons, couponId, req).Ok?
    ensures var once := UpdateCoupon(coupons, couponId, req).value;
      UpdateCoupon(once, couponId, req) == Ok(once)
  {
    var k := FindCoupon(coupons, couponId).value;
    var once := UpdateCoupon(coupons, couponId, req).value;
    assert FindCoupon(once, couponId) == Some(k) by {
      assert forall j :: 0 <= j < k ==> once[j] == coupons[j];
    }
    assert once[k := once[k]] == once;
  }

  /** A coupon updated to an upper-case code and the "active" status is the
      one checkout applies for that code, unless an earlier coupon already
      holds the same code and is active: the update never checks for clashes. */
  lemma UpdatedCouponAtCheckout(coupons: seq<Coupon>, couponId: Id, req: CouponRequest)
    requires UpdateCoupon(coupons, couponId, req).Ok?
    requires Truthy(req.code) && Upper(req.code.value) == req.code.value && req.status == Some("active")
    ensures var k := FindCoupon(coupons, couponId).value;
      var after := UpdateCoupon(coupons, couponId, req).value;
      var code := req.code.value;
      && CheckoutCoupon(after, code).Some?
      && ((forall j :: 0 <= j < k ==> !(coupons[j].code == code && coupons[j].status == Active))
          <==> CheckoutCoupon(after, code) == Some(after[k]) && FindActive(after, code) == Some(k))
  {
    var k := FindCoupon(coupons, couponId).value;
    var after := UpdateCoupon(coupons, couponId, req).value;
    var code := req.code.value;
    assert after[k].code == code && after[k].status == Active;
    assert forall j :: 0 <= j < k ==> after[j] == coupons[j];
  }

  /** `getAllCoupons`: a status filter applies only for "active" or "inactive". */
  function ListCoupons(coupons: seq<Coupon>, status: Option<string>): (r: seq<Coupon>)
    ensures status == Some("active") ==> forall c :: multiset(r)[c] == if c.status == Active then multiset(coupons)[c] else 0
    ensures status == Some("inactive") ==> forall c :: multiset(r)[c] == if c.status == Inactive then multiset(coupons)[c] else 0
    ensures status != Some("active") && status != Some("inactive") ==> r == coupons
  {
    if status == Some("active") then OfStatus(coupons, Active)
    else if status == Some("inactive") then OfStatus(coupons, Inactive)
    else coupons
  }

  /** The coupons with status `st`, each as often as it is stored. */
  function OfStatus(coupons: seq<Coupon>, st: CouponStatus): (r: seq<Coupon>)
    ensures forall c :: multiset(r)[c] == if c.status == st then multiset(coupons)[c] else 0
  {
    if |coupons| == 0 then []
    else
      assert coupons == [coupons[0]] + coupons[1..];
      (if coupons[0].status == st then [coupons[0]] else []) + OfStatus(coupons[1..], st)
  }

  /** Filtering two pieces and joining them is filtering the whole, so the
      listed coupons keep their stored order. */
  lemma {:induction false} OfStatusAppend(a: seq<Coupon>, b: seq<Coupon>, st: CouponStatus)
    ensures OfStatus(a + b, st) == OfStatus(a, st) + OfStatus(b, st)
  {
    if |a| == 0 {
      assert a + b == b;
    } else {
      assert (a + b)[1..] == a[1..] + b;
      OfStatusAppend(a[1..], b, st);
    }
  }

  // ---------------------------------------------------------------- the two lookups compared

  /** A coupon stored in lower case is found by `getCouponByCode` but can
      never be applied at checkout, which looks for the upper-cased code. */
  lemma LowerCaseCodeNeverApplies(id: Id)
    ensures var coupons := [Coupon(id, "save10", 10.0, Active)];
      && GetCouponByCode(coupons, Some("save10")) == Ok(coupons[0])
      && CheckoutCoupon(coupons, "save10") == None
  {
    var coupons := [Coupon(id, "save10", 10.0, Active)];
    assert Upper("save10") == "SAVE10";
    assert EqualsIgnoreCase("save10", "save10");
  }

  /** An inactive case variant listed first makes `getCouponByCode` answer
      403 for a code that checkout accepts. */
  lemma InactiveVariantShadowsActive(a: Id, b: Id)
    ensures var coupons := [Coupon(a, "Save10", 10.0, Inactive), Coupon(b, "SAVE10", 10.0, Active)];
      && GetCouponByCode(coupons, Some("save10")) == Fail(403, CouponInactive)
      && CheckoutCoupon(coupons, "save10") == Some(coupons[1])
  {
    var coupons := [Coupon(a, "Save10", 10.0, Inactive), Coupon(b, "SAVE10", 10.0, Active)];
    assert Upper("save10") == "SAVE10";
    assert Upper("Save10") == "SAVE10";
    assert EqualsIgnoreCase("Save10", "save10");
    assert FindActive(coupons, "SAVE10") == Some(1);
  }

  /** Codes stored upper-case, no two alike ignoring case. */
  predicate CanonicalCodes(coupons: seq<Coupon>) {
    && (forall k :: 0 <= k < |coupons| ==> Upper(coupons[k].code) == coupons[k].code)
    && (forall i, j :: 0 <= i < j < |coupons| ==> !EqualsIgnoreCase(coupons[i].code, coupons[j].code))
  }

  /** When every code is stored canonically the two lookups agree: checkout
      applies a (non-empty) code exactly when `getCouponByCode` accepts it, and both
      pick the same coupon. */
  lemma LookupsAgreeOnCanonicalCodes(coupons: seq<Coupon>, x: string)
    requires CanonicalCodes(coupons)
    requires x != ""
    ensures GetCouponByCode(coupons, Some(x)).Ok? <==> CheckoutCoupon(coupons, x).Some?
    ensures GetCouponByCode(coupons, Some(x)).Ok? ==>
      GetCouponByCode(coupons, Some(x)).value == CheckoutCoupon(coupons, x).value
  {
    UpperIdempotent(x);
    match FindIgnoringCase(coupons, x)
    case None =>
      var a := FindActive(coupons, Upper(x));
      if a.Some? {
        assert EqualsIgnoreCase(coupons[a.value].code, x);
      }
    case Some(k) =>
      assert coupons[k].code == Upper(x);
      var a := FindActive(coupons, Upper(x));
      if a.Some? {
        assert EqualsIgnoreCase(coupons[a.value].code, coupons[k].code);
        assert a.value == k;
      }
  }

  /** A newly created active coupon is applied at checkout for its own code
      exactly when that code is already upper case; otherwise checkout never
      returns a coupon with that code. */
  lemma CreatedCouponAtCheckout(coupons: seq<Coupon>, req: CouponRequest, newId: Id)
    requires CreateCoupon(coupons, req, newId).Ok?
    requires req.status.None? || req.status == Some("active")
    ensures var after := CreateCoupon(coupons, req, newId).value;
      var code := req.code.value;
      && (Upper(code) == code ==> CheckoutCoupon(after, code) == Some(after[|coupons|]))
      && (Upper(code) != code ==> forall x :: CheckoutCoupon(after, x).Some? ==> CheckoutCoupon(after, x).value.code != code)
  {
    var after := CreateCoupon(coupons, req, newId).value;
    var code := req.code.value;
    if Upper(code) == code {
      var a := FindActive(after, code);
      assert after[|coupons|].code == code && after[|coupons|].status == Active;
      assert a.Some?;
      assert forall j :: 0 <= j < |coupons| ==> after[j].code != code;
      assert a.value == |coupons|;
    } else {
      forall x | CheckoutCoupon(after, x).Some?
        ensures CheckoutCoupon(after, x).value.code != code
      {
        UpperIdempotent(x);
      }
    }
  }
}

=== FILE: ledger.dfy ===
/** Stock bookkeeping: the `Product.bulkWrite` of `$inc` updates that
    checkout (decrement) and cancellation (restore) issue, one per order line.

    The increment is unconditional: no write re-checks `stock >= quantity`,
    and an update whose product no longer exists matches nothing.
 */
module Ledger {
  import opened Api
  import opened Model

  /** Total quantity the lines ask for of product `id`. */
  function QtyOf(items: seq<OrderItem>, id: Id): int {
    if |items| == 0 then 0
    else (if items[0].product == id then items[0].quantity else 0) + QtyOf(items[1..], id)
  }

  /** `updateOne({ _id: id }, { $inc: { stock: delta } })`. */
  function Inc(products: map<Id, Product>, id: Id, delta: int): (after: map<Id, Product>)
    ensures after.Keys == products.Keys
    ensures id in products ==> after[id] == products[id].(stock := products[id].stock + delta)
    ensures forall other :: other in products && other != id ==> after[other] == products[other]
  {
    if id in products then products[id := products[id].(stock := products[id].stock + delta)]
    else products
  }

  /** Checkout's bulk write: every line's product loses the line's quantity. */
  function Decrement(products: map<Id, Product>, items: seq<OrderItem>): (after: map<Id, Product>)
    ensures after.Keys == products.Keys
    ensures forall id :: id in products ==>
      after[id] == products[id].(stock := products[id].stock - QtyOf(items, id))
  {
    if |items| == 0 then products
    else Decrement(Inc(products, items[0].product, -items[0].quantity), items[1..])
  }

  /** Cancellation's bulk write: every line's product gets the quantity back. */
  function Restore(products: map<Id, Product>, items: seq<OrderItem>): (after: map<Id, Product>)
    ensures after.Keys == products.Keys
    ensures forall id :: id in products ==>
      after[id] == products[id].(stock := products[id].stock + QtyOf(items, id))
  {
    if |items| == 0 then products
    else Restore(Inc(products, items[0].product, items[0].quantity), items[1..])
  }

  /** Restoring what was decremented gives back the very same products. */
  lemma RestoreUndoesDecrement(products: map<Id, Product>, items: seq<OrderItem>)
    ensures Restore(Decrement(products, items), items) == products
  {
    var after := Restore(Decrement(products, items), items);
    assert forall id :: id in products ==> after[id] == products[id];
  }

  predicate DistinctProducts(items: seq<OrderItem>) {
    forall i, j :: 0 <= i < j < |items| ==> items[i].product != items[j].product
  }

  /** With one line per product, a product's total is its line's quantity. */
  lemma {:induction false} QtyOfDistinct(items: seq<OrderItem>, id: Id)
    requires DistinctProducts(items)
    ensures (forall k :: 0 <= k < |items| ==> items[k].product != id) ==> QtyOf(items, id) == 0
    ensures forall k :: 0 <= k < |items| && items[k].product == id ==> QtyOf(items, id) == items[k].quantity
  {
    if |items| > 0 {
      QtyOfDistinct(items[1..], id);
      forall k | 0 <= k < |items| && items[k].product == id
        ensures QtyOf(items, id) == items[k].quantity
      {
        if k > 0 {
          assert items[1..][k - 1] == items[k];
        }
      }
    }
  }

  /** When every line fits the stock read at the start and no product
      appears on two lines, the decrement leaves no stock negative. */
  lemma DecrementKeepsStockNonNegative(products: map<Id, Product>, items: seq<OrderItem>)
    requires DistinctProducts(items)
    requires forall k :: 0 <= k < |items| && items[k].product in products ==>
      products[items[k].product].stock >= items[k].quantity
    requires forall id :: id in products ==> products[id].stock >= 0
    ensures forall id :: id in products ==> Decrement(products, items)[id].stock >= 0
  {
    forall id | id in products
      ensures Decrement(products, items)[id].stock >= 0
    {
      QtyOfDistinct(items, id);
    }
  }

  /** The per-line check does not protect a product that appears on two
      lines: each line passes against the same stock, and the two
      unconditional decrements take the stock below zero. */
  lemma DuplicateLinesOversell(p: Product)
    requires p.stock == 1
    ensures var items := [OrderItem("a", p.name, 1, p.price, None), OrderItem("a", p.name, 1, p.price, None)];
      && (forall k :: 0 <= k < |items| ==> p.stock >= items[k].quantity)
      && Decrement(map["a" := p], items)["a"].stock == -1
  {
    var items := [OrderItem("a", p.name, 1, p.price, None), OrderItem("a", p.name, 1, p.price, None)];
    assert items[1..][1..] == [];
    assert QtyOf(items[1..], "a") == 1;
    assert QtyOf(items, "a") == 2;
  }
}

=== FILE: listing.dfy ===
/** Paginated product listings: `getAllProducts` (admin.controller.js) and
    `getProductsByCategory` (user.controller.js).

    The query a listing runs (search regexes, filters, newest first) is
    MongoDB's business; the model starts from the matching products in the
    order the query returns them and does the paging arithmetic.
 */
module Listing {
  import opened Api
  import opened Model

  /** `Math.ceil(n / d)` for a positive divisor. */
  function CeilDiv(n: nat, d: int): (q: nat)
    requires d >= 1
    ensures q * d >= n
    ensures q == 0 || (q - 1) * d < n
  {
    (n + d - 1) / d
  }

  function Min(a: int, b: int): int {
    if a <= b then a else b
  }

  /** The number of matches before page `page`: `(page - 1) * limit`. */
  function Skip(page: int, limit: int): (n: nat)
    requires page >= 1 && limit >= 1
    ensures n == (page - 1) * limit
  {
    NonNegativeProduct(page - 1, limit);
    (page - 1) * limit
  }

  lemma NonNegativeProduct(a: int, b: int)
    requires a >= 0 && b >= 0
    ensures a * b >= 0
  {
  }

  /** `.skip(skip).limit(limit)` over the matches. */
  function PageSlice<T>(matches: seq<T>, page: int, limit: int): (r: seq<T>)
    requires page >= 1 && limit >= 1
    ensures var skip := Skip(page, limit);
      && |r| == (if skip >= |matches| then 0 else Min(limit, |matches| - skip))
      && forall i :: 0 <= i < |r| ==> r[i] == matches[skip + i]
  {
    var skip := Skip(page, limit);
    if skip >= |matches| then [] else matches[skip..Min(skip + limit, |matches|)]
  }

  datatype PageResult<T> = PageResult(items: seq<T>, currentPage: int, totalPages: nat, total: nat)

  /** `getAllProducts`: a page that comes out empty while something matches
      is a 404; otherwise the page, its number and the page count. */
  function GetAllProducts(matches: seq<Product>, page: int, limit: int): (r: Result<PageResult<Product>>)
    requires page >= 1 && limit >= 1
    ensures r.Err? <==> |matches| > 0 && Skip(page, limit) >= |matches|
    ensures r.Err? ==> r.error == ApiError(404, PageEmpty)
    ensures r.Ok? ==>
      && r.value.items == PageSlice(matches, page, limit)
      && r.value.currentPage == page
      && r.value.total == |matches|
      && r.value.totalPages == CeilDiv(|matches|, limit)
  {
    var items := PageSlice(matches, page, limit);
    if |items| == 0 && |matches| > 0 then Fail(404, PageEmpty)
    else Ok(PageResult(items, page, CeilDiv(|matches|, limit), |matches|))
  }

  /** Every page from 1 to the page count is served and non-empty; every
      page after it is a 404 (when anything matches at all). */
  lemma PagesWithinCountAreServed(matches: seq<Product>, page: int, limit: int)
    requires page >= 1 && limit >= 1
    ensures page <= CeilDiv(|matches|, limit) ==>
      GetAllProducts(matches, page, limit).Ok? && |GetAllProducts(matches, page, limit).value.items| > 0
    ensures page > CeilDiv(|matches|, limit) && |matches| > 0 ==>
      GetAllProducts(matches, page, limit) == Fail(404, PageEmpty)
  {
    var tp := CeilDiv(|matches|, limit);
    if page <= tp {
      assert (page - 1) * limit <= (tp - 1) * limit;
    } else {
      assert (page - 1) * limit >= tp * limit;
    }
  }

  /** The first `k` pages, one after the other. */
  function FirstPages<T>(matches: seq<T>, limit: int, k: nat): seq<T>
    requires limit >= 1
  {
    if k == 0 then [] else FirstPages(matches, limit, k - 1) + PageSlice(matches, k, limit)
  }

  /** Reading the pages in order yields every match once, in order. */
  lemma {:induction false} FirstPagesArePrefix<T>(matches: seq<T>, limit: int, k: nat)
    requires limit >= 1
    ensures FirstPages(matches, limit, k) == matches[..Min(k * limit, |matches|)]
  {
    if k > 0 {
      FirstPagesArePrefix(matches, limit, k - 1);
      var a := Min((k - 1) * limit, |matches|);
      var b := Min(k * limit, |matches|);
      assert matches[..b] == matches[..a] + matches[a..b];
      var page := PageSlice(matches, k, limit);
      if (k - 1) * limit < |matches| {
        assert page == matches[a..b];
      }
    }
  }

  lemma PagesCoverAllMatches<T>(matches: seq<T>, limit: int)
    requires limit >= 1
    ensures FirstPages(matches, limit, CeilDiv(|matches|, limit)) == matches
  {
    FirstPagesArePrefix(matches, limit, CeilDiv(|matches|, limit));
  }

  /** The products whose category is exactly `category`. */
  function InCategory(products: seq<Product>, category: string): (r: seq<Product>)
    ensures forall p :: p in r <==> p in products && p.category == Some(category)
    ensures |r| <= |products|
  {
    if |products| == 0 then []
    else (if products[0].category == Some(category) then [products[0]] else []) + InCategory(products[1..], category)
  }

  /** Each product in the category is kept as often as it is stored, and
      no other product is kept. */
  lemma {:induction false} InCategoryMultiset(products: seq<Product>, category: string)
    ensures forall p :: (multiset(InCategory(products, category))[p]
                         == if p.category == Some(category) then multiset(products)[p] else 0)
  {
    if |products| > 0 {
      InCategoryMultiset(products[1..], category);
      assert products == [products[0]] + products[1..];
    }
  }

  /** Filtering two pieces and joining them is filtering the whole, so the
      filtered list keeps the stored order. */
  lemma {:induction false} InCategoryAppend(a: seq<Product>, b: seq<Product>, category: string)
    ensures InCategory(a + b, category) == InCategory(a, category) + InCategory(b, category)
  {
    if |a| == 0 {
      assert a + b == b;
    } else {
      assert (a + b)[1..] == a[1..] + b;
      InCategoryAppend(a[1..], b, category);
    }
  }

  /** `getProductsByCategory`: only the four storefront categories are
      accepted (400 otherwise); an empty page is not an error here. */
  function GetProductsByCategory(products: seq<Product>, category: string, page: int, limit: int): (r: Result<PageResult<Product>>)
    requires page >= 1 && limit >= 1
    ensures r.Ok? <==> category in Categories
    ensures r.Err? ==> r.error == ApiError(400, InvalidCategory)
    ensures r.Ok? ==>
      && r.value.items == PageSlice(InCategory(products, category), page, limit)
      && r.value.total == |InCategory(products, category)|
      && r.value.totalPages == CeilDiv(r.value.total, limit)
      && forall p :: p in r.value.items ==> p.category == Some(category)
  {
    if category !in Categories then Fail(400, InvalidCategory)
    else
      var matches := InCategory(products, category);
      var items := PageSlice(matches, page, limit);
      assert forall p :: p in items ==> p in matches;
      Ok(PageResult(items, page, CeilDiv(|matches|, limit), |matches|))
  }
}

=== FILE: model.dfy ===
/** The documents the handlers read and write, and the database as one value.

    Mongoose schemas shape these types; a field the schema leaves optional is
    an `Option`. Products and orders are keyed by id; users and coupons are
    kept in insertion order, because the handlers look them up with
    `findOne`, which returns the first matching document.
 */
module Model {
  import opened Api

  type Id = string

  // ---------------------------------------------------------------- catalogue

  /** `adminPackagingDimension`: each component may be absent. */
  datatype Dimension = Dimension(length: Option<real>, breadth: Option<real>, height: Option<real>)

  /** A stored product. The handler also writes a `mainImage`, but the
      schema has no such path, so it is never stored; array paths without
      an explicit default start out empty, and `rating`, `reviews`,
      `features` and `firmness` have defaults, so they are never absent. */
  datatype Product = Product(
    name: string,
    slug: string,
    description: string,
    images: seq<string>,
    stock: int,              // no `min` in the schema: may become negative
    originalPrice: real,
    price: real,             // the selling price used at checkout
    kind: string,            // the schema's `type`
    category: Option<string>,
    gender: Option<string>,
    tags: seq<string>,
    color: seq<string>,
    material: Option<string>,
    packagingWeight: Option<real>,
    packaging: Dimension,
    dimensions: Option<string>,
    stones: seq<string>,
    jewelleryCategory: Option<string>,
    materialType: Option<string>,
    size: Option<seq<string>>,   // `default: undefined`: absent unless set
    rating: real,
    reviews: int,
    badge: Option<string>,
    features: seq<string>,
    firmness: seq<string>)

  /** The storefront categories of the `category` enum. */
  const Categories: seq<string> := ["Mattresses", "Pillows", "Protectors", "Accessories"]

  /** What the product schema's validators accept: the category enum,
      `rating` within [0, 5] and a non-negative `reviews` count. */
  predicate ProductSchemaValid(p: Product) {
    && (p.category.Some? ==> p.category.value in Categories)
    && 0.0 <= p.rating <= 5.0
    && p.reviews >= 0
  }

  // ---------------------------------------------------------------- users

  datatype AddressDetails = AddressDetails(
    fullName: string, phone: string, kind: string, street: string,
    city: string, state: string, postalCode: string, country: string)

  datatype Address = Address(id: Id, details: AddressDetails, isDefault: bool)

  datatype CartLine = CartLine(id: Id, product: Id, quantity: int)

  function LineProduct(line: CartLine): string { line.product }

  /** Total quantity the cart asks for of product `id`. */
  function CartQty(cart: seq<CartLine>, id: Id): int {
    if |cart| == 0 then 0
    else (if cart[0].product == id then cart[0].quantity else 0) + CartQty(cart[1..], id)
  }

  datatype User = User(
    id: Id,
    fullName: string,
    email: string,
    password: string,
    role: string,
    gender: Option<string>,
    status: Option<string>,
    isVerified: bool,
    otp: Option<string>,
    otpExpiry: Option<int>,
    resetToken: Option<string>,      // `forgotPasswordToken`, stored hashed
    resetExpiry: Option<int>,        // `forgotPasswordExpiry`
    addresses: seq<Address>,
    cart: seq<CartLine>,
    wishlist: seq<Id>)

  /** The two paths users are looked up by. */
  function UserId(u: User): string { u.id }
  function UserEmail(u: User): string { u.email }

  /** Position of the first user with the given id (`findById`). */
  function FindUser(users: seq<User>, id: Id): Option<nat> {
    FindFirst(users, UserId, id)
  }

  /** Position of the first user with the given e-mail (`findOne({ email })`). */
  function FindByEmail(users: seq<User>, email: string): Option<nat> {
    FindFirst(users, UserEmail, email)
  }

  /** No two accounts share an e-mail: `registerUser` reuses the account it finds. */
  predicate EmailsUnique(users: seq<User>) {
    forall i, j :: 0 <= i < j < |users| ==> users[i].email != users[j].email
  }

  function AddressId(a: Address): string { a.id }

  /** `user.addresses.id(addressId)`: the first address with that id. */
  function FindAddress(addresses: seq<Address>, id: Id): (a: Option<Address>)
    ensures a.Some? ==> a.value in addresses && a.value.id == id
    ensures a.None? ==> forall j :: 0 <= j < |addresses| ==> addresses[j].id != id
  {
    match FindFirst(addresses, AddressId, id)
    case None => None
    case Some(i) => Some(addresses[i])
  }

  // ---------------------------------------------------------------- coupons

  datatype CouponStatus = Active | Inactive

  datatype Coupon = Coupon(id: Id, code: string, discountPercentage: real, status: CouponStatus)

  // ---------------------------------------------------------------- orders

  datatype PaymentMethod = COD | Razorpay

  /** A line of an order: a snapshot of the product taken at checkout. */
  datatype OrderItem = OrderItem(product: Id, name: string, quantity: int, price: real, image: Option<string>)

  /** The shipping address copied into the order; `id` is dropped on the
      gateway path. */
  datatype ShippingAddress = ShippingAddress(id: Option<Id>, details: AddressDetails, isDefault: bool)

  datatype Cancellation = Cancellation(cancelledBy: string, reason: string, date: int)

  datatype RefundDetails = RefundDetails(refundId: string, amount: real, status: string, date: int)

  datatype Order = Order(
    user: Id,
    items: seq<OrderItem>,
    shippingAddress: ShippingAddress,
    itemsPrice: real,
    shippingPrice: real,
    taxPrice: real,
    discountAmount: real,
    couponCode: Option<string>,
    totalPrice: real,
    paymentMethod: PaymentMethod,
    paymentId: Option<string>,
    razorpayOrderId: Option<string>,
    status: string,
    cancellation: Option<Cancellation>,
    refund: Option<RefundDetails>)

  /** The five statuses the admin endpoint accepts. */
  const OrderStatuses: seq<string> := ["Pending", "Processing", "Shipped", "Delivered", "Cancelled"]

  // ---------------------------------------------------------------- database

  datatype Store = Store(
    products: map<Id, Product>,
    users: seq<User>,
    coupons: seq<Coupon>,
    orders: map<Id, Order>)

  /** `mongoose.Types.ObjectId.isValid`: a 12-character string or 24
      hexadecimal digits. */
  predicate IsHexDigit(c: char) {
    '0' <= c <= '9' || 'a' <= c <= 'f' || 'A' <= c <= 'F'
  }

  predicate ValidObjectId(s: string) {
    |s| == 12 || (|s| == 24 && forall i :: 0 <= i < |s| ==> IsHexDigit(s[i]))
  }
}

=== FILE: orders.dfy ===
/** `updateOrderStatus` (admin.controller.js): the only way, besides
    checkout and cancellation, that an order changes. It writes the status
    field alone, from any status to any of the five listed ones, and
    touches no stock.
 */
module Orders {
  import opened Api
  import opened Model
  import opened Ledger
  import opened Payment

  function UpdateOrderStatus(s: Store, orderId: string, status: Option<string>): (r: Result<(Store, Order)>)
    ensures !ValidObjectId(orderId) ==> r == Fail(400, InvalidId)
    ensures ValidObjectId(orderId) && !(Truthy(status) && status.value in OrderStatuses) ==> r == Fail(400, InvalidStatus)
    ensures (ValidObjectId(orderId) && Truthy(status) && status.value in OrderStatuses && orderId !in s.orders)
      ==> r == Fail(404, OrderNotFound)
    ensures r.Ok? <==> ValidObjectId(orderId) && Truthy(status) && status.value in OrderStatuses && orderId in s.orders
    ensures r.Ok? ==>
      && r.value.1 == s.orders[orderId].(status := status.value)
      && r.value.0 == s.(orders := s.orders[orderId := r.value.1])
  {
    if !ValidObjectId(orderId) then Fail(400, InvalidId)
    else if !(Truthy(status) && status.value in OrderStatuses) then Fail(400, InvalidStatus)
    else if orderId !in s.orders then Fail(404, OrderNotFound)
    else
      var o := s.orders[orderId].(status := status.value);
      Ok((s.(orders := s.orders[orderId := o]), o))
  }

  /** "Completed", the status the dashboard and the sales overview sum
      over, is not one the endpoint accepts. */
  lemma CompletedCannotBeSet(s: Store, orderId: string)
    ensures UpdateOrderStatus(s, orderId, Some("Completed")).Err?
  {
  }

  /** Nothing stops an admin from moving a cancelled order back to
      "Processing"; cancelling it again then puts its lines back into stock
      a second time. */
  lemma ReopenedOrderRestoresTwice(s: Store, caller: Caller, orderId: string, reason: Option<string>,
                                   refund: (string, int) -> RefundReply, now: int, later: int)
    requires Cancellable(s, caller, orderId) && !Truthy(s.orders[orderId].paymentId)
    ensures var s1 := CancelOrder(s, caller, orderId, reason, refund, now).value.0;
      var s2 := UpdateOrderStatus(s1, orderId, Some("Processing")).value.0;
      var s3 := CancelOrder(s2, caller, orderId, reason, refund, later).value.0;
      var items := s.orders[orderId].items;
      && s3.products.Keys == s.products.Keys
      && forall id :: id in s.products ==> s3.products[id].stock == s.products[id].stock + 2 * QtyOf(items, id)
  {
    var items := s.orders[orderId].items;
    CancelUnpaidRestores(s, caller, orderId, reason, refund, now);
    var s1 := CancelOrder(s, caller, orderId, reason, refund, now).value.0;
    assert "Processing" in OrderStatuses;
    var s2 := UpdateOrderStatus(s1, orderId, Some("Processing")).value.0;
    assert s2.orders[orderId].status == "Processing" && "Processing" !in Terminal;
    assert s2.orders[orderId].items == items && s2.orders[orderId].paymentId == s.orders[orderId].paymentId;
    assert s2.orders[orderId].user == s.orders[orderId].user;
    CancelUnpaidRestores(s2, caller, orderId, reason, refund, later);
  }
}

=== FILE: payment.dfy ===
/** The gateway checkout and the order cancellation of payment.controller.js.

    The payment provider is an oracle passed in as a function: order
    creation answers with the provider's order id or nothing, a refund
    answers with a receipt or an error description. The HMAC-SHA256 of the
    signature check is likewise a function of the signed text, with the
    shared secret already applied.
 */
module Payment {
  import opened Api
  import opened Text
  import opened Model
  import opened Ledger
  import opened Pricing
  import opened Checkout

  // ---------------------------------------------------------------- createRazorpayOrder

  datatype GatewayRequest = GatewayRequest(addressId: Option<string>, amount: Option<real>, couponCode: Option<string>)

  /** What the client receives: the provider's order, the amount in paise
      and the address to use at verification. */
  datatype ProviderOrder = ProviderOrder(orderId: string, amount: int, addressId: Id)

  /** `createRazorpayOrder`. The server re-prices the cart exactly as the
      checkout will and refuses a client total more than 1 away from its
      own. Nothing is written. `createOrder` is the provider, called with
      the amount in paise. */
  function CreateRazorpayOrder(s: Store, userId: Id, req: GatewayRequest, createOrder: int -> Option<string>): (r: Result<ProviderOrder>)
    ensures !Truthy(req.addressId) || !TruthyNumber(req.amount) ==> r == Fail(400, MissingFields)
    ensures Truthy(req.addressId) && TruthyNumber(req.amount) && FindUser(s.users, userId).None? ==> r == Fail(400, EmptyCart)
    ensures Truthy(req.addressId) && TruthyNumber(req.amount) && FindUser(s.users, userId).Some? ==>
      var u := FindUser(s.users, userId).value;
      var p := Prepare(Gateway, s, u, req.addressId.value, req.couponCode);
      && (p.Err? ==> r == Err(p.error))
      && (p.Ok? && !WithinTolerance(req.amount.value, p.value.quote.totalPrice) ==> r == Fail(400, PriceMismatch))
      && (p.Ok? && WithinTolerance(req.amount.value, p.value.quote.totalPrice) ==>
            var paise := ToPaise(p.value.quote.totalPrice);
            && (createOrder(paise).None? ==> r == Fail(500, ProviderFailed))
            && (createOrder(paise).Some? ==> r == Ok(ProviderOrder(createOrder(paise).value, paise, req.addressId.value))))
    ensures r.Ok? ==>
      var u := FindUser(s.users, userId).value;
      && CartAccepted(Gateway, s, u, req.addressId.value, req.couponCode)
      && WithinTolerance(req.amount.value, Prepare(Gateway, s, u, req.addressId.value, req.couponCode).value.quote.totalPrice)
  {
    if !Truthy(req.addressId) || !TruthyNumber(req.amount) then Fail(400, MissingFields)
    else match FindUser(s.users, userId)
      case None => Fail(400, EmptyCart)
      case Some(u) =>
        var p :- Prepare(Gateway, s, u, req.addressId.value, req.couponCode);
        if !WithinTolerance(req.amount.value, p.quote.totalPrice) then Fail(400, PriceMismatch)
        else
          var paise := ToPaise(p.quote.totalPrice);
          match createOrder(paise)
          case None => Fail(500, ProviderFailed)
          case Some(id) => Ok(ProviderOrder(id, paise, req.addressId.value))
  }

  /** The amount handed to the provider is within half a paisa of the
      server's total, and that total is within 1 of what the client showed. */
  lemma ProviderAmountMatchesTotal(s: Store, userId: Id, req: GatewayRequest, createOrder: int -> Option<string>)
    requires CreateRazorpayOrder(s, userId, req, createOrder).Ok?
    ensures var u := FindUser(s.users, userId).value;
      var total := Prepare(Gateway, s, u, req.addressId.value, req.couponCode).value.quote.totalPrice;
      var amount := CreateRazorpayOrder(s, userId, req, createOrder).value.amount;
      && amount as real - 0.5 <= total * 100.0 < amount as real + 0.5
      && -1.0 <= req.amount.value - total <= 1.0
  {
  }

  // ---------------------------------------------------------------- verifyPaymentAndPlaceOrder

  datatype VerifyRequest = VerifyRequest(
    providerOrderId: Option<string>,
    paymentId: Option<string>,
    signature: Option<string>,
    addressId: Option<string>,
    couponCode: Option<string>)

  /** The text the provider signs: `order_id|payment_id`. */
  function SignedText(providerOrderId: string, paymentId: string): (t: string)
    ensures |t| == |providerOrderId| + 1 + |paymentId|
    ensures t[..|providerOrderId|] == providerOrderId && t[|providerOrderId|] == '|'
    ensures t[|providerOrderId| + 1..] == paymentId
  {
    providerOrderId + "|" + paymentId
  }

  /** The four fields must be truthy and the signature must equal the hex
      HMAC of the signed text; both are decided before the store is read. */
  predicate Authentic(req: VerifyRequest, hmac: string -> string) {
    && Truthy(req.providerOrderId) && Truthy(req.paymentId) && Truthy(req.signature) && Truthy(req.addressId)
    && req.signature.value == hmac(SignedText(req.providerOrderId.value, req.paymentId.value))
  }

  /** `verifyPaymentAndPlaceOrder`: the signature gate, then the same cart
      gate and pricing as cash on delivery inside one transaction. The order
      records the payment and provider order ids, method Razorpay, and drops
      the address id from its shipping address. */
  function VerifyPaymentAndPlaceOrder(s: Store, userId: Id, req: VerifyRequest, hmac: string -> string, orderId: Id): (r: Result<(Store, Order)>)
    requires orderId !in s.orders
    ensures !(Truthy(req.providerOrderId) && Truthy(req.paymentId) && Truthy(req.signature) && Truthy(req.addressId))
      ==> r == Fail(400, MissingFields)
    ensures (Truthy(req.providerOrderId) && Truthy(req.paymentId) && Truthy(req.signature) && Truthy(req.addressId)
      && !Authentic(req, hmac)) ==> r == Fail(400, InvalidSignature)
    ensures Authentic(req, hmac) && FindUser(s.users, userId).None? ==> r == Fail(404, UserNotFound)
    ensures (Authentic(req, hmac) && FindUser(s.users, userId).Some?
      && Prepare(Gateway, s, FindUser(s.users, userId).value, req.addressId.value, req.couponCode).Err?)
      ==> r == Err(Prepare(Gateway, s, FindUser(s.users, userId).value, req.addressId.value, req.couponCode).error)
    ensures r.Ok? <==>
      && Authentic(req, hmac)
      && FindUser(s.users, userId).Some?
      && CartAccepted(Gateway, s, FindUser(s.users, userId).value, req.addressId.value, req.couponCode)
    ensures r.Ok? ==>
      var u := FindUser(s.users, userId).value;
      var s', order := r.value.0, r.value.1;
      && Committed(s, s', u, orderId, order)
      && Snapshots(Gateway, order.items, s.users[u].cart, s.products)
      && PricedBy(QuoteOf(order), order.items, s.coupons, req.couponCode)
      && order.user == userId
      && order.shippingAddress.id.None?
      && order.paymentMethod == Razorpay && order.status == "Processing" && order.taxPrice == 0.0
      && order.paymentId == req.paymentId && order.razorpayOrderId == req.providerOrderId
      && order.cancellation.None? && order.refund.None?
  {
    if !(Truthy(req.providerOrderId) && Truthy(req.paymentId) && Truthy(req.signature) && Truthy(req.addressId)) then
      Fail(400, MissingFields)
    else if !Authentic(req, hmac) then Fail(400, InvalidSignature)
    else match FindUser(s.users, userId)
      case None => Fail(404, UserNotFound)
      case Some(u) =>
        var p :- Prepare(Gateway, s, u, req.addressId.value, req.couponCode);
        var order := BuildOrder(userId, p, false, Razorpay, req.paymentId, req.providerOrderId);
        CommitTakesCart(Gateway, s, u, orderId, order);
        Ok((Commit(s, u, orderId, order), order))
  }

  // ---------------------------------------------------------------- refunds

  datatype RefundReceipt = RefundReceipt(id: string, amount: int, status: string)

  /** The provider's answer to a refund request; a rejection carries the
      error description, when the error has one. */
  datatype RefundReply = Refunded(receipt: RefundReceipt) | Rejected(description: Option<string>)

  const AlreadyRefundedText: string := "already been fully refunded"

  /** `initiateRazorpayRefund`: a rejection saying the payment was already
      fully refunded is treated as a processed refund of the requested
      amount; any other rejection is an error. */
  function InitiateRefund(reply: RefundReply, amountInPaise: int): (r: Result<RefundReceipt>)
    ensures reply.Refunded? ==> r == Ok(reply.receipt)
    ensures reply.Rejected? ==>
      (r.Ok? <==> reply.description.Some? && Contains(reply.description.value, AlreadyRefundedText))
    ensures reply.Rejected? && r.Ok? ==> r.value == RefundReceipt("already_refunded", amountInPaise, "processed")
    ensures r.Err? ==> r.error == ApiError(500, RefundFailed)
  {
    match reply
    case Refunded(receipt) => Ok(receipt)
    case Rejected(description) =>
      if description.Some? && Contains(description.value, AlreadyRefundedText) then
        Ok(RefundReceipt("already_refunded", amountInPaise, "processed"))
      else Fail(500, RefundFailed)
  }

  // ---------------------------------------------------------------- cancelOrder

  /** The authenticated caller: `req.user`. */
  datatype Caller = Caller(id: Id, role: string)

  predicate IsAdmin(caller: Caller) {
    caller.role == "admin"
  }

  /** The statuses from which an order can no longer be cancelled. */
  const Terminal: seq<string> := ["Shipped", "Delivered", "Cancelled"]

  const DefaultCancelReason: string := "Cancelled by request"

  /** The checks `cancelOrder` makes before touching anything, in order. */
  predicate Cancellable(s: Store, caller: Caller, orderId: string) {
    && ValidObjectId(orderId)
    && orderId in s.orders
    && (s.orders[orderId].user == caller.id || IsAdmin(caller))
    && s.orders[orderId].status !in Terminal
  }

  /** `cancelOrder`. A paid order (truthy payment id) is refunded in full
      through `refund`, called with the payment id and the total in paise;
      then every line's quantity returns to stock and the order is marked
      cancelled, by "Admin" when the caller is an admin and "User"
      otherwise, with the given reason or a default. `now` is the clock. */
  function CancelOrder(s: Store, caller: Caller, orderId: string, reason: Option<string>,
                       refund: (string, int) -> RefundReply, now: int): (r: Result<(Store, Order)>)
    ensures !ValidObjectId(orderId) ==> r == Fail(400, InvalidId)
    ensures ValidObjectId(orderId) && orderId !in s.orders ==> r == Fail(404, OrderNotFound)
    ensures (ValidObjectId(orderId) && orderId in s.orders
      && s.orders[orderId].user != caller.id && !IsAdmin(caller)) ==> r == Fail(403, NotAuthorized)
    ensures (ValidObjectId(orderId) && orderId in s.orders
      && (s.orders[orderId].user == caller.id || IsAdmin(caller))
      && s.orders[orderId].status in Terminal) ==> r == Fail(400, NotCancellable)
    ensures r.Ok? <==>
      && Cancellable(s, caller, orderId)
      && (Truthy(s.orders[orderId].paymentId) ==>
            var paise := ToPaise(s.orders[orderId].totalPrice);
            InitiateRefund(refund(s.orders[orderId].paymentId.value, paise), paise).Ok?)
    ensures r.Ok? ==>
      var o := s.orders[orderId];
      var s', cancelled := r.value.0, r.value.1;
      && s'.orders == s.orders[orderId := cancelled]
      && s'.users == s.users && s'.coupons == s.coupons
      && s'.products == Restore(s.products, o.items)
      && cancelled.status == "Cancelled"
      && cancelled.cancellation.Some?
      && (cancelled.cancellation.value.cancelledBy == "Admin" <==> IsAdmin(caller))
      && (cancelled.cancellation.value.cancelledBy == "User" <==> !IsAdmin(caller))
      && Some(cancelled.cancellation.value.reason) == Or(reason, Some(DefaultCancelReason))
      && (Truthy(o.paymentId) ==>
            var paise := ToPaise(o.totalPrice);
            var receipt := InitiateRefund(refund(o.paymentId.value, paise), paise).value;
            cancelled.refund == Some(RefundDetails(receipt.id, receipt.amount as real / 100.0, receipt.status, now)))
      && (!Truthy(o.paymentId) ==> cancelled.refund == o.refund)
      && cancelled == o.(status := cancelled.status, cancellation := cancelled.cancellation, refund := cancelled.refund)
  {
    if !ValidObjectId(orderId) then Fail(400, InvalidId)
    else if orderId !in s.orders then Fail(404, OrderNotFound)
    else
      var o := s.orders[orderId];
      if o.user != caller.id && !IsAdmin(caller) then Fail(403, NotAuthorized)
      else if o.status in Terminal then Fail(400, NotCancellable)
      else
        var refunded :- if Truthy(o.paymentId) then
            var paise := ToPaise(o.totalPrice);
            var receipt :- InitiateRefund(refund(o.paymentId.value, paise), paise);
            Ok(Some(RefundDetails(receipt.id, receipt.amount as real / 100.0, receipt.status, now)))
          else Ok(o.refund);
        var cancelled := o.(status := "Cancelled",
                            cancellation := Some(Cancellation(if IsAdmin(caller) then "Admin" else "User",
                                                              Or(reason, Some(DefaultCancelReason)).value, now)),
                            refund := refunded);
        Ok((s.(products := Restore(s.products, o.items), orders := s.orders[orderId := cancelled]), cancelled))
  }

  /** Cancelling a paid order whose payment the provider reports as
      already fully refunded, whatever else its description says, still
      cancels it: the stock comes back and the order records a processed
      refund of its whole total. */
  lemma RepeatedRefundIsProcessed(s: Store, caller: Caller, orderId: string, reason: Option<string>,
                                  refund: (string, int) -> RefundReply, now: int, description: string)
    requires Cancellable(s, caller, orderId) && Truthy(s.orders[orderId].paymentId)
    requires Contains(description, AlreadyRefundedText)
    requires refund(s.orders[orderId].paymentId.value, ToPaise(s.orders[orderId].totalPrice)) == Rejected(Some(description))
    ensures CancelOrder(s, caller, orderId, reason, refund, now).Ok?
    ensures var o := s.orders[orderId];
      var (s', cancelled) := CancelOrder(s, caller, orderId, reason, refund, now).value;
      && s'.products == Restore(s.products, o.items)
      && cancelled.refund == Some(RefundDetails("already_refunded", ToPaise(o.totalPrice) as real / 100.0, "processed", now))
  {
  }

  /** A cancelled order cannot be cancelled again: whoever asks, the second
      request fails, so the refund and the stock restore happen once. */
  lemma SecondCancelFails(s: Store, caller: Caller, orderId: string, reason: Option<string>,
                          refund: (string, int) -> RefundReply, now: int,
                          again: Caller, reason2: Option<string>, refund2: (string, int) -> RefundReply, later: int)
    requires CancelOrder(s, caller, orderId, reason, refund, now).Ok?
    ensures var s' := CancelOrder(s, caller, orderId, reason, refund, now).value.0;
      var second := CancelOrder(s', again, orderId, reason2, refund2, later);
      && second.Err?
      && (second.error.status == 400 || second.error.status == 403)
  {
    var s' := CancelOrder(s, caller, orderId, reason, refund, now).value.0;
    assert s'.orders[orderId].status == "Cancelled";
    assert "Cancelled" in Terminal;
  }

  /** A freshly placed cash-on-delivery order can be cancelled by its
      owner, needs no refund, and took its lines from stock. */
  lemma CodOrderCancellable(s: Store, userId: Id, req: CodRequest, orderId: Id)
    requires orderId !in s.orders && ValidObjectId(orderId)
    requires PlaceCodOrder(s, userId, req, orderId).Ok?
    ensures var r := PlaceCodOrder(s, userId, req, orderId).value;
      && Cancellable(r.0, Caller(userId, "user"), orderId)
      && r.0.orders[orderId] == r.1
      && !Truthy(r.1.paymentId)
      && r.0.products == Decrement(s.products, r.1.items)
  {
    assert "Processing" !in Terminal;
  }

  /** Cancelling an unpaid order puts its lines back into stock. */
  lemma CancelUnpaidRestores(s: Store, caller: Caller, orderId: string, reason: Option<string>,
                             refund: (string, int) -> RefundReply, now: int)
    requires Cancellable(s, caller, orderId) && !Truthy(s.orders[orderId].paymentId)
    ensures CancelOrder(s, caller, orderId, reason, refund, now).Ok?
    ensures CancelOrder(s, caller, orderId, reason, refund, now).value.0.products == Restore(s.products, s.orders[orderId].items)
  {
  }

  /** Placing a cash-on-delivery order and having its owner cancel it gives
      every product back exactly the stock it had. */
  lemma CancelAfterCodCheckoutRestoresStock(s: Store, userId: Id, req: CodRequest, orderId: Id,
                                            reason: Option<string>, refund: (string, int) -> RefundReply, now: int)
    requires orderId !in s.orders && ValidObjectId(orderId)
    requires PlaceCodOrder(s, userId, req, orderId).Ok?
    ensures var s1 := PlaceCodOrder(s, userId, req, orderId).value.0;
      && CancelOrder(s1, Caller(userId, "user"), orderId, reason, refund, now).Ok?
      && CancelOrder(s1, Caller(userId, "user"), orderId, reason, refund, now).value.0.products == s.products
  {
    var (s1, order) := PlaceCodOrder(s, userId, req, orderId).value;
    CodOrderCancellable(s, userId, req, orderId);
    CancelUnpaidRestores(s1, Caller(userId, "user"), orderId, reason, refund, now);
    RestoreUndoesDecrement(s.products, order.items);
  }
}

=== FILE: pricing.dfy ===
/** The price arithmetic shared by both checkout paths and by cancellation.

    Amounts are exact reals: the binary floating point of the original is
    not modelled, and `Math.round` is floor(x + 0.5).
 */
module Pricing {
  import opened Api
  import opened Model

  /** Orders whose items cost more than this ship free. */
  const FreeShippingAbove: real := 2000.0
  /** Shipping charged on every other order. */
  const FlatShipping: real := 99.0
  /** How far the client's total may be from the server's. */
  const PriceTolerance: real := 1.0

  /** Sum of price times quantity over the order lines. */
  function Subtotal(items: seq<OrderItem>): real {
    if |items| == 0 then 0.0
    else items[0].price * items[0].quantity as real + Subtotal(items[1..])
  }

  /** Lines with non-negative prices and quantities never sum below zero. */
  lemma {:induction false} SubtotalNonNegative(items: seq<OrderItem>)
    requires forall k :: 0 <= k < |items| ==> items[k].price >= 0.0 && items[k].quantity >= 0
    ensures Subtotal(items) >= 0.0
  {
    if |items| > 0 {
      SubtotalNonNegative(items[1..]);
      assert items[0].price * items[0].quantity as real >= 0.0;
    }
  }

  function ShippingFor(subtotal: real): (s: real)
    ensures s == 0.0 || s == FlatShipping
    ensures s == 0.0 <==> subtotal > FreeShippingAbove
  {
    if subtotal > FreeShippingAbove then 0.0 else FlatShipping
  }

  /** The priced order: what the handlers write into `itemsPrice`,
      `shippingPrice`, `discountAmount`, `couponCode` and `totalPrice`. */
  datatype Quote = Quote(
    itemsPrice: real,
    shippingPrice: real,
    discountAmount: real,
    couponCode: Option<string>,
    totalPrice: real)

  /** Price a subtotal, with the coupon that was found, if any. */
  function QuoteFor(subtotal: real, coupon: Option<Coupon>): (q: Quote)
    ensures q.itemsPrice == subtotal
    ensures q.shippingPrice == ShippingFor(subtotal)
    ensures coupon.None? ==> q.discountAmount == 0.0 && q.couponCode.None?
    ensures coupon.Some? ==>
      && q.discountAmount * 100.0 == subtotal * coupon.value.discountPercentage
      && q.couponCode == Some(coupon.value.code)
    ensures q.totalPrice == q.itemsPrice + q.shippingPrice - q.discountAmount
  {
    var discount := if coupon.Some? then subtotal * coupon.value.discountPercentage / 100.0 else 0.0;
    var shipping := ShippingFor(subtotal);
    Quote(subtotal, shipping, discount,
          if coupon.Some? then Some(coupon.value.code) else None,
          subtotal + shipping - discount)
  }

  /** With a percentage within [0, 100] the total never drops below the
      shipping charge, so it is never negative. */
  lemma TotalCoversShipping(subtotal: real, coupon: Option<Coupon>)
    requires subtotal >= 0.0
    requires coupon.Some? ==> 0.0 <= coupon.value.discountPercentage <= 100.0
    ensures QuoteFor(subtotal, coupon).totalPrice >= QuoteFor(subtotal, coupon).shippingPrice >= 0.0
  {
    var q := QuoteFor(subtotal, coupon);
    if coupon.Some? {
      var pct := coupon.value.discountPercentage;
      assert subtotal * pct <= subtotal * 100.0;
      assert q.discountAmount <= subtotal;
    }
  }

  /** The schema puts no bound on the percentage: a coupon above 100 %
      produces an order whose total is negative. */
  lemma OverHundredPercentGoesNegative(c: Coupon)
    requires c.discountPercentage == 150.0
    ensures QuoteFor(3000.0, Some(c)).totalPrice == -1500.0
  {
  }

  /** A 1500 cart without a coupon pays the flat shipping charge. */
  lemma ScenarioBelowThreshold()
    ensures QuoteFor(1500.0, None) == Quote(1500.0, 99.0, 0.0, None, 1599.0)
  {
  }

  /** A 2500 cart with an active 10 % coupon ships free. */
  lemma ScenarioCouponAboveThreshold(c: Coupon)
    requires c.discountPercentage == 10.0
    ensures QuoteFor(2500.0, Some(c)) == Quote(2500.0, 0.0, 250.0, Some(c.code), 2250.0)
  {
  }

  /** `Math.round`: the nearest integer, halves rounded up. */
  function Round(x: real): (n: int)
    ensures n as real - 0.5 <= x < n as real + 0.5
  {
    (x + 0.5).Floor
  }

  /** An amount in rupees as the integer paise the payment provider takes. */
  function ToPaise(amount: real): (p: int)
    ensures p as real - 0.5 <= amount * 100.0 < p as real + 0.5
  {
    Round(amount * 100.0)
  }

  function Abs(x: real): (a: real)
    ensures a >= 0.0 && (a == x || a == -x)
  {
    if x < 0.0 then -x else x
  }

  /** `Math.abs(client - server) > 1` is the price-mismatch condition. */
  predicate WithinTolerance(client: real, server: real) {
    Abs(client - server) <= PriceTolerance
  }
}

=== FILE: profile.dfy ===
/** The signed-in user's addresses, cart and wishlist (user.controller.js).

    Every handler acts on the user the request is authenticated as. Where
    the code dereferences a user document that is not there, or MongoDB
    fails to cast an id, the error is not an `ApiError`; the model answers
    those with 500.
 */
module Profile {
  import opened Api
  import opened Model

  /** Only user `k` differs between the two lists. */
  predicate OnlyUserChanged(users: seq<User>, users': seq<User>, k: nat) {
    && k < |users| && |users'| == |users|
    && forall j :: 0 <= j < |users| && j != k ==> users'[j] == users[j]
  }

  // ---------------------------------------------------------------- setDefaultAddress

  /** The `forEach` that marks the chosen address and unmarks the rest. */
  function MarkDefault(addresses: seq<Address>, id: Id): (r: seq<Address>)
    ensures |r| == |addresses|
    ensures forall i :: 0 <= i < |r| ==> r[i] == addresses[i].(isDefault := addresses[i].id == id)
  {
    seq(|addresses|, i requires 0 <= i < |addresses| => addresses[i].(isDefault := addresses[i].id == id))
  }

  function SetDefaultAddress(users: seq<User>, userId: Id, addressId: string): (r: Result<seq<User>>)
    ensures !ValidObjectId(addressId) ==> r == Fail(400, InvalidId)
    ensures ValidObjectId(addressId) && FindUser(users, userId).None? ==> r == Fail(404, UserNotFound)
    ensures (ValidObjectId(addressId) && FindUser(users, userId).Some?
      && FindAddress(users[FindUser(users, userId).value].addresses, addressId).None?) ==> r == Fail(404, AddressNotFound)
    ensures r.Ok? <==> (ValidObjectId(addressId) && FindUser(users, userId).Some?
      && FindAddress(users[FindUser(users, userId).value].addresses, addressId).Some?)
    ensures r.Ok? ==>
      var k := FindUser(users, userId).value;
      && OnlyUserChanged(users, r.value, k)
      && r.value[k] == users[k].(addresses := MarkDefault(users[k].addresses, addressId))
  {
    if !ValidObjectId(addressId) then Fail(400, InvalidId)
    else match FindUser(users, userId)
      case None => Fail(404, UserNotFound)
      case Some(k) =>
        if FindAddress(users[k].addresses, addressId).None? then Fail(404, AddressNotFound)
        else Ok(users[k := users[k].(addresses := MarkDefault(users[k].addresses, addressId))])
  }

  predicate UniqueAddressIds(addresses: seq<Address>) {
    forall i, j :: 0 <= i < j < |addresses| ==> addresses[i].id != addresses[j].id
  }

  function DefaultCount(addresses: seq<Address>): nat {
    if |addresses| == 0 then 0
    else (if addresses[0].isDefault then 1 else 0) + DefaultCount(addresses[1..])
  }

  lemma {:induction false} MarkDefaultCount(addresses: seq<Address>, id: Id)
    requires UniqueAddressIds(addresses)
    ensures (forall i :: 0 <= i < |addresses| ==> addresses[i].id != id) ==> DefaultCount(MarkDefault(addresses, id)) == 0
    ensures (exists i :: 0 <= i < |addresses| && addresses[i].id == id) ==> DefaultCount(MarkDefault(addresses, id)) == 1
  {
    if |addresses| > 0 {
      var tail := addresses[1..];
      assert MarkDefault(addresses, id)[1..] == MarkDefault(tail, id);
      assert UniqueAddressIds(tail) by {
        forall i, j | 0 <= i < j < |tail| ensures tail[i].id != tail[j].id {
          assert tail[i] == addresses[i + 1] && tail[j] == addresses[j + 1];
        }
      }
      MarkDefaultCount(tail, id);
      if addresses[0].id == id {
        forall i | 0 <= i < |tail| ensures tail[i].id != id {
          assert tail[i] == addresses[i + 1];
        }
      } else if exists i :: 0 <= i < |addresses| && addresses[i].id == id {
        var i :| 0 <= i < |addresses| && addresses[i].id == id;
        assert tail[i - 1].id == id;
      } else {
        forall i | 0 <= i < |tail| ensures tail[i].id != id {
          assert tail[i] == addresses[i + 1];
        }
      }
    }
  }

  /** With unique address ids, exactly one address is the default after a
      successful `setDefaultAddress`, and it is the chosen one. */
  lemma ExactlyOneDefault(users: seq<User>, userId: Id, addressId: string)
    requires SetDefaultAddress(users, userId, addressId).Ok?
    requires UniqueAddressIds(users[FindUser(users, userId).value].addresses)
    ensures var k := FindUser(users, userId).value;
      var after := SetDefaultAddress(users, userId, addressId).value[k].addresses;
      && DefaultCount(after) == 1
      && forall i :: 0 <= i < |after| ==> (after[i].isDefault <==> after[i].id == addressId)
  {
    var k := FindUser(users, userId).value;
    var a := FindAddress(users[k].addresses, addressId).value;
    var i :| 0 <= i < |users[k].addresses| && users[k].addresses[i] == a;
    MarkDefaultCount(users[k].addresses, addressId);
  }

  // ---------------------------------------------------------------- addAddress

  datatype AddressRequest = AddressRequest(
    fullName: Option<string>, phone: Option<string>, kind: Option<string>, street: Option<string>,
    city: Option<string>, state: Option<string>, postalCode: Option<string>, country: Option<string>)

  predicate AddressComplete(req: AddressRequest) {
    Truthy(req.fullName) && Truthy(req.phone) && Truthy(req.street) && Truthy(req.city)
    && Truthy(req.state) && Truthy(req.postalCode)
  }

  /** `addAddress`: type defaults to "Home" and country to "India"; the new
      address is the default exactly when it is the first. `newId` is the
      id MongoDB gives the sub-document. */
  function AddAddress(users: seq<User>, userId: Id, req: AddressRequest, newId: Id): (r: Result<seq<User>>)
    ensures !AddressComplete(req) ==> r == Fail(400, MissingFields)
    ensures AddressComplete(req) && FindUser(users, userId).None? ==> r == Fail(500, UserNotFound)
    ensures r.Ok? <==> AddressComplete(req) && FindUser(users, userId).Some?
    ensures r.Ok? ==> OnlyUserChanged(users, r.value, FindUser(users, userId).value)
    ensures r.Ok? ==>
      var k := FindUser(users, userId).value;
      var before := users[k].addresses;
      var after := r.value[k].addresses;
      && r.value[k] == users[k].(addresses := after)
      && |after| == |before| + 1 && after[..|before|] == before
      && var a := after[|before|];
      && a.id == newId
      && (a.isDefault <==> |before| == 0)
      && Some(a.details.fullName) == req.fullName && Some(a.details.phone) == req.phone
      && Some(a.details.street) == req.street && Some(a.details.city) == req.city
      && Some(a.details.state) == req.state && Some(a.details.postalCode) == req.postalCode
      && a.details.kind == (if Truthy(req.kind) then req.kind.value else "Home")
      && a.details.country == (if Truthy(req.country) then req.country.value else "India")
  {
    if !AddressComplete(req) then Fail(400, MissingFields)
    else match FindUser(users, userId)
      case None => Fail(500, UserNotFound)
      case Some(k) =>
        var before := users[k].addresses;
        var details := AddressDetails(req.fullName.value, req.phone.value, Or(req.kind, Some("Home")).value,
                                      req.street.value, req.city.value, req.state.value, req.postalCode.value,
                                      Or(req.country, Some("India")).value);
        Ok(users[k := users[k].(addresses := before + [Address(newId, details, |before| == 0)])])
  }

  lemma {:induction false} DefaultCountAppend(a: seq<Address>, x: Address)
    ensures DefaultCount(a + [x]) == DefaultCount(a) + (if x.isDefault then 1 else 0)
  {
    if |a| > 0 {
      assert (a + [x])[1..] == a[1..] + [x];
      DefaultCountAppend(a[1..], x);
    }
  }

  /** Adding an address never creates a second default, and the first
      address a user adds becomes the default. */
  lemma AddAddressKeepsOneDefault(users: seq<User>, userId: Id, req: AddressRequest, newId: Id)
    requires AddAddress(users, userId, req, newId).Ok?
    requires DefaultCount(users[FindUser(users, userId).value].addresses) <= 1
    ensures var k := FindUser(users, userId).value;
      var after := AddAddress(users, userId, req, newId).value[k].addresses;
      && DefaultCount(after) <= 1
      && (|users[k].addresses| == 0 ==> DefaultCount(after) == 1)
  {
    var k := FindUser(users, userId).value;
    var before := users[k].addresses;
    var after := AddAddress(users, userId, req, newId).value[k].addresses;
    assert after == before + [after[|before|]];
    DefaultCountAppend(before, after[|before|]);
  }

  // ---------------------------------------------------------------- cart

  /** `cart.findIndex(item => item.product == productId)`. */
  function FindLine(cart: seq<CartLine>, product: Id): Option<nat> {
    FindFirst(cart, LineProduct, product)
  }

  /** Merge-or-append: an existing line for the product grows, otherwise
      a new line is added at the end. */
  function AddLine(cart: seq<CartLine>, product: Id, quantity: int, lineId: Id): (r: seq<CartLine>)
  {
    match FindLine(cart, product)
    case Some(i) => cart[i := cart[i].(quantity := cart[i].quantity + quantity)]
    case None => cart + [CartLine(lineId, product, quantity)]
  }

  lemma {:induction false} CartQtyUpdate(cart: seq<CartLine>, i: nat, line: CartLine, id: Id)
    requires i < |cart| && line.product == cart[i].product
    ensures CartQty(cart[i := line], id)
      == CartQty(cart, id) + (if line.product == id then line.quantity - cart[i].quantity else 0)
  {
    if i > 0 {
      assert cart[i := line][1..] == cart[1..][i - 1 := line];
      CartQtyUpdate(cart[1..], i - 1, line, id);
    }
  }

  lemma {:induction false} CartQtyAppend(cart: seq<CartLine>, line: CartLine, id: Id)
    ensures CartQty(cart + [line], id) == CartQty(cart, id) + (if line.product == id then line.quantity else 0)
  {
    if |cart| > 0 {
      assert (cart + [line])[1..] == cart[1..] + [line];
      CartQtyAppend(cart[1..], line, id);
    }
  }

  /** The cart asks for `quantity` more of the product and nothing else changes. */
  lemma AddLineQuantities(cart: seq<CartLine>, product: Id, quantity: int, lineId: Id, id: Id)
    ensures CartQty(AddLine(cart, product, quantity, lineId), id)
      == CartQty(cart, id) + (if id == product then quantity else 0)
  {
    match FindLine(cart, product)
    case Some(i) => CartQtyUpdate(cart, i, cart[i].(quantity := cart[i].quantity + quantity), id);
    case None => CartQtyAppend(cart, CartLine(lineId, product, quantity), id);
  }

  predicate DistinctLines(cart: seq<CartLine>) {
    forall i, j :: 0 <= i < j < |cart| ==> cart[i].product != cart[j].product
  }

  /** Merging keeps one line per product. */
  lemma AddLineKeepsDistinct(cart: seq<CartLine>, product: Id, quantity: int, lineId: Id)
    requires DistinctLines(cart)
    ensures DistinctLines(AddLine(cart, product, quantity, lineId))
  {
  }

  /** `addToCart`. `quantity` defaults to 1 when absent. Only that
      quantity, not the line's new total, is compared with the stock.
      `lineId` is the id MongoDB gives a new cart line. */
  function AddToCart(s: Store, userId: Id, productId: Option<string>, quantity: Option<int>, lineId: Id): (r: Result<seq<User>>)
    ensures !Truthy(productId) ==> r == Fail(400, MissingFields)
    ensures Truthy(productId) && !ValidObjectId(productId.value) ==> r == Fail(500, InvalidId)
    ensures Truthy(productId) && ValidObjectId(productId.value) && productId.value !in s.products ==> r == Fail(404, ProductNotFound)
    ensures (Truthy(productId) && ValidObjectId(productId.value) && productId.value in s.products
      && s.products[productId.value].stock >= quantity.GetOr(1) && FindUser(s.users, userId).None?)
      ==> r == Fail(500, UserNotFound)
    ensures (Truthy(productId) && ValidObjectId(productId.value) && productId.value in s.products
      && s.products[productId.value].stock < quantity.GetOr(1)) ==> r == Fail(400, OutOfStock)
    ensures r.Ok? <==>
      && Truthy(productId) && ValidObjectId(productId.value) && productId.value in s.products
      && s.products[productId.value].stock >= quantity.GetOr(1)
      && FindUser(s.users, userId).Some?
    ensures r.Ok? ==>
      var k := FindUser(s.users, userId).value;
      && OnlyUserChanged(s.users, r.value, k)
      && r.value[k] == s.users[k].(cart := AddLine(s.users[k].cart, productId.value, quantity.GetOr(1), lineId))
  {
    if !Truthy(productId) then Fail(400, MissingFields)
    else if !ValidObjectId(productId.value) then Fail(500, InvalidId)
    else if productId.value !in s.products then Fail(404, ProductNotFound)
    else
      var q := quantity.GetOr(1);
      if s.products[productId.value].stock < q then Fail(400, OutOfStock)
      else match FindUser(s.users, userId)
        case None => Fail(500, UserNotFound)
        case Some(k) => Ok(s.users[k := s.users[k].(cart := AddLine(s.users[k].cart, productId.value, q, lineId))])
  }

  /** Two requests that each fit the stock can leave the cart asking for
      more than there is: the stock test never looks at what the cart holds. */
  lemma CartCanExceedStock(s: Store, userId: Id, p: Id, lineId: Id)
    requires ValidObjectId(p) && p in s.products && s.products[p].stock == 1
    requires FindUser(s.users, userId).Some?
    requires s.users[FindUser(s.users, userId).value].cart == []
    ensures var s1 := s.(users := AddToCart(s, userId, Some(p), None, lineId).value);
      var users2 := AddToCart(s1, userId, Some(p), None, lineId).value;
      CartQty(users2[FindUser(s.users, userId).value].cart, p) == 2
  {
    var k := FindUser(s.users, userId).value;
    var s1 := s.(users := AddToCart(s, userId, Some(p), None, lineId).value);
    assert FindUser(s1.users, userId) == Some(k) by {
      assert forall j :: 0 <= j < k ==> s1.users[j] == s.users[j];
    }
    AddLineQuantities([], p, 1, lineId, p);
    AddLineQuantities(s1.users[k].cart, p, 1, lineId, p);
  }

  /** `updateCartQuantity`: the quantity must be present and at least 1;
      the first line for the product takes it, and a product that is not
      in the cart changes nothing. */
  function UpdateCartQuantity(users: seq<User>, userId: Id, productId: string, quantity: Option<int>): (r: Result<seq<User>>)
    ensures !(quantity.Some? && quantity.value >= 1) ==> r == Fail(400, MissingFields)
    ensures quantity.Some? && quantity.value >= 1 && !ValidObjectId(productId) ==> r == Fail(500, InvalidId)
    ensures (quantity.Some? && quantity.value >= 1 && ValidObjectId(productId) && FindUser(users, userId).None?)
      ==> r == Fail(500, UserNotFound)
    ensures r.Ok? <==> quantity.Some? && quantity.value >= 1 && ValidObjectId(productId) && FindUser(users, userId).Some?
    ensures r.Ok? ==>
      var k := FindUser(users, userId).value;
      var cart := users[k].cart;
      && OnlyUserChanged(users, r.value, k)
      && match FindLine(cart, productId)
         case None => r.value[k] == users[k]
         case Some(i) => r.value[k] == users[k].(cart := cart[i := cart[i].(quantity := quantity.value)])
  {
    if !(quantity.Some? && quantity.value >= 1) then Fail(400, MissingFields)
    else if !ValidObjectId(productId) then Fail(500, InvalidId)
    else match FindUser(users, userId)
      case None => Fail(500, UserNotFound)
      case Some(k) =>
        var cart := users[k].cart;
        match FindLine(cart, productId)
        case None => Ok(users)
        case Some(i) => Ok(users[k := users[k].(cart := cart[i := cart[i].(quantity := quantity.value)])])
  }

  lemma {:induction false} CartQtyAbsent(cart: seq<CartLine>, id: Id)
    requires forall j :: 0 <= j < |cart| ==> cart[j].product != id
    ensures CartQty(cart, id) == 0
  {
    if |cart| > 0 {
      CartQtyAbsent(cart[1..], id);
    }
  }

  /** With one line per product, the cart's quantity of a product is that
      of its line. */
  lemma {:induction false} CartQtyOfDistinct(cart: seq<CartLine>, i: nat, id: Id)
    requires DistinctLines(cart) && i < |cart| && cart[i].product == id
    ensures CartQty(cart, id) == cart[i].quantity
  {
    var tail := cart[1..];
    if i == 0 {
      forall j | 0 <= j < |tail| ensures tail[j].product != id {
        assert tail[j] == cart[j + 1];
      }
      CartQtyAbsent(tail, id);
    } else {
      assert DistinctLines(tail) by {
        forall a, b | 0 <= a < b < |tail| ensures tail[a].product != tail[b].product {
          assert tail[a] == cart[a + 1] && tail[b] == cart[b + 1];
        }
      }
      assert tail[i - 1] == cart[i];
      CartQtyOfDistinct(tail, i - 1, id);
    }
  }

  /** With one line per product, `updateCartQuantity` makes the cart ask
      for exactly `quantity` of a product it holds, leaves a product it
      does not hold at zero, and changes no other product's quantity. */
  lemma UpdateCartQuantitySetsQuantity(users: seq<User>, userId: Id, productId: string, quantity: Option<int>, id: Id)
    requires UpdateCartQuantity(users, userId, productId, quantity).Ok?
    requires DistinctLines(users[FindUser(users, userId).value].cart)
    ensures var k := FindUser(users, userId).value;
      var cart := users[k].cart;
      var after := UpdateCartQuantity(users, userId, productId, quantity).value[k].cart;
      && DistinctLines(after)
      && CartQty(after, productId) == (if FindLine(cart, productId).Some? then quantity.value else 0)
      && (id != productId ==> CartQty(after, id) == CartQty(cart, id))
  {
    var k := FindUser(users, userId).value;
    var cart := users[k].cart;
    match FindLine(cart, productId)
    case None =>
      CartQtyAbsent(cart, productId);
    case Some(i) =>
      var line := cart[i].(quantity := quantity.value);
      CartQtyUpdate(cart, i, line, id);
      CartQtyUpdate(cart, i, line, productId);
      CartQtyOfDistinct(cart, i, productId);
  }

  /** `$pull: { cart: { _id } }`: every line with that id goes. */
  function PullLine(cart: seq<CartLine>, lineId: Id): (r: seq<CartLine>)
    ensures forall l :: l in r <==> l in cart && l.id != lineId
    ensures forall l :: multiset(r)[l] == if l.id == lineId then 0 else multiset(cart)[l]
  {
    if |cart| == 0 then []
    else
      assert cart == [cart[0]] + cart[1..];
      (if cart[0].id == lineId then [] else [cart[0]]) + PullLine(cart[1..], lineId)
  }

  /** `$pull` works line by line: pulling from two pieces of a cart and
      joining the results is pulling from the whole, so the surviving
      lines keep their order. */
  lemma {:induction false} PullLineAppend(a: seq<CartLine>, b: seq<CartLine>, lineId: Id)
    ensures PullLine(a + b, lineId) == PullLine(a, lineId) + PullLine(b, lineId)
  {
    if |a| == 0 {
      assert a + b == b;
    } else {
      assert (a + b)[1..] == a[1..] + b;
      PullLineAppend(a[1..], b, lineId);
    }
  }

  function RemoveFromCart(users: seq<User>, userId: Id, lineId: string): (r: Result<seq<User>>)
    ensures !ValidObjectId(lineId) ==> r == Fail(400, InvalidId)
    ensures ValidObjectId(lineId) && FindUser(users, userId).None? ==> r == Fail(500, UserNotFound)
    ensures r.Ok? <==> ValidObjectId(lineId) && FindUser(users, userId).Some?
    ensures r.Ok? ==>
      var k := FindUser(users, userId).value;
      && OnlyUserChanged(users, r.value, k)
      && r.value[k] == users[k].(cart := PullLine(users[k].cart, lineId))
  {
    if !ValidObjectId(lineId) then Fail(400, InvalidId)
    else match FindUser(users, userId)
      case None => Fail(500, UserNotFound)
      case Some(k) => Ok(users[k := users[k].(cart := PullLine(users[k].cart, lineId))])
  }

  lemma {:induction false} PullAbsentLine(cart: seq<CartLine>, lineId: Id)
    requires forall j :: 0 <= j < |cart| ==> cart[j].id != lineId
    ensures PullLine(cart, lineId) == cart
  {
    if |cart| > 0 {
      PullAbsentLine(cart[1..], lineId);
      assert cart == [cart[0]] + cart[1..];
    }
  }

  /** Pulling the line that merge-or-append has just added for a product
      the cart did not hold gives the cart back. */
  lemma PullUndoesAddLine(cart: seq<CartLine>, product: Id, quantity: int, lineId: Id)
    requires FindLine(cart, product).None?
    requires forall j :: 0 <= j < |cart| ==> cart[j].id != lineId
    ensures PullLine(AddLine(cart, product, quantity, lineId), lineId) == cart
  {
    var line := CartLine(lineId, product, quantity);
    PullLineAppend(cart, [line], lineId);
    PullAbsentLine(cart, lineId);
    assert PullLine([line], lineId) == [];
  }

  /** Removing the line `addToCart` has just appended, for a product the
      cart did not hold, gives every user back the cart they had. */
  lemma RemoveUndoesAddToCart(s: Store, userId: Id, productId: Option<string>, quantity: Option<int>, lineId: Id)
    requires AddToCart(s, userId, productId, quantity, lineId).Ok?
    requires ValidObjectId(lineId)
    requires FindLine(s.users[FindUser(s.users, userId).value].cart, productId.value).None?
    requires forall j :: 0 <= j < |s.users[FindUser(s.users, userId).value].cart| ==>
      s.users[FindUser(s.users, userId).value].cart[j].id != lineId
    ensures RemoveFromCart(AddToCart(s, userId, productId, quantity, lineId).value, userId, lineId) == Ok(s.users)
  {
    var k := FindUser(s.users, userId).value;
    var u := s.users[k];
    var users1 := AddToCart(s, userId, productId, quantity, lineId).value;
    assert users1 == s.users[k := u.(cart := AddLine(u.cart, productId.value, quantity.GetOr(1), lineId))];
    assert FindUser(users1, userId) == Some(k) by {
      assert forall j :: 0 <= j < k ==> users1[j] == s.users[j];
    }
    PullUndoesAddLine(u.cart, productId.value, quantity.GetOr(1), lineId);
    assert users1[k := users1[k].(cart := u.cart)] == s.users;
  }

  // ---------------------------------------------------------------- wishlist

  /** `$addToSet`. */
  function AddToSet(w: seq<Id>, p: Id): (r: seq<Id>)
    ensures p in w ==> r == w
    ensures p !in w ==> r == w + [p]
  {
    if p in w then w else w + [p]
  }

  /** `$pull` of a value. */
  function Pull(w: seq<Id>, p: Id): (r: seq<Id>)
    ensures forall x :: x in r <==> x in w && x != p
    ensures forall x :: multiset(r)[x] == if x == p then 0 else multiset(w)[x]
  {
    if |w| == 0 then []
    else
      assert w == [w[0]] + w[1..];
      (if w[0] == p then [] else [w[0]]) + Pull(w[1..], p)
  }

  /** Pulling from two pieces of a list and joining the results is pulling
      from the whole: the remaining entries keep their order. */
  lemma {:induction false} PullAppend(a: seq<Id>, b: seq<Id>, p: Id)
    ensures Pull(a + b, p) == Pull(a, p) + Pull(b, p)
  {
    if |a| == 0 {
      assert a + b == b;
    } else {
      assert (a + b)[1..] == a[1..] + b;
      PullAppend(a[1..], b, p);
    }
  }

  function AddToWishlist(users: seq<User>, userId: Id, productId: Option<string>): (r: Result<seq<User>>)
    ensures !Truthy(productId) ==> r == Fail(400, MissingFields)
    ensures Truthy(productId) && !ValidObjectId(productId.value) ==> r == Fail(500, InvalidId)
    ensures (Truthy(productId) && ValidObjectId(productId.value) && FindUser(users, userId).None?)
      ==> r == Fail(500, UserNotFound)
    ensures r.Ok? <==> Truthy(productId) && ValidObjectId(productId.value) && FindUser(users, userId).Some?
    ensures r.Ok? ==>
      var k := FindUser(users, userId).value;
      && OnlyUserChanged(users, r.value, k)
      && r.value[k] == users[k].(wishlist := AddToSet(users[k].wishlist, productId.value))
  {
    if !Truthy(productId) then Fail(400, MissingFields)
    else if !ValidObjectId(productId.value) then Fail(500, InvalidId)
    else match FindUser(users, userId)
      case None => Fail(500, UserNotFound)
      case Some(k) => Ok(users[k := users[k].(wishlist := AddToSet(users[k].wishlist, productId.value))])
  }

  function RemoveFromWishlist(users: seq<User>, userId: Id, productId: string): (r: Result<seq<User>>)
    ensures !ValidObjectId(productId) ==> r == Fail(500, InvalidId)
    ensures ValidObjectId(productId) && FindUser(users, userId).None? ==> r == Fail(500, UserNotFound)
    ensures r.Ok? <==> ValidObjectId(productId) && FindUser(users, userId).Some?
    ensures r.Ok? ==>
      var k := FindUser(users, userId).value;
      && OnlyUserChanged(users, r.value, k)
      && r.value[k] == users[k].(wishlist := Pull(users[k].wishlist, productId))
  {
    if !ValidObjectId(productId) then Fail(500, InvalidId)
    else match FindUser(users, userId)
      case None => Fail(500, UserNotFound)
      case Some(k) => Ok(users[k := users[k].(wishlist := Pull(users[k].wishlist, productId))])
  }

  predicate NoDuplicates(w: seq<Id>) {
    forall i, j :: 0 <= i < j < |w| ==> w[i] != w[j]
  }

  /** Adding the same product twice is the same as adding it once, and the
      wishlist never holds a product twice. */
  lemma WishlistIsASet(users: seq<User>, userId: Id, p: string)
    requires AddToWishlist(users, userId, Some(p)).Ok?
    requires NoDuplicates(users[FindUser(users, userId).value].wishlist)
    ensures var once := AddToWishlist(users, userId, Some(p)).value;
      var k := FindUser(users, userId).value;
      && FindUser(once, userId) == Some(k)
      && AddToWishlist(once, userId, Some(p)) == Ok(once)
      && NoDuplicates(once[k].wishlist)
      && forall x :: x in once[k].wishlist <==> x in users[k].wishlist || x == p
  {
    var k := FindUser(users, userId).value;
    var once := AddToWishlist(users, userId, Some(p)).value;
    assert forall j :: 0 <= j < k ==> once[j] == users[j];
    assert FindUser(once, userId) == Some(k);
    assert p in once[k].wishlist;
    assert once[k := once[k].(wishlist := AddToSet(once[k].wishlist, p))] == once;
  }

  /** Removing a product takes every copy of it out and keeps the rest. */
  lemma RemoveUndoesAdd(users: seq<User>, userId: Id, p: string)
    requires AddToWishlist(users, userId, Some(p)).Ok?
    ensures var once := AddToWishlist(users, userId, Some(p)).value;
      var k := FindUser(users, userId).value;
      && RemoveFromWishlist(once, userId, p).Ok?
      && var after := RemoveFromWishlist(once, userId, p).value[k].wishlist;
      && p !in after
      && forall x :: x != p ==> (x in after <==> x in users[k].wishlist)
  {
    var k := FindUser(users, userId).value;
    var once := AddToWishlist(users, userId, Some(p)).value;
    assert forall j :: 0 <= j < k ==> once[j] == users[j];
    assert FindUser(once, userId) == Some(k);
  }
}

=== FILE: text.dfy ===
/** The JavaScript string operations the handlers rely on, on `seq<char>`.

    Only ASCII is modelled: `trim` strips the ASCII white-space characters,
    and `toUpperCase` / `toLowerCase` (and a case-insensitive regular
    expression) change only the letters a-z / A-Z.
 */
module Text {
  import opened Api

  // ---------------------------------------------------------------- white space

  predicate IsSpace(c: char) {
    c == ' ' || c == '\t' || c == '\n' || c == '\r' || c == '\U{0B}' || c == '\U{0C}'
  }

  /** Number of white-space characters at the start of `s`. */
  function LeadingSpaces(s: string): (n: nat)
    ensures n <= |s|
    ensures forall k :: 0 <= k < n ==> IsSpace(s[k])
    ensures n < |s| ==> !IsSpace(s[n])
  {
    if |s| == 0 || !IsSpace(s[0]) then 0 else 1 + LeadingSpaces(s[1..])
  }

  /** Number of white-space characters at the end of `s`. */
  function TrailingSpaces(s: string): (n: nat)
    ensures n <= |s|
    ensures forall k :: |s| - n <= k < |s| ==> IsSpace(s[k])
    ensures n < |s| ==> !IsSpace(s[|s| - n - 1])
  {
    if |s| == 0 || !IsSpace(s[|s| - 1]) then 0 else 1 + TrailingSpaces(s[..|s| - 1])
  }

  /** `String.prototype.trim`: the slice of `s` left after removing white space
      at both ends; it neither starts nor ends with white space. */
  function Trim(s: string): (t: string)
    ensures exists i, j :: 0 <= i <= j <= |s| && t == s[i..j]
    ensures |t| > 0 ==> !IsSpace(t[0]) && !IsSpace(t[|t| - 1])
    ensures (forall k :: 0 <= k < |s| ==> IsSpace(s[k])) <==> t == ""
  {
    var i := LeadingSpaces(s);
    var a := s[i..];
    var n := TrailingSpaces(a);
    assert a[..|a| - n] == s[i..|s| - n];
    a[..|a| - n]
  }

  /** `s.trim() === ""`. */
  predicate IsBlank(s: string) {
    Trim(s) == ""
  }

  /** JavaScript `!field || field.trim() === ""` on an optional string. */
  predicate Missing(s: Option<string>) {
    s.None? || IsBlank(s.value)
  }

  // ---------------------------------------------------------------- letter case

  function UpperChar(c: char): char {
    if 'a' <= c <= 'z' then (c as int - 32) as char else c
  }

  function LowerChar(c: char): char {
    if 'A' <= c <= 'Z' then (c as int + 32) as char else c
  }

  function Upper(s: string): (u: string)
    ensures |u| == |s|
    ensures forall i :: 0 <= i < |s| ==> u[i] == UpperChar(s[i])
  {
    seq(|s|, i requires 0 <= i < |s| => UpperChar(s[i]))
  }

  function Lower(s: string): (l: string)
    ensures |l| == |s|
    ensures forall i :: 0 <= i < |s| ==> l[i] == LowerChar(s[i])
  {
    seq(|s|, i requires 0 <= i < |s| => LowerChar(s[i]))
  }

  /** A whole-string match under the regular-expression flag `i`
      (`/^a$/i.test(b)` with no metacharacters in `a`). */
  predicate EqualsIgnoreCase(a: string, b: string) {
    Upper(a) == Upper(b)
  }

  lemma UpperIdempotent(s: string)
    ensures Upper(Upper(s)) == Upper(s)
  {
  }

  /** Anything that equals the upper-cased form of `x` matches `x` ignoring case. */
  lemma UpperMatchesIgnoringCase(code: string, x: string)
    requires code == Upper(x)
    ensures EqualsIgnoreCase(code, x)
  {
    UpperIdempotent(x);
  }

  // ---------------------------------------------------------------- search

  /** `s.indexOf(c)` for a one-character needle. */
  function IndexOfChar(s: string, c: char): (k: int)
    ensures -1 <= k < |s|
    ensures k == -1 <==> c !in s
    ensures k >= 0 ==> s[k] == c && c !in s[..k]
  {
    if |s| == 0 then -1
    else if s[0] == c then 0
    else
      var k := IndexOfChar(s[1..], c);
      if k == -1 then -1 else k + 1
  }

  /** `s.lastIndexOf(c)` for a one-character needle. */
  function LastIndexOfChar(s: string, c: char): (k: int)
    ensures -1 <= k < |s|
    ensures k == -1 <==> c !in s
    ensures k >= 0 ==> s[k] == c && c !in s[k + 1..]
  {
    if |s| == 0 then -1
    else if s[|s| - 1] == c then |s| - 1
    else LastIndexOfChar(s[..|s| - 1], c)
  }

  /** `parts.indexOf(x)`: the first position holding `x`, or -1. */
  function IndexOf(parts: seq<string>, x: string): (k: int)
    ensures -1 <= k < |parts|
    ensures k == -1 <==> x !in parts
    ensures k >= 0 ==> parts[k] == x && x !in parts[..k]
  {
    if |parts| == 0 then -1
    else if parts[0] == x then 0
    else
      var k := IndexOf(parts[1..], x);
      if k == -1 then -1 else k + 1
  }

  predicate OccursAt(s: string, sub: string, i: int) {
    0 <= i && i + |sub| <= |s| && s[i..i + |sub|] == sub
  }

  /** `s.includes(sub)`. */
  predicate Contains(s: string, sub: string) {
    exists i | 0 <= i <= |s| - |sub| :: OccursAt(s, sub, i)
  }

  // ---------------------------------------------------------------- split / join

  /** `s.split(c)` for a one-character separator. */
  function Split(s: string, c: char): (parts: seq<string>)
    ensures |parts| >= 1
    ensures forall i :: 0 <= i < |parts| ==> c !in parts[i]
    decreases |s|
  {
    var k := IndexOfChar(s, c);
    if k < 0 then [s] else [s[..k]] + Split(s[k + 1..], c)
  }

  /** `parts.join(c)` for a one-character separator. */
  function Join(parts: seq<string>, c: char): string {
    if |parts| == 0 then ""
    else if |parts| == 1 then parts[0]
    else parts[0] + [c] + Join(parts[1..], c)
  }

  /** Splitting and joining on the same separator gives the string back. */
  lemma {:induction false} JoinSplit(s: string, c: char)
    ensures Join(Split(s, c), c) == s
    decreases |s|
  {
    var k := IndexOfChar(s, c);
    if k >= 0 {
      var rest := Split(s[k + 1..], c);
      JoinSplit(s[k + 1..], c);
      assert Split(s, c) == [s[..k]] + rest;
      assert Join(Split(s, c), c) == s[..k] + [c] + Join(rest, c);
      assert s == s[..k] + [c] + s[k + 1..];
    }
  }

  /** Joining separator-free parts and splitting again gives the parts back. */
  lemma {:induction false} SplitJoin(parts: seq<string>, c: char)
    requires |parts| >= 1
    requires forall i :: 0 <= i < |parts| ==> c !in parts[i]
    ensures Split(Join(parts, c), c) == parts
  {
    if |parts| == 1 {
      assert IndexOfChar(parts[0], c) == -1;
    } else {
      var head, s := parts[0], Join(parts, c);
      assert s == head + [c] + Join(parts[1..], c);
      assert IndexOfChar(s, c) == |head| by {
        assert s[|head|] == c;
        assert s[..|head|] == head;
      }
      assert s[|head| + 1..] == Join(parts[1..], c);
      SplitJoin(parts[1..], c);
      assert parts == [head] + parts[1..];
    }
  }

  /** `String(x).split(',').map(t => t.trim())`. */
  function SplitTrim(s: string): (items: seq<string>)
    ensures |items| == |Split(s, ',')|
    ensures forall i :: 0 <= i < |items| ==> items[i] == Trim(Split(s, ',')[i])
  {
    var parts := Split(s, ',');
    seq(|parts|, i requires 0 <= i < |parts| => Trim(parts[i]))
  }
}
